=== FILE: README.md ===
# Carrier-sales backend: a Dafny model of the event log and its projections

The backend serves a voice agent that books freight loads with truck carriers.
Each call posts events to an append-only log in SQLite (the MC number has been
verified, a load was matched, the negotiation is done, the call has been
classified). The dashboard and metrics endpoints rebuild each call's record from
its events. This project models that core as pure functions over immutable
values, and proves what the code promises about it:

- **Store** (`Storage`, app/storage.py).
  - The event log is a `seq<Event>` with increasing ids.
  - Carrier profiles and call search preferences are maps from key to row.
  - Modelled operations: append, the per-call query, the distinct-call listing,
    and the two upserts with their getters.
- **Boundary normalisers** (`Boundary`, `Numbers`, `Text`). These cover
  `_effective_call_id` and `safe_number_convert`. They rest on Python's
  `strip`, `int()` and `float()` on text.
- **Registry lookups** (`Fmcsa`, app/fmcsa.py and `verify_mc`).
  - MC-number cleaning.
  - The status/content-to-result mapping of `lookup_carrier_by_mc`.
  - `is_carrier_eligible`.
  - `verify_mc`'s inline classification.

  The HTTP call is an input of type `HttpOutcome`.
- **API-key check** (`Auth`). `verify_api_key` is an accept / 401 / 500 decision.
- **Sentiment** (`Sentiments`). `_normalize_sentiment` over ASCII text.
- **Call records** (`CallRecords`). `_build_call_record`:
  - grouping by event type, where the latest event wins;
  - the three-state verification status;
  - the choice of load;
  - the negotiation summary;
  - the four-way outcome;
  - sentiment and search preferences.

  A Python exception raised while building a record is the value `Crashed`.
  The listing and metrics endpoints skip those calls, as the code's
  `except: continue` does.
- **Request handlers** (`Handlers`). These are the store effects of:
  - `/log_event`, `/call_output`, `/classify_call` and `/handoff_context`;
  - `/submit_load`;
  - `/set_call_search_prefs`;
  - `/verify_mc`.
- **Rollups** (`Metrics`, with `Sorting` and `Tally` for `sorted` and the
  dict-counting idioms). The overview, negotiation and carrier-insight metrics.

JSON values are the datatype `JsonValues.Json`, which keeps Python's int and
float apart. Python truthiness, `or` and `dict.get` are modelled explicitly.

## Model

| member | source | states |
|---|---|---|
| Auth.VerifyApiKey | app/auth.py:14-35 | The check fails with 500 exactly when no key is configured. It accepts exactly when a key is configured and either the bearer token or the X-API-Key header equals it; the header alone suffices. Every other request gets 401. |
| Boundary.EffectiveCallId | app/main.py:57-59 | The effective call id is never empty and has no surrounding whitespace. It is "unknown" exactly when the id is missing, blank, or "unknown" after stripping. Otherwise it is the stripped id. |
| Boundary.EffectiveCallIdIdempotent | app/main.py:57-59 | Normalising an already effective call id changes nothing. |
| Boundary.SafeFloat | app/main.py:62-75 | `safe_number_convert(v, float)` gives None exactly for None, lists, dicts and strings `float()` rejects, blank strings among them. It passes numbers through and maps booleans to 1.0/0.0. |
| Boundary.SafeInt | app/main.py:62-75 | `safe_number_convert(v, int)` gives None exactly for None, lists, dicts and strings `int()` rejects. Floats truncate toward zero; ints and booleans pass through. |
| Boundary.SafeIntAgreesWithSafeFloat | app/main.py:62-75 | Whatever converts to an int also converts to a float. For text, ints and booleans, both conversions give the same number. |
| Boundary.IntTextConverts | app/main.py:62-75 | In the model's ASCII sign-and-digits parser, the decimal text of any integer converts back to that integer, both as an int and as a float. |
| Numbers.IntRoundTrip | app/main.py:62-75 | The model's sign-and-digits parser inverts the model's decimal printer for every integer. |
| Numbers.FloatOfIntString | app/main.py:62-75 | The model's float parser reads the model's decimal text of any integer as that integer. |
| Numbers.IntTextIsFloatText | app/main.py:62-75 | Any text `int()` accepts, `float()` accepts with the same value. |
| Numbers.DecimalExample | app/main.py:62-75 | "12.5" converts to the float 12.5 but is rejected by `int()`. |
| Fmcsa.CleanMc | app/fmcsa.py:42 | A cleaned MC number holds no '-' and no lowercase ASCII letter, and has no surrounding whitespace. |
| Fmcsa.CleanMcShape | app/main.py:106 | The same cleaning as written inline in `verify_mc` has the same shape guarantees. |
| Fmcsa.CleanMcExample | app/fmcsa.py:42 | A spoken "mc-123" cleans to the bare docket number "123". |
| Fmcsa.CleanMcOfDocket | app/fmcsa.py:42 | For every non-empty string of digits, the spellings "MC", "mc-", "Mc " (any letter case, with a dash, a space or nothing) or no prefix at all, with any whitespace around them, clean to exactly those digits. |
| Text.StripSurrounded | app/fmcsa.py:42 | `strip()` removes exactly the whitespace around a string that neither starts nor ends with whitespace. |
| Fmcsa.LookupCarrierByMc | app/fmcsa.py:25-103 | A missing web key is reported without a request. A non-200 status is an API error with that status, and a timeout is a timeout. A transport failure is an API error with its message. A 200 whose body is not a dict raises, which is caught as an API error. A 200 with empty content means no carrier with the cleaned MC number. Otherwise the carrier is found exactly when the first content item holds a carrier dict (or none, read as `{}`), and then the result is that carrier with the cleaned MC number; any other first item is an API error. |
| Fmcsa.FirstCarrier | app/fmcsa.py:54-55 | `content[0].get("carrier", {})` yields a dict exactly when `content` is a non-empty list whose first item is a dict holding a dict (or nothing) under `carrier`, and then it is that dict; a missing `carrier` gives `{}`. |
| Fmcsa.MissingAllowedFieldMeansNotAllowed | app/fmcsa.py:50-78 | A registry record lacking `allowedToOperate` is found but not allowed to operate. |
| Fmcsa.IsCarrierEligible | app/fmcsa.py:106-129 | Empty data is ineligible with reason "not found". A falsy `allowed_to_operate` is ineligible with "not authorized", checked before the rating. An UNSATISFACTORY rating is ineligible. The reason is absent exactly when the carrier is eligible, and eligibility holds exactly when authorised and the rating is not UNSATISFACTORY. |
| Fmcsa.RatingCaseIgnored | app/fmcsa.py:120-122 | Whether a rating counts as unsatisfactory does not depend on its letter case. |
| Fmcsa.FoundCarrierEligibility | app/fmcsa.py:106-129 | A carrier found by the lookup, whose rating is text or null, never makes the eligibility check raise. It is eligible exactly when allowed to operate with a rating other than UNSATISFACTORY. |
| Fmcsa.VerifyMcDecision | app/main.py:110-138 | `verify_mc` reports eligible exactly when no reason is given. A carrier object comes only from a 200 response. With a carrier, eligibility holds exactly when `allowedToOperate` is "Y" and `outOfService` is not. "Not allowed to operate" takes precedence over "out of service". A missing web key, a 404, any other status and empty content are all ineligible, each with its own reason. |
| Sentiments.NormalizeSentiment | app/main.py:418-436 | A falsy input is neutral. A truthy non-string raises, modelled as None. Every string maps to one of the four sentiments. |
| Sentiments.NormalizeSentimentIdempotent | app/main.py:418-436 | Normalising the name of a normalised sentiment gives the same sentiment. |
| Sentiments.ClassifyIgnoresCaseAndSpace | app/main.py:421 | Upper-casing, lower-casing or stripping the input never changes the sentiment. |
| Sentiments.PositiveIff | app/main.py:422-431 | Text is positive exactly when it is one of the positive phrases or contains "positive", so text containing both words is positive. |
| Sentiments.NegativeIff | app/main.py:426-433 | Text is negative exactly when it is a negative phrase, or contains "negative" but not "positive". |
| Storage.EmptyStoreValid | app/storage.py:10-89 | The freshly created store satisfies the store invariant: increasing event ids and every row filed under its own key. |
| Storage.LogEvent | app/storage.py:92-102 | Logging appends exactly one event, with the given call id, type, payload and timestamp. Its id is larger than every earlier id. Earlier events, profiles and prefs are unchanged, and the store invariant is kept. |
| Storage.EventsByCallId | app/storage.py:236-252 | The per-call query returns exactly the events of that call, in increasing id order. |
| Storage.LogEventOtherCalls | app/storage.py:236-252 | Logging an event for one call leaves every other call's event history unchanged. |
| Storage.LogEventOwnCall | app/storage.py:236-252 | After logging, the call's history is its old history followed by the new event. |
| Storage.DistinctCallIds | app/storage.py:221-233 | The call list has no duplicates. An id is listed exactly when it occurs in the log and is not blank after trimming spaces and not "unknown". |
| Storage.DistinctCallIdsOrdered | app/storage.py:229 | The call list is ordered by each call's latest event id, newest first. |
| Storage.LatestIdIsMax | app/storage.py:229 | The latest id of a call bounds the id of every event of that call. |
| Storage.UpsertExisting | app/storage.py:119-133 | Upserting an existing row overwrites exactly the fields given a non-None value and keeps every other field. It refreshes `updated_at` and adds nothing else. The caller's dict gains `updated_at`. |
| Storage.UpsertNew | app/storage.py:134-140 | Upserting a new key inserts a row with the key column and every supplied field as given, None included. Column defaults fill the rest, and the row has nothing else. |
| Storage.UpsertKeepsKeyed | app/storage.py:105-207 | After an upsert every row is still filed under the value of its key column, so exactly one row exists per key. |
| Storage.GetAfterUpsert | app/storage.py:152-160 | A get right after an upsert returns the upserted row. |
| Storage.NeverUpsertedIsAbsent | app/storage.py:210-218 | A get on a key no upsert ever touched returns None. |
| Storage.UpsertTwice | app/storage.py:119-140 | Upserting the same updates twice gives the same row as upserting once, apart from `updated_at`. |
| Storage.UpsertCarrierProfile | app/storage.py:105-149 | The carrier-profile upsert leaves events, prefs and every other profile unchanged and keeps the store invariant. The profile reads back as the returned row. |
| Storage.NewProfileDefaultRadius | app/storage.py:40-41 | A new profile that is not given a radius gets 50 miles for both the origin and the destination radius. |
| Storage.UpsertCallSearchPrefs | app/storage.py:163-207 | The prefs upsert leaves events, profiles and every other call's prefs unchanged and keeps the store invariant. The prefs read back as the returned row. |
| CallRecords.GroupByType | app/main.py:443-447 | A type appears exactly when some event has it as its key after stripping whitespace and then quotes, and the key is non-empty. Its entry is the payload of the last such event. |
| CallRecords.LatestEventWins | app/main.py:444-447 | A later event of a type replaces what the record reads for that type. |
| CallRecords.OtherTypesUnchanged | app/main.py:444-447 | An event of one type leaves what the record reads for every other type unchanged. |
| CallRecords.PayloadAsDict | app/main.py:326-339 | A dict payload is used as is. Empty text and text that does not decode give the empty dict. Text decoding to a dict gives that dict, and text decoding to a list, number, boolean or null gives the empty dict. Text decoding to a string is decoded again, for as long as strings come back. Any other payload gives the empty dict. |
| CallRecords.DoubleEncodedPayload | app/main.py:326-339 | A dict stored as JSON text reads the same as the dict itself. |
| CallRecords.TwiceEncodedPayload | app/main.py:334-337 | A dict encoded as JSON text twice over still reads as the dict. |
| CallRecords.StatusOf | app/main.py:469 | The status is failed exactly for `eligible is False`, verified exactly for `eligible is True`, and pending for anything else. |
| CallRecords.ProfileKey | app/storage.py:152-160 | The profile lookup `get_carrier_profile(mc_number)` at app/main.py:466 raises exactly when the MC number cannot be bound: a list, a dict or an integer beyond 64 bits. Text is looked up as is, and a bindable integer as its decimal text. |
| CallRecords.CarrierName | app/main.py:463-467 | The carrier name is the truthy `name`, else `legal_name`, else the stored profile's legal name, else "Unknown". It raises only when the profile must be looked up with an MC number sqlite cannot bind as a parameter: a list, a dict, or an integer beyond 64 bits. |
| CallRecords.LoadFrom | app/main.py:474-489 | A matched load exists exactly when the chosen payload names a load id or origin. It keeps a truthy load id, and its rate is the converted `loadboard_rate`, else `rate`, else 0. |
| CallRecords.PickLoad | app/main.py:470-472 | The negotiation payload is the load source when it names a load. Otherwise the best-load payload is, and a truthy non-dict best load raises. |
| CallRecords.RoundsOf | app/main.py:490-495 | The round count is an int or `True`. A non-zero int and `True` are kept, and a falsy value is 0. Numeric text is parsed, and text `int()` refuses gives 0. A list or dict gives 0. A truthy float is truncated toward zero. |
| CallRecords.CounterOffers | app/main.py:497 | A list gives one converted offer per element, with 0 where conversion fails. A truthy number raises. |
| CallRecords.NegotiationOf | app/main.py:496-500 | A negotiation exists exactly when a load matched or the negotiation payload is non-empty. `agreed` is the accepted flag, and the final rate is the converted `final_price`, else `final_rate`. The counter offers are the ones given. The initial offer is the first convertible non-zero value of `loadboard_rate`, `original_rate` and the load's rate. Otherwise it is the load's rate, or 0 with no load. |
| CallRecords.WithFallbackRate | app/main.py:501-505 | Only the load's rate may change. A non-zero rate is kept. A zero rate takes a positive initial offer. With a zero initial offer it takes a positive final rate instead. A negative initial offer, or a zero one with no positive final rate, leaves the load unchanged. Any replacement is positive. |
| CallRecords.OutcomeOf | app/main.py:506-513 | The outcome is total and exclusive. Explicit `eligible` False is failed verification, whatever the negotiation. Otherwise an empty negotiation is dropped, an accepted one is booked, and the rest are no deal. |
| CallRecords.DurationOf | app/main.py:448-459 | A workflow-reported non-negative duration overrides the timestamp span. Otherwise the span is kept: when the duration is absent, unconvertible or negative. |
| CallRecords.PrefsView | app/main.py:555-558 | The prefs view holds exactly the twelve listed fields. The text fields are shown as stored. |
| CallRecords.PayloadsOf | app/main.py:455-470 | Building proceeds exactly when the classified, verification, carrier and negotiation payloads are each a dict or falsy. |
| CallRecords.DealOf | app/main.py:473-513 | A booked call has an agreed negotiation, and a no-deal call has one that is not agreed. An agreed negotiation on a call that did not fail verification is booked. A dropped call has a negotiation exactly when a load matched. |
| CallRecords.BuildFromEvents | app/main.py:439-559 | No events means no record. A record carries the call id and the first timestamp. It is FMCSA-verified exactly when its status is verified, and failed exactly when its outcome is failed verification. It has the booked and no-deal agreement facts. When the negotiation names a load, the record's load is that load. |
| CallRecords.RecordReadsPayloads | app/main.py:439-559 | For a call with events, the build raises exactly when there are no payloads, or when the carrier name, the load choice, the counter offers or the sentiment raises. A record's carrier name, MC number (`—` when empty), duration, sentiment, tone and search preferences are the ones its latest payloads give. |
| CallRecords.RawSentiment | app/main.py:515-521 | The raw sentiment is the `sentiment_classified` payload's `sentiment_classification` if truthy. Otherwise it is that payload's `sentiment` if truthy, else the `call_classified` payload's `sentiment`. |
| CallRecords.ToneOf | app/main.py:515-522 | The tone is the `sentiment_classified` payload's tone if truthy, else the `call_classified` payload's tone. |
| CallRecords.BuildCallRecord | app/main.py:439-442 | The record is absent exactly when the log holds no event for the call, and a record that builds carries the call's id. |
| CallRecords.RecordIgnoresOtherCalls | app/main.py:439-559 | Logging for another call never changes a call's record. |
| Handlers.HandleLogEvent | app/main.py:164-176 | A missing payload logs nothing and answers the schema probe. Otherwise exactly one event is appended under the effective call id. A blank type is logged as "log_event" with a warning. Otherwise the warning appears exactly when the call id is "unknown". |
| Handlers.LoggedPayloadIsLatest | app/main.py:164-176 | Right after `/log_event`, the call's record reads the posted payload for the logged event type, whenever that type does not normalise to an empty key. |
| Handlers.LoggedCallListedIffKnown | app/main.py:172-175 | After `/log_event` the call is in the call list exactly when its effective id is not "unknown". |
| Handlers.HandleCallOutput | app/main.py:179-183 | `/call_output` appends exactly one event under the effective call id, with the stripped type, "call_output" when blank. |
| Handlers.CallOutputIsLatest | app/main.py:179-183 | Right after `/call_output`, the call's record reads the posted payload for the logged type; with a blank type it reads it under `call_output`. |
| Handlers.LogRequest | app/main.py:186-196 | `/classify_call` and `/handoff_context` append the whole request under their fixed type, filed under the request's effective call id. |
| Handlers.RequestIsLatest | app/main.py:186-196 | Right after `/classify_call` or `/handoff_context`, the call the event was filed under reads the whole request as its latest `call_classified` or `handoff_initiated` payload. |
| Handlers.SubmittedPayload | app/main.py:287-289 | The stored load drops None fields and the call id, and carries the rate under `rate`, taken from `rate` or else `loadboard_rate`. |
| Handlers.HandleSubmitLoad | app/main.py:281-293 | `/submit_load` is rejected with 400 exactly when neither load id nor origin is truthy, and then changes nothing. Otherwise it logs one `best_load_retrieved` event holding the submitted load. |
| Handlers.SubmittedLoadIsMatched | app/main.py:281-293 | An accepted load always reads back as a matched load. It keeps its id and shows the rate sent under either name. |
| Handlers.PrefsUpdates | app/main.py:202-210 | Only fields sent with a value are kept, without the call id. Weight is converted to an int and the temperatures to floats, None when conversion fails. |
| Handlers.HandleSetCallSearchPrefs | app/main.py:199-217 | The call's prefs read back as the returned row, and other calls' prefs and profiles are unchanged. One update event is appended, stamped with `updated_at`. |
| Handlers.PrefsFieldsStored | app/main.py:199-217 | Every field sent with a value, other than the three converted numbers, reads back exactly as sent. |
| Handlers.UnparsedWeightHandling | app/main.py:208-210 | An unparseable weight capacity keeps the old value of an existing row but is stored as NULL on a new row. |
| Handlers.ResultPayload | app/main.py:152-156 | The logged result carries `eligible`, the reason, and the carrier object or null. |
| Handlers.RecordVerification | app/main.py:139-161 | `/verify_mc` appends the request event and then the result event, and touches no prefs and no other profile. With no carrier, or a carrier whose profile fields can all be bound, the response is the registry decision. A profile field that is a list, a dict or an integer beyond 64 bits makes the upsert raise: the response is then ineligible with the error text and no carrier, and no profile changes. The logged result matches the response. Profiles change only when a carrier is answered, and then the MC number has a profile. |
| Handlers.HandleVerifyMc | app/main.py:103-161 | `/verify_mc` answers the registry decision for the cleaned MC number unless the profile upsert raises, in which case it answers ineligible with the error text. Either way it records the answer under the effective call id. |
| Handlers.TextualCarrierIsStored | app/main.py:139-156 | When the registry's name, DOT number, city and state are text or null, the registry's verdict is answered, and the carrier's profile then holds the registry's name and DOT number wherever they were given. |
| Handlers.VerifyDecidesStatus | app/main.py:139-161 | After `/verify_mc`, the call's verification status is verified or failed as the response says, never pending, on the failing-upsert path as well. |
| Metrics.CollectRecords | app/main.py:719-727 | The metrics see exactly the records of the listed calls whose build succeeds, in the listing's order: the `i`-th record belongs to the `i`-th listed call that builds. No call contributes two records. |
| Metrics.RecordsFor | app/main.py:721-727 | Over any id list and builder, the kept records are those of the ids that build, in the ids' order, each the record its id builds to. |
| Metrics.OutcomeCountsSum | app/main.py:728-732 | The four outcome counts add up to the number of records. |
| Metrics.SentimentCountsSum | app/main.py:750-754 | The four sentiment counts add up to the number of records. |
| Metrics.Percentage | app/main.py:733 | A rate lies between 0 and 100 and is 0 when there are no records. Otherwise it is the exact percentage, before rounding. |
| Metrics.Spreads | app/main.py:734-741 | Every spread is non-negative. |
| Metrics.SpreadsCount | app/main.py:734-741 | There is one spread per record with both a listed rate and a final rate. |
| Metrics.MetricsOverview | app/main.py:717-755 | The total is the number of records, and each of the four outcome counts and four sentiment counts is that outcome's or sentiment's count; each group adds up to the total. The conversion rate is the booked percentage, between 0 and 100 and 0 with no records. The average spread is the mean of the spreads, non-negative and 0 with no spreads. |
| Metrics.EffectiveLoadboardRate | app/main.py:758-763 | A positive listed rate is used as is. |
| Metrics.EffectiveRateOfRecord | app/main.py:758-763 | On a call record, the effective rate is the listed rate when positive. Otherwise it is the initial offer when non-zero, else the final rate, else 0. |
| Metrics.DisplayFallbackKeepsEffectiveRate | app/main.py:501-505 | The display fallback `_build_call_record` applies to a zero rate never changes the effective rate the negotiation metrics use. |
| Metrics.ChartPoints | app/main.py:790-796 | Chart points come only from records with a positive effective rate and carry at most ten date characters. |
| Metrics.NewestNegotiated | app/main.py:773-799 | The negotiated records are exactly those with a negotiation and a load, sorted newest first, as a permutation of the filtered records. |
| Metrics.ChronologicalPoints | app/main.py:790-796 | The chart points of the negotiated records sorted oldest first: at most one per negotiated record, each with a positive rate. |
| Metrics.RecentTable | app/main.py:797-805 | One row for each of the 12 newest negotiated records (all of them when fewer), newest first: row `i` is the row of the `i`-th newest record, with a non-negative spread. |
| Metrics.MetricsNegotiations | app/main.py:766-806 | The total counts the records with a negotiation and a load. Successes are the agreed ones among them, and the success rate is their percentage, in 0..100. The average discount is the mean of their discounts. The chart is the last 24 of their chart points in chronological order, all with a positive rate. The recent table is the recent rows of the 12 newest. |
| Metrics.RecentAreNewest | app/main.py:799 | No negotiation left out of the twelve recent rows is newer than one shown. |
| Metrics.MostFrequent | app/main.py:829-836 | The tally sorted by descending count has one entry per distinct value, no key twice, and each entry holds its value's exact number of occurrences. |
| Metrics.EntryOfValue | app/main.py:829-836 | Every value of the input has an entry in the sorted tally. |
| Metrics.TopCounts | app/main.py:829-836 | The sorted tally cut to values seen at least a given number of times and then to the first `n`: at most `n` entries, distinct keys, descending counts, each count exact and at least the threshold. |
| Metrics.TopCountsComplete | app/main.py:829-836 | A value seen at least the threshold number of times is listed, unless `n` entries are listed and the last has a count no smaller than its own. |
| Metrics.RepeatCallers | app/main.py:820-829 | At most eight repeat callers, each MC number once, in descending count order. Each was called more than once and carries its exact call count, the carrier name of its last record and the first three distinct lanes of its records. |
| Metrics.RepeatCallersComplete | app/main.py:820-829 | Every MC number called more than once is listed, unless eight are listed and the eighth was called at least as often. |
| Metrics.FrequentLanes | app/main.py:830-836 | At most eight lanes, each once, in descending count order, each with its exact count among records with an origin and a destination. |
| Metrics.FrequentLanesComplete | app/main.py:830-836 | Every lane some record has is listed, unless eight are listed and the eighth was seen at least as often. |
| Metrics.CarrierInsights | app/main.py:809-836 | The insights endpoint fails exactly when some record's MC number is a list or a dict, which cannot key the per-MC counts. Otherwise it answers the repeat callers and the frequent lanes. |
| Sorting.SortBy | app/main.py:791-799 | `sorted` returns a permutation of its input ordered by the key. |
| Sorting.LexLeTotal | app/main.py:791 | Python's string order compares any two timestamps. |
| Sorting.LexLeTrans | app/main.py:791 | Python's string order is transitive. |
| Tally.Dedupe | app/main.py:829 | `dict.fromkeys` keeps each value exactly once and drops no value. |
| Tally.TallyOf | app/main.py:823-835 | The counting loop has one entry per distinct value, in first-occurrence order, holding its number of occurrences. |
| Tally.TallyCountsAll | app/main.py:823-835 | Every value counted has a positive count, and every input value is counted. |
| Tally.DistinctPermutation | app/main.py:829 | Sorting a tally with no repeated entry yields none either: a permutation of a sequence without repeats has none. |
| Tally.FilterKeepsOrder | app/main.py:773 | Filtering a sorted list keeps it sorted. |

## Left out

- **I/O.**
  - SQLite connections, `init_db` and its migrations. The store is a value, and the auto-increment id is modelled as one more than the last id.
  - The registry's HTTP GET is the input `HttpOutcome` (status and body, timeout, or failure with its message).
  - Sending the handoff email.
- **The clock.**
  - `utcnow()` is the input `now`.
  - The duration computed from ISO timestamps is the parameter `span`.
  - `calls_today` in the overview is not modelled, because it needs the current time and ISO datetime parsing.
- **Randomness.** `generate_fake_loads`, and the `/find_loads` and `/get_best_load` endpoints built on it, draw random loads.
- **JSON encoding.**
  - Payloads are stored as JSON and read back as the same value. That is, `json.loads(json.dumps(p)) == p` is taken as given.
  - The decoder `_payload_as_dict` applies to a string is a parameter. It is required only to shrink a string it decodes to another string.
- **Floating point.**
  - Amounts are exact reals.
  - `round(..., 1)` and `round(..., 0)` are left out; the model states the value before rounding.
  - `float()` text beyond sign, digits and one decimal point (exponents, `inf`, `nan`, underscores, non-ASCII digits) is not parsed.
- **Text.**
  - Case mapping is ASCII only.
  - The lane is a pair (origin, destination) rather than the string `"origin → destination"`.
  - Timestamps are opaque strings, cut to 10 or 19 characters (the 19-character form with its `T` replaced by a space).
- **Python's dict keys.** The model's dicts key on strings. An MC number in a tally is a `Json` value, so `1`, `1.0` and `True` count as different keys where Python would merge them. A list or dict MC number makes the insights endpoint raise, which Metrics.CarrierInsights models as `None`.
- **Error text.** An exception's message is an input string. The text of a Python traceback is not modelled.
- **Presentation endpoints.**
  - `get_call_summary` with its sentences and its "most recent sentiment from any call" fallback.
  - The handoff summary and email bodies.
  - The dashboard HTML.
  - `/api/live-data`.
  - The filters of `/api/calls`.
  - `_first_reasoning`, the free-text reasoning lookup of `_build_call_record` (app/main.py:524-554). The record carries no reasoning field.
- **Request validation.** Pydantic's parsing of request bodies is left out. Handlers receive the parsed fields, absent as `None`.
- **Negotiation engine.** The request and response shapes of a negotiation endpoint are declared, but no handler implements them, so there is no accept/counter/reject logic to model.
- CallRecords.CounterOffers: when `counter_offers` is a dict, Python iterates over its keys. The model returns the empty list, because the datatype's maps have no iteration order.
- CallRecords.CounterOffers: for text it states only the length, one offer per character.
- Metrics.EffectiveLoadboardRate: the ensures covers only the positive listed rate. The fallback chain is stated, for call records, by Metrics.EffectiveRateOfRecord.
- Sorting.SortBy: stability (ties keep their input order) is built into the insertion but not stated. So which of several tied entries fall inside the 8, 12 and 24 cuts is not stated either: Metrics.TopCountsComplete and Metrics.RecentAreNewest only say that no entry left out ranks above one shown.
- Metrics.ChartPoints: which records yield a point is stated only as a bound on the count and the positive rate. Metrics.MetricsNegotiations states the oldest-first order and the last-24 cut through Metrics.ChronologicalPoints and LastN.
- SafeInt: Python's `int()` also accepts underscores between digits ("1_000") and non-ASCII decimal digits. Boundary.SafeInt and Numbers.ParseInt reject them, because the model's text parsing is ASCII sign-and-digits only. CPython also refuses integer text longer than 4300 digits: `int()` raises ValueError, so `safe_number_convert` returns None, and `str()` of such an integer raises too. The model has no such limit: it parses and prints integers of any length.
- CallRecords.ProfileKey: a float MC number is bound by sqlite as its `repr` text. The model takes it to match no profile, because float printing is not modelled.
- LookupCarrierByMc: the result's `carrier_operation`, `safety_rating_date`, `total_drivers`, `total_power_units` and `physical_address` are not part of Fmcsa.CarrierInfo. They are copies of raw registry fields, and the raw carrier dict is kept whole in its `raw` field.
- UpsertExisting: SQLite's column type affinity is not modelled. Numeric text written to an INTEGER or REAL column reads back as a number, and a number written to a TEXT column reads back as text; Storage.UpsertExisting states the values as written.
- UpsertNew: the same affinity conversions are not modelled, and the row read back by `SELECT *` also holds the table's `id` column, which Storage.UpsertNew leaves out.
- PrefsFieldsStored: "exactly as sent" holds for the TEXT columns. Numeric text sent for the latitude, longitude and radius columns would read back as a number through SQLite's affinity, which is not modelled.
- HandleSetCallSearchPrefs: a value sqlite cannot bind (a list, a dict, an integer beyond 64 bits) makes the endpoint raise. The model stores it, because the endpoint has no error path to model.
- CallRecords.PrefsView: the converted weight and temperatures are not described by its ensures. Handlers.PrefsUpdates states the same conversions on the way in.

## Behaviour worth knowing

The model follows the code on these points:

- A verified call with no negotiation has the outcome `dropped`.
- A call record's sentiment comes only from that call's own events. Only the summary endpoint falls back to the most recent sentiment of any call, and that fallback is not limited to a time window.
- The distinct-call query's SQLite `TRIM` removes only spaces, so an id made of tabs is listed.

=== FILE: auth.dfy ===
/**
 * The API-key dependency of every authenticated endpoint (app/auth.py): the
 * configured key, the bearer credentials and the `X-API-Key` header decide
 * between letting the request through, 401 and 500.
 */
module Auth {
  import opened Wrappers

  datatype Decision =
    | Accept
    | Unauthorized      // HTTP 401 "Invalid or missing API key"
    | NotConfigured     // HTTP 500 "API_KEY not configured"
  {
    function Status(): int {
      match this
      case Accept => 200
      case Unauthorized => 401
      case NotConfigured => 500
    }
  }

  /**
   * `verify_api_key`. `bearer` is the credential of an `Authorization: Bearer`
   * header (absent when there is none), `header` the `X-API-Key` value.
   */
  function VerifyApiKey(configured: string, bearer: Option<string>, header: Option<string>): (d: Decision)
    ensures d == NotConfigured <==> configured == ""
    ensures d == Accept <==> configured != "" && (bearer == Some(configured) || header == Some(configured))
    ensures d == Unauthorized <==> configured != "" && bearer != Some(configured) && header != Some(configured)
  {
    if configured == "" then NotConfigured
    else if bearer.Some? && bearer.value == configured then Accept
    else if header == Some(configured) then Accept
    else Unauthorized
  }

  /** Without a configured key nothing gets through, whatever is sent. */
  lemma UnconfiguredAlwaysFails(bearer: Option<string>, header: Option<string>)
    ensures VerifyApiKey("", bearer, header).Status() == 500
  {
  }

  /** A correct `X-API-Key` is enough even when the bearer credential is wrong or missing. */
  lemma HeaderAloneSuffices(configured: string, bearer: Option<string>)
    requires configured != ""
    ensures VerifyApiKey(configured, bearer, Some(configured)) == Accept
  {
  }

  /** Sending nothing is refused with 401 once a key is configured. */
  lemma NoCredentialsRefused(configured: string)
    requires configured != ""
    ensures VerifyApiKey(configured, None, None).Status() == 401
  {
  }
}

=== FILE: boundary.dfy ===
/**
 * Normalisers applied to loosely typed webhook input before it is logged or
 * aggregated (app/main.py): the effective call identifier and the lenient
 * number conversion used for rates, weights, temperatures and durations.
 */
module Boundary {
  import opened Wrappers
  import opened JsonValues
  import opened Text
  import opened Numbers

  /** The call identifier under which events with a missing or blank identifier are filed. */
  const Unknown: string := "unknown"

  /** `_effective_call_id`: the stripped identifier, or "unknown" when it is missing or blank. */
  function EffectiveCallId(callId: Option<string>): (r: string)
    ensures r != "" && TrimmedBy(r, IsSpace)
    ensures callId.None? ==> r == Unknown
    ensures callId.Some? ==> (r == Unknown <==> Strip(callId.value) == "" || Strip(callId.value) == Unknown)
    ensures callId.Some? && Strip(callId.value) != "" ==> r == Strip(callId.value)
  {
    assert TrimmedBy(Unknown, IsSpace);
    var s := Strip(callId.GetOr(""));
    if s == "" then Unknown else s
  }

  /** Normalising an already effective identifier changes nothing. */
  lemma EffectiveCallIdIdempotent(callId: Option<string>)
    ensures EffectiveCallId(Some(EffectiveCallId(callId))) == EffectiveCallId(callId)
  {
  }

  /** `safe_number_convert(value, float)`. */
  function SafeFloat(v: Json): (r: Option<real>)
    ensures r.None? <==> v.JNull? || v.JArr? || v.JObj? || (v.JStr? && ParseFloat(v.s).None?)
    ensures v.JStr? && Strip(v.s) == "" ==> r.None?
    ensures v.JInt? ==> r == Some(v.i as real)
    ensures v.JFloat? ==> r == Some(v.x)
    ensures v.JBool? ==> r == Some(if v.b then 1.0 else 0.0)
  {
    match v
    case JNull => None
    case JBool(b) => Some(if b then 1.0 else 0.0)
    case JInt(i) => Some(i as real)
    case JFloat(x) => Some(x)
    // `float()` strips and refuses empty text itself, so the explicit strip-and-test is folded in
    case JStr(s) => ParseFloat(s)
    case JArr(_) => None
    case JObj(_) => None
  }

  /** `safe_number_convert(value, int)`: floats are truncated toward zero, text must be an integer literal. */
  function SafeInt(v: Json): (r: Option<int>)
    ensures r.None? <==> v.JNull? || v.JArr? || v.JObj? || (v.JStr? && ParseInt(v.s).None?)
    ensures v.JStr? && Strip(v.s) == "" ==> r.None?
    ensures v.JInt? ==> r == Some(v.i)
    ensures v.JFloat? ==> r == Some(Trunc(v.x))
    ensures v.JBool? ==> r == Some(if v.b then 1 else 0)
  {
    match v
    case JNull => None
    case JBool(b) => Some(if b then 1 else 0)
    case JInt(i) => Some(i)
    case JFloat(x) => Some(Trunc(x))
    // `int()` strips and refuses empty text itself, so the explicit strip-and-test is folded in
    case JStr(s) => ParseInt(s)
    case JArr(_) => None
    case JObj(_) => None
  }

  /** Both conversions accept integer text and agree on its value. */
  lemma SafeIntAgreesWithSafeFloat(v: Json)
    requires SafeInt(v).Some?
    ensures SafeFloat(v).Some?
    ensures v.JStr? || v.JInt? || v.JBool? ==> SafeFloat(v) == Some(SafeInt(v).value as real)
  {
    if v.JStr? {
      IntTextIsFloatText(v.s);
    }
  }

  /** `str(i)` sent as text converts back to `i`, as int and as float. */
  lemma IntTextConverts(i: int)
    ensures SafeInt(JStr(IntToString(i))) == Some(i)
    ensures SafeFloat(JStr(IntToString(i))) == Some(i as real)
  {
    IntRoundTrip(i);
    FloatOfIntString(i);
  }
}

=== FILE: callrecord.dfy ===
/**
 * `_build_call_record`: the projection of one call's events onto the record
 * the call log and the metrics read. The latest event of each type wins; the
 * verification result, the negotiation and the load are read from those
 * payloads; the outcome, the verification status and the sentiment are
 * classified from them.
 *
 * The Python code reads loosely typed payloads with `.get`, so a payload of
 * the wrong shape raises; the callers skip such calls. That is the `Crashed`
 * result here.
 */
module CallRecords {
  import opened Wrappers
  import opened JsonValues
  import opened Text
  import opened Numbers
  import opened Boundary
  import opened Storage
  import opened Sentiments

  // ---- latest event per type ----

  /** `(event_type or "").strip().strip('"')`: surrounding whitespace, then surrounding double quotes, go. */
  function GroupKey(eventType: string): string {
    StripQuotes(Strip(eventType))
  }

  /** The grouping key of every event, in log order. */
  function TypeKeys(es: seq<Event>): (ks: seq<string>)
    ensures |ks| == |es|
    ensures forall i :: 0 <= i < |es| ==> ks[i] == GroupKey(es[i].eventType)
  {
    seq(|es|, i requires 0 <= i < |es| => GroupKey(es[i].eventType))
  }

  /** The index of the last occurrence of `k` in `ks`, or -1 when there is none. */
  function LastIndex(ks: seq<string>, k: string): (r: int)
    ensures -1 <= r < |ks|
    ensures r >= 0 ==> ks[r] == k
    ensures forall j :: r < j < |ks| ==> ks[j] != k
  {
    if |ks| == 0 then -1
    else if ks[|ks| - 1] == k then |ks| - 1
    else LastIndex(ks[..|ks| - 1], k)
  }

  /** The payload of every event, in log order. */
  function PayloadColumn(es: seq<Event>): (ps: seq<Json>)
    ensures |ps| == |es|
    ensures forall i :: 0 <= i < |es| ==> ps[i] == es[i].payload
  {
    seq(|es|, i requires 0 <= i < |es| => es[i].payload)
  }

  /** Later entries overwrite earlier ones under the same key; the empty key is skipped. */
  function LatestByKey(ks: seq<string>, ps: seq<Json>): (m: map<string, Json>)
    requires |ks| == |ps|
    ensures forall k :: k in m <==> k != "" && LastIndex(ks, k) >= 0
    ensures forall k :: k in m ==> m[k] == ps[LastIndex(ks, k)]
  {
    if |ks| == 0 then map[]
    else
      var before := LatestByKey(ks[..|ks| - 1], ps[..|ps| - 1]);
      var k := ks[|ks| - 1];
      if k != "" then before[k := ps[|ps| - 1]] else before
  }

  /**
   * The `by_type` dict: for every non-empty grouping key, the payload of the
   * last event (in id order) of that type. Events whose key is empty are
   * skipped.
   */
  function GroupByType(es: seq<Event>): (m: map<string, Json>)
    ensures forall k :: k in m <==> k != "" && LastIndex(TypeKeys(es), k) >= 0
    ensures forall k :: k in m ==> m[k] == es[LastIndex(TypeKeys(es), k)].payload
  {
    LatestByKey(TypeKeys(es), PayloadColumn(es))
  }

  /** `(by_type.get(t) or {}).get("payload")`: the latest payload of type `t`, or `None`. */
  function Latest(byType: map<string, Json>, t: string): Json {
    Get(byType, t)
  }

  /**
   * `x or {}` followed by `.get` calls: a falsy value reads as the empty dict, a
   * dict as itself, and anything else makes `.get` raise (`None`).
   */
  function AsDict(j: Json): (r: Option<map<string, Json>>)
    ensures r.None? <==> Truthy(j) && !j.JObj?
    ensures j.JObj? ==> r == Some(j.fields)
    ensures r.Some? && |r.value| > 0 ==> j == JObj(r.value)
  {
    if !Truthy(j) then Some(map[])
    else if j.JObj? then Some(j.fields)
    else None
  }

  // ---- double-encoded payloads ----

  /**
   * What `json.loads` is taken to satisfy: a JSON string literal decodes to a
   * shorter string (it loses at least its quotes).
   */
  ghost predicate DecodeShrinks(decode: string -> Option<Json>) {
    forall s :: decode(s).Some? && decode(s).value.JStr? ==> |decode(s).value.s| < |s|
  }

  /**
   * `_payload_as_dict`: a dict stays as it is; a string is decoded (and a
   * string that decodes to a string is decoded again); everything else, and
   * anything that does not decode to a dict, is the empty dict.
   */
  function PayloadAsDict(raw: Json, decode: string -> Option<Json>): (r: map<string, Json>)
    requires DecodeShrinks(decode)
    ensures raw.JObj? ==> r == raw.fields
    ensures !raw.JObj? && !raw.JStr? ==> r == map[]
    ensures raw.JStr? && raw.s != "" && decode(raw.s).Some? && decode(raw.s).value.JObj? ==> r == decode(raw.s).value.fields
    ensures raw.JStr? && (raw.s == "" || decode(raw.s).None?) ==> r == map[]
    ensures raw.JStr? && raw.s != "" && decode(raw.s).Some? && !decode(raw.s).value.JObj? && !decode(raw.s).value.JStr?
            ==> r == map[]
    ensures raw.JStr? && raw.s != "" && decode(raw.s).Some? && decode(raw.s).value.JStr?
            ==> r == PayloadAsDict(decode(raw.s).value, decode)
    decreases if raw.JStr? then |raw.s| else 0
  {
    match raw
    case JObj(f) => f
    case JStr(s) =>
      if s == "" then map[]
      else (
        match decode(s)
        case Some(JObj(f)) => f
        case Some(JStr(t)) => PayloadAsDict(JStr(t), decode)
        case _ => map[]
      )
    case _ => map[]
  }

  /** A payload sent as a JSON string of a dict reads the same as the dict itself. */
  lemma DoubleEncodedPayload(d: map<string, Json>, text: string, decode: string -> Option<Json>)
    requires DecodeShrinks(decode) && text != "" && decode(text) == Some(JObj(d))
    ensures PayloadAsDict(JStr(text), decode) == PayloadAsDict(JObj(d), decode)
  {
  }

  /**
   * The decoding repeats for as long as it yields a string: a dict encoded
   * twice over still reads as the dict.
   */
  lemma TwiceEncodedPayload(d: map<string, Json>, outer: string, inner: string, decode: string -> Option<Json>)
    requires DecodeShrinks(decode) && outer != "" && inner != ""
    requires decode(outer) == Some(JStr(inner)) && decode(inner) == Some(JObj(d))
    ensures PayloadAsDict(JStr(outer), decode) == d
  {
  }

  // ---- verification ----

  datatype VerificationStatus = Failed | Verified | Pending

  /** `"failed" if eligible is False else ("verified" if eligible is True else "pending")`. */
  function StatusOf(eligible: Json): (st: VerificationStatus)
    ensures st == Failed <==> eligible == JBool(false)
    ensures st == Verified <==> eligible == JBool(true)
    ensures st == Pending <==> !eligible.JBool?
  {
    if eligible == JBool(false) then Failed
    else if eligible == JBool(true) then Verified
    else Pending
  }

  /**
   * The key `get_carrier_profile(mc_number)` is looked up with. SQLite compares
   * a bound integer with the TEXT column as its decimal text, and a boolean
   * binds as 1 or 0. Lists, dicts and integers beyond 64 bits cannot be bound
   * (`None`: the call raises). A float compares as its `repr` text, which is
   * not modelled: it is taken to match no profile (`Some(None)`).
   */
  function ProfileKey(mc: Json): (r: Option<Option<string>>)
    ensures r.None? <==> !Bindable(mc)
    ensures mc.JStr? ==> r == Some(Some(mc.s))
    ensures mc.JInt? && Bindable(mc) ==> r == Some(Some(IntToString(mc.i)))
  {
    match mc
    case JStr(s) => Some(Some(s))
    case JInt(i) => if Bindable(mc) then Some(Some(IntToString(i))) else None
    case JBool(b) => Some(Some(if b then "1" else "0"))
    case JArr(_) => None
    case JObj(_) => None
    case _ => Some(None)
  }

  /**
   * `carrier.get("name") or carrier.get("legal_name") or ""`, then the stored
   * profile's `legal_name` when that is empty and an MC number is known, then
   * "Unknown". `None` when the profile lookup raises.
   */
  function CarrierName(carrier: map<string, Json>, mc: Json, profiles: map<string, Row>): (r: Option<Json>)
    ensures r.Some? ==> Truthy(r.value)
    ensures Truthy(Get(carrier, "name")) ==> r == Some(Get(carrier, "name"))
    ensures !Truthy(Get(carrier, "name")) && Truthy(Get(carrier, "legal_name")) ==> r == Some(Get(carrier, "legal_name"))
    ensures r.None? <==> !Truthy(Or(Get(carrier, "name"), Get(carrier, "legal_name"))) && Truthy(mc) && !Bindable(mc)
  {
    var fromVerify := Or(Get(carrier, "name"), Get(carrier, "legal_name"));
    if Truthy(fromVerify) then Some(fromVerify)
    else if !Truthy(mc) then Some(JStr("Unknown"))
    else
      match ProfileKey(mc)
      case None => None
      case Some(key) =>
        var profileName :=
          if key.Some? && key.value in profiles then Get(profiles[key.value], "legal_name") else JNull;
        Some(Or(profileName, JStr("Unknown")))
  }

  // ---- load ----

  /** The `load_matched` part of a call record. */
  datatype LoadMatched = LoadMatched(
    loadId: Json, origin: Json, destination: Json, pickup: Json, delivery: Json,
    equipmentType: Json, loadboardRate: real, weight: real, commodityType: Json,
    miles: real, notes: Json, numOfPieces: Option<int>, dimensions: Json)

  /** A dict names a load when its `load_id` or its `origin` is truthy. */
  predicate NamesLoad(d: map<string, Json>) {
    Truthy(Get(d, "load_id")) || Truthy(Get(d, "origin"))
  }

  /** `safe_number_convert(x) or 0`. */
  function NumberOrZero(v: Json): (r: real)
    ensures SafeFloat(v).Some? ==> r == SafeFloat(v).value
    ensures SafeFloat(v).None? ==> r == 0.0
  {
    SafeFloat(v).GetOr(0.0)
  }

  /** The `load_matched` dict built from a load payload, with its display defaults. */
  function LoadFrom(d: map<string, Json>): (r: Option<LoadMatched>)
    ensures r.Some? <==> NamesLoad(d)
    ensures r.Some? ==> Truthy(r.value.loadId) && Truthy(r.value.origin) && Truthy(r.value.destination)
    ensures r.Some? && Truthy(Get(d, "load_id")) ==> r.value.loadId == Get(d, "load_id")
    ensures r.Some? ==> r.value.loadboardRate == NumberOrZero(Or(Get(d, "loadboard_rate"), Get(d, "rate")))
  {
    if !NamesLoad(d) then None
    else Some(LoadMatched(
      Or(Get(d, "load_id"), JStr("—")),
      Or(Get(d, "origin"), JStr("Unknown")),
      Or(Get(d, "destination"), JStr("Unknown")),
      Or(Get(d, "pickup_datetime"), JStr("")),
      Or(Get(d, "delivery_datetime"), JStr("")),
      Or(Get(d, "equipment_type"), JStr("Van")),
      NumberOrZero(Or(Get(d, "loadboard_rate"), Get(d, "rate"))),
      NumberOrZero(Get(d, "weight")),
      Or(Get(d, "commodity_type"), Or(Get(d, "commodity"), JStr(""))),
      NumberOrZero(Get(d, "miles")),
      Or(Get(d, "notes"), JStr("")),
      SafeInt(Get(d, "num_of_pieces")),
      Or(Get(d, "dimensions"), JStr(""))))
  }

  /**
   * `load_data = neg if neg.get("load_id") or neg.get("origin") else best_load`,
   * then `load_matched`. The negotiation payload wins whenever it names a load;
   * `None` when the best-load payload is read and is not a dict.
   */
  function PickLoad(neg: map<string, Json>, bestRaw: Json): (r: Option<Option<LoadMatched>>)
    ensures NamesLoad(neg) ==> r == Some(LoadFrom(neg))
    ensures !NamesLoad(neg) ==> (r.None? <==> AsDict(bestRaw).None?)
    ensures !NamesLoad(neg) && bestRaw.JObj? ==> r == Some(LoadFrom(bestRaw.fields))
  {
    if NamesLoad(neg) then Some(LoadFrom(neg))
    else
      match AsDict(bestRaw)
      case None => None
      case Some(b) => Some(LoadFrom(b))
  }

  // ---- negotiation ----

  /** The `negotiation` part of a call record. */
  datatype Negotiation = Negotiation(rounds: Json, initialOffer: real, counterOffers: seq<real>, finalRate: Option<real>, agreed: bool)

  /**
   * `neg.get("negotiation_rounds") or 0`, converted with `int()` unless it is
   * already an int. A bool is an int in Python and stays as it is; text that
   * `int()` refuses, lists and dicts become 0.
   */
  function RoundsOf(v: Json): (r: Json)
    ensures r.JInt? || (r.JBool? && r.b)
    ensures v.JInt? && v.i != 0 ==> r == v
    ensures !Truthy(v) ==> r == JInt(0)
    ensures v.JStr? && v.s != "" && ParseInt(v.s).Some? ==> r == JInt(ParseInt(v.s).value)
    ensures v.JStr? && ParseInt(v.s).None? ==> r == JInt(0)
    ensures v.JArr? || v.JObj? ==> r == JInt(0)
    ensures v.JFloat? && Truthy(v) ==> r == JInt(Trunc(v.x))
    ensures v == JBool(true) ==> r == v
  {
    match Or(v, JInt(0))
    case JInt(i) => JInt(i)
    case JBool(b) => JBool(b)
    case JFloat(x) => JInt(Trunc(x))
    case JStr(s) => JInt(ParseInt(s).GetOr(0))
    case _ => JInt(0)
  }

  /**
   * `[safe_number_convert(x) or 0 for x in neg.get("counter_offers") or []]`.
   * Iterating a number raises (`None`); a string iterates its characters. A
   * dict iterates its keys in insertion order, which a map does not keep, so
   * it is taken as no offers.
   */
  function CounterOffers(v: Json): (r: Option<seq<real>>)
    ensures r.None? <==> Truthy(v) && (v.JInt? || v.JFloat? || v.JBool?)
    ensures v.JArr? ==> r.Some? && |r.value| == |v.items|
    ensures v.JArr? ==> forall i :: 0 <= i < |v.items| ==> r.value[i] == NumberOrZero(v.items[i])
    ensures v.JStr? ==> r.Some? && |r.value| == |v.s|
  {
    if !Truthy(v) then Some([])
    else
      match v
      case JArr(items) => Some(OffersOfList(items))
      case JStr(s) => Some(OffersOfText(s))
      case JObj(_) => Some([])
      case _ => None
  }

  function OffersOfList(items: seq<Json>): (r: seq<real>)
    ensures |r| == |items|
    ensures forall i :: 0 <= i < |items| ==> r[i] == NumberOrZero(items[i])
  {
    seq(|items|, i requires 0 <= i < |items| => NumberOrZero(items[i]))
  }

  function OffersOfText(s: string): (r: seq<real>)
    ensures |r| == |s|
  {
    seq(|s|, i requires 0 <= i < |s| => NumberOrZero(JStr([s[i]])))
  }

  /** `neg.get("accepted") in (True, "true", "True")`; Python's `True == 1 == 1.0` lets 1 and 1.0 in too. */
  predicate AcceptedFlag(v: Json) {
    v == JBool(true) || v == JStr("true") || v == JStr("True") || v == JInt(1) || v == JFloat(1.0)
  }

  /** `(load_matched or {}).get("loadboard_rate")`. */
  function LoadRateJson(load: Option<LoadMatched>): Json {
    if load.Some? then JFloat(load.value.loadboardRate) else JNull
  }

  /**
   * The `negotiation` dict, present when a load was matched or the negotiation
   * payload is non-empty. The initial offer falls back from the payload's
   * `loadboard_rate` / `original_rate` to the matched load's rate, then 0.
   */
  function NegotiationOf(neg: map<string, Json>, load: Option<LoadMatched>, counters: seq<real>): (r: Option<Negotiation>)
    ensures r.Some? <==> load.Some? || |neg| > 0
    ensures r.Some? ==> r.value.agreed == AcceptedFlag(Get(neg, "accepted"))
    ensures r.Some? ==> r.value.finalRate == SafeFloat(Or(Get(neg, "final_price"), Get(neg, "final_rate")))
    ensures r.Some? ==> r.value.rounds == RoundsOf(Get(neg, "negotiation_rounds"))
    ensures r.Some? && load.Some? && load.value.loadboardRate != 0.0 ==> r.value.initialOffer != 0.0
    ensures r.Some? ==> r.value.counterOffers == counters
    ensures r.Some? ==>
      var offered := SafeFloat(Or(Or(Get(neg, "loadboard_rate"), Get(neg, "original_rate")), LoadRateJson(load)));
      && (offered.Some? && offered.value != 0.0 ==> r.value.initialOffer == offered.value)
      && (!(offered.Some? && offered.value != 0.0) ==> r.value.initialOffer == if load.Some? then load.value.loadboardRate else 0.0)
  {
    var offered := SafeFloat(Or(Or(Get(neg, "loadboard_rate"), Get(neg, "original_rate")), LoadRateJson(load)));
    var initial :=
      if offered.Some? && offered.value != 0.0 then offered.value
      else if load.Some? && load.value.loadboardRate != 0.0 then load.value.loadboardRate
      else 0.0;
    if load.Some? || |neg| > 0 then
      Some(Negotiation(
        RoundsOf(Get(neg, "negotiation_rounds")), initial, counters,
        SafeFloat(Or(Get(neg, "final_price"), Get(neg, "final_rate"))),
        AcceptedFlag(Get(neg, "accepted"))))
    else None
  }

  /**
   * When the matched load shows no rate, it shows the negotiation's initial
   * offer, or else its final rate, provided that is positive.
   */
  function WithFallbackRate(load: LoadMatched, n: Negotiation): (r: LoadMatched)
    ensures r == load.(loadboardRate := r.loadboardRate)
    ensures load.loadboardRate != 0.0 ==> r == load
    ensures load.loadboardRate == 0.0 && n.initialOffer > 0.0 ==> r.loadboardRate == n.initialOffer
    ensures r.loadboardRate != load.loadboardRate ==> r.loadboardRate > 0.0
    ensures load.loadboardRate == 0.0 && n.initialOffer == 0.0 && n.finalRate.Some? && n.finalRate.value > 0.0
            ==> r.loadboardRate == n.finalRate.value
    ensures n.initialOffer < 0.0 ==> r == load
    ensures n.initialOffer == 0.0 && !(n.finalRate.Some? && n.finalRate.value > 0.0) ==> r == load
  {
    if load.loadboardRate != 0.0 then load
    else
      var fallback := if n.initialOffer != 0.0 then Some(n.initialOffer) else n.finalRate;
      if fallback.Some? && fallback.value > 0.0 then load.(loadboardRate := fallback.value) else load
  }

  // ---- outcome ----

  datatype Outcome = FailedVerification | Dropped | Booked | NoDeal {
    function Name(): string {
      match this
      case FailedVerification => "failed_verification"
      case Dropped => "dropped"
      case Booked => "booked"
      case NoDeal => "no_deal"
    }
  }

  /**
   * The four-way outcome: an explicit `eligible: False` is a failed
   * verification whatever else happened; otherwise no negotiation payload is a
   * dropped call; otherwise the `accepted` flag decides.
   */
  function OutcomeOf(eligible: Json, neg: map<string, Json>): (o: Outcome)
    ensures o == FailedVerification <==> eligible == JBool(false)
    ensures o == Dropped <==> eligible != JBool(false) && |neg| == 0
    ensures o == Booked <==> eligible != JBool(false) && |neg| > 0 && AcceptedFlag(Get(neg, "accepted"))
    ensures o == NoDeal <==> eligible != JBool(false) && |neg| > 0 && !AcceptedFlag(Get(neg, "accepted"))
  {
    if eligible == JBool(false) then FailedVerification
    else if |neg| == 0 then Dropped
    else if AcceptedFlag(Get(neg, "accepted")) then Booked
    else NoDeal
  }

  // ---- duration ----

  /**
   * The call length: the workflow-reported `call_duration_seconds` of the
   * latest `call_classified` payload when it converts to a non-negative int,
   * else `span(first, last)`, the timestamp difference (clamped at 0, and 0
   * when a timestamp does not parse), which is a parameter here.
   */
  function DurationOf(classified: map<string, Json>, spanSeconds: nat): (d: nat)
    ensures SafeInt(Get(classified, "call_duration_seconds")).Some? && SafeInt(Get(classified, "call_duration_seconds")).value >= 0
      ==> d == SafeInt(Get(classified, "call_duration_seconds")).value
    ensures !(SafeInt(Get(classified, "call_duration_seconds")).Some? && SafeInt(Get(classified, "call_duration_seconds")).value >= 0)
      ==> d == spanSeconds
  {
    var reported := SafeInt(Get(classified, "call_duration_seconds"));
    if reported.Some? && reported.value >= 0 then reported.value else spanSeconds
  }

  // ---- search preferences ----

  /**
   * The `call_search_prefs` view of a stored preferences row: the text fields as
   * stored, the weight converted to an int and the temperatures to floats
   * (`None` when they do not convert).
   */
  function PrefsView(row: Row): (v: Row)
    ensures forall k :: k in v <==> k in PrefsKeys
    ensures forall k :: k in v && k != "weight_capacity" && k != "min_temp" && k != "max_temp" ==> v[k] == Get(row, k)
  {
    map k | k in PrefsKeys ::
      if k == "weight_capacity" then (match SafeInt(Get(row, k)) case Some(i) => JInt(i) case None => JNull)
      else if k == "min_temp" || k == "max_temp" then (match SafeFloat(Get(row, k)) case Some(x) => JFloat(x) case None => JNull)
      else Get(row, k)
  }

  const PrefsKeys: set<string> := {
    "origin_city", "origin_state", "destination_city", "destination_state", "equipment_type",
    "weight_capacity", "min_temp", "max_temp", "notes", "pickup_date", "departure_date", "latest_departure_date"}

  // ---- the record ----

  datatype CallRecord = CallRecord(
    id: string,
    timestamp: string,
    mcNumber: Json,
    carrierName: Json,
    fmcsaVerified: bool,
    status: VerificationStatus,
    load: Option<LoadMatched>,
    negotiation: Option<Negotiation>,
    outcome: Outcome,
    sentiment: Sentiment,
    tone: Json,
    durationSeconds: nat,
    prefs: Option<Row>)

  /** No events for the call (`None` in Python), a payload of the wrong shape (the call raised), or the record. */
  datatype Built = NoEvents | Crashed | Record(rec: CallRecord)

  /** The dicts read from the latest payloads, or `None` when one of them is truthy but not a dict. */
  datatype Payloads = Payloads(classified: map<string, Json>, verify: map<string, Json>, carrier: map<string, Json>, neg: map<string, Json>)

  function PayloadsOf(byType: map<string, Json>): (r: Option<Payloads>)
    ensures r.Some? <==>
      && AsDict(Latest(byType, "call_classified")).Some?
      && AsDict(Latest(byType, "verify_mc_result")).Some?
      && AsDict(Get(AsDict(Latest(byType, "verify_mc_result")).value, "carrier")).Some?
      && AsDict(Latest(byType, "negotiation_complete")).Some?
    ensures r.Some? ==> r.value.neg == AsDict(Latest(byType, "negotiation_complete")).value
    ensures r.Some? ==> r.value.verify == AsDict(Latest(byType, "verify_mc_result")).value
  {
    var classified := AsDict(Latest(byType, "call_classified"));
    var verify := AsDict(Latest(byType, "verify_mc_result"));
    var neg := AsDict(Latest(byType, "negotiation_complete"));
    if classified.None? || verify.None? || neg.None? then None
    else
      var carrier := AsDict(Get(verify.value, "carrier"));
      if carrier.None? then None
      else Some(Payloads(classified.value, verify.value, carrier.value, neg.value))
  }

  /** `carrier.get("mc_number") or verify.get("mc_number") or ""`. */
  function McNumberOf(p: Payloads): Json {
    Or(Or(Get(p.carrier, "mc_number"), Get(p.verify, "mc_number")), JStr(""))
  }

  /**
   * `sentiment_classification`, else `sentiment` of the latest
   * `sentiment_classified` payload, else `sentiment` of the latest
   * `call_classified` payload; each payload decoded with `_payload_as_dict`.
   */
  function RawSentiment(byType: map<string, Json>, decode: string -> Option<Json>): (raw: Json)
    requires DecodeShrinks(decode)
    ensures var sr := PayloadAsDict(Latest(byType, "sentiment_classified"), decode);
      var cr := PayloadAsDict(Latest(byType, "call_classified"), decode);
      && (Truthy(Get(sr, "sentiment_classification")) ==> raw == Get(sr, "sentiment_classification"))
      && (!Truthy(Get(sr, "sentiment_classification")) && Truthy(Get(sr, "sentiment")) ==> raw == Get(sr, "sentiment"))
      && (!Truthy(Get(sr, "sentiment_classification")) && !Truthy(Get(sr, "sentiment")) ==> raw == Get(cr, "sentiment"))
  {
    var sr := PayloadAsDict(Latest(byType, "sentiment_classified"), decode);
    var cr := PayloadAsDict(Latest(byType, "call_classified"), decode);
    Or(Or(Get(sr, "sentiment_classification"), Get(sr, "sentiment")), Get(cr, "sentiment"))
  }

  /** `sentiment_row.get("tone") or classified_row.get("tone")`. */
  function ToneOf(byType: map<string, Json>, decode: string -> Option<Json>): (tone: Json)
    requires DecodeShrinks(decode)
    ensures var sr := PayloadAsDict(Latest(byType, "sentiment_classified"), decode);
      var cr := PayloadAsDict(Latest(byType, "call_classified"), decode);
      && (Truthy(Get(sr, "tone")) ==> tone == Get(sr, "tone"))
      && (!Truthy(Get(sr, "tone")) ==> tone == Get(cr, "tone"))
  {
    var sr := PayloadAsDict(Latest(byType, "sentiment_classified"), decode);
    var cr := PayloadAsDict(Latest(byType, "call_classified"), decode);
    Or(Get(sr, "tone"), Get(cr, "tone"))
  }

  /** The latest negotiation payload is a dict naming a load (by id or origin). */
  predicate NegotiationNamesLoad(events: seq<Event>) {
    var neg := Latest(GroupByType(events), "negotiation_complete");
    neg.JObj? && NamesLoad(neg.fields)
  }

  /** The load, negotiation and outcome parts of a record. */
  datatype Deal = Deal(load: Option<LoadMatched>, negotiation: Option<Negotiation>, outcome: Outcome)

  /**
   * The three parts computed from the same payloads agree: a booked call has
   * an agreed negotiation, a call with no deal has one that was not agreed, an
   * agreed negotiation on an eligible-or-unknown call is booked, a dropped call
   * shows a negotiation exactly when it shows a load, and the shown load is
   * the matched one with at most its rate filled in.
   */
  function DealOf(eligible: Json, neg: map<string, Json>, matched: Option<LoadMatched>, counters: seq<real>): (d: Deal)
    ensures d.outcome == OutcomeOf(eligible, neg)
    ensures d.outcome == Booked ==> d.negotiation.Some? && d.negotiation.value.agreed
    ensures d.outcome == NoDeal ==> d.negotiation.Some? && !d.negotiation.value.agreed
    ensures d.negotiation.Some? && d.negotiation.value.agreed && eligible != JBool(false) ==> d.outcome == Booked
    ensures d.outcome == Dropped ==> (d.negotiation.Some? <==> d.load.Some?)
    ensures d.load.Some? <==> matched.Some?
    ensures d.load.Some? ==> d.load.value == matched.value.(loadboardRate := d.load.value.loadboardRate)
    ensures d.load.Some? && d.negotiation.Some? && d.negotiation.value.initialOffer > 0.0 ==> d.load.value.loadboardRate != 0.0
  {
    var negotiation := NegotiationOf(neg, matched, counters);
    var load := if matched.Some? && negotiation.Some? then Some(WithFallbackRate(matched.value, negotiation.value)) else matched;
    Deal(load, negotiation, OutcomeOf(eligible, neg))
  }

  /**
   * The record of one call over its events (in id order). `span` gives the
   * seconds between two event timestamps, 0 when they do not parse.
   */

  function BuildFromEvents(
    callId: string, events: seq<Event>, profiles: map<string, Row>, prefs: map<string, Row>,
    decode: string -> Option<Json>, span: (string, string) -> nat): (b: Built)
    requires DecodeShrinks(decode)
    ensures b.NoEvents? <==> |events| == 0
    ensures b.Record? ==> b.rec.id == callId && b.rec.timestamp == events[0].timestamp
    ensures b.Record? ==> (b.rec.fmcsaVerified <==> b.rec.status == Verified)
    ensures b.Record? ==> (b.rec.status == Failed <==> b.rec.outcome == FailedVerification)
    ensures b.Record? && b.rec.outcome == Booked ==> b.rec.negotiation.Some? && b.rec.negotiation.value.agreed
    ensures b.Record? && b.rec.outcome == NoDeal ==> b.rec.negotiation.Some? && !b.rec.negotiation.value.agreed
    ensures b.Record? && b.rec.negotiation.Some? && b.rec.negotiation.value.agreed && b.rec.status != Failed ==> b.rec.outcome == Booked
    ensures b.Record? && b.rec.outcome == Dropped ==> (b.rec.negotiation.Some? <==> b.rec.load.Some?)
    ensures b.Record? && b.rec.load.Some? && b.rec.negotiation.Some? && b.rec.negotiation.value.initialOffer > 0.0 ==>
      b.rec.load.value.loadboardRate != 0.0
    ensures b.Record? && NegotiationNamesLoad(events) ==>
      && b.rec.load.Some?
      && b.rec.load.value.loadId == LoadFrom(Latest(GroupByType(events), "negotiation_complete").fields).value.loadId
      && b.rec.load.value.origin == LoadFrom(Latest(GroupByType(events), "negotiation_complete").fields).value.origin
  {
    if |events| == 0 then NoEvents
    else
      var byType := GroupByType(events);
      match PayloadsOf(byType)
      case None => Crashed
      case Some(p) =>
        var eligible := Get(p.verify, "eligible");
        var mc := McNumberOf(p);
        match CarrierName(p.carrier, mc, profiles)
        case None => Crashed
        case Some(name) =>
          match PickLoad(p.neg, Latest(byType, "best_load_retrieved"))
          case None => Crashed
          case Some(matched) =>
            match CounterOffers(Get(p.neg, "counter_offers"))
            case None => Crashed
            case Some(counters) =>
              var deal := DealOf(eligible, p.neg, matched, counters);
              match NormalizeSentiment(RawSentiment(byType, decode))
              case None => Crashed
              case Some(sentiment) =>
                Record(CallRecord(
                  callId,
                  events[0].timestamp,
                  Or(mc, JStr("—")),
                  name,
                  eligible == JBool(true),
                  StatusOf(eligible),
                  deal.load,
                  deal.negotiation,
                  deal.outcome,
                  sentiment,
                  ToneOf(byType, decode),
                  DurationOf(p.classified, span(events[0].timestamp, events[|events| - 1].timestamp)),
                  if callId in prefs then Some(PrefsView(prefs[callId])) else None))
  }

  /**
   * What a record reads from the call's latest payloads: the build raises
   * exactly when the carrier name, the load, the counter offers or the
   * sentiment does, and otherwise the carrier name, MC number, duration,
   * sentiment, tone and search preferences are the ones those payloads give.
   */
  lemma RecordReadsPayloads(
    callId: string, events: seq<Event>, profiles: map<string, Row>, prefs: map<string, Row>,
    decode: string -> Option<Json>, span: (string, string) -> nat)
    requires DecodeShrinks(decode)
    ensures |events| > 0 ==>
      var byType := GroupByType(events);
      var p := PayloadsOf(byType);
      (BuildFromEvents(callId, events, profiles, prefs, decode, span).Crashed? <==>
        || p.None?
        || CarrierName(p.value.carrier, McNumberOf(p.value), profiles).None?
        || PickLoad(p.value.neg, Latest(byType, "best_load_retrieved")).None?
        || CounterOffers(Get(p.value.neg, "counter_offers")).None?
        || NormalizeSentiment(RawSentiment(byType, decode)).None?)
    ensures BuildFromEvents(callId, events, profiles, prefs, decode, span).Record? ==>
      var byType := GroupByType(events);
      var p := PayloadsOf(byType).value;
      && Some(BuildFromEvents(callId, events, profiles, prefs, decode, span).rec.carrierName) == CarrierName(p.carrier, McNumberOf(p), profiles)
      && BuildFromEvents(callId, events, profiles, prefs, decode, span).rec.mcNumber == Or(McNumberOf(p), JStr("—"))
      && BuildFromEvents(callId, events, profiles, prefs, decode, span).rec.durationSeconds == DurationOf(p.classified, span(events[0].timestamp, events[|events| - 1].timestamp))
      && Some(BuildFromEvents(callId, events, profiles, prefs, decode, span).rec.sentiment) == NormalizeSentiment(RawSentiment(byType, decode))
      && BuildFromEvents(callId, events, profiles, prefs, decode, span).rec.tone == ToneOf(byType, decode)
      && BuildFromEvents(callId, events, profiles, prefs, decode, span).rec.prefs == (if callId in prefs then Some(PrefsView(prefs[callId])) else None)
  {
  }

  /** `_build_call_record(call_id)` over the store. */
  function BuildCallRecord(s: Store, callId: string, decode: string -> Option<Json>, span: (string, string) -> nat): (b: Built)
    requires DecodeShrinks(decode)
    ensures b.NoEvents? <==> !Occurs(s.events, callId)
    ensures b.Record? ==> b.rec.id == callId
  {
    var events := EventsByCallId(s.events, callId);
    assert |events| == 0 <==> !Occurs(s.events, callId) by {
      if |events| > 0 {
        assert events[0] in events;
      }
      if Occurs(s.events, callId) {
        var i :| 0 <= i < |s.events| && CallIds(s.events)[i] == callId;
        assert s.events[i] in events;
      }
    }
    BuildFromEvents(callId, events, s.profiles, s.prefs, decode, span)
  }

  // ---- properties of the record ----

  /** Logging another event of the same type replaces what the call's record reads for that type. */
  lemma {:induction false} LatestEventWins(es: seq<Event>, e: Event)
    requires GroupKey(e.eventType) != ""
    ensures var m := GroupByType(es + [e]);
      GroupKey(e.eventType) in m && m[GroupKey(e.eventType)] == e.payload
  {
    var ks := TypeKeys(es + [e]);
    assert ks[|es|] == GroupKey(e.eventType);
  }

  /** Logging an event of one type leaves what the record reads for every other type unchanged. */
  lemma {:induction false} OtherTypesUnchanged(es: seq<Event>, e: Event, t: string)
    requires t != GroupKey(e.eventType)
    ensures Latest(GroupByType(es + [e]), t) == Latest(GroupByType(es), t)
  {
    var ks := TypeKeys(es + [e]);
    assert ks[..|es|] == TypeKeys(es);
    assert ks[|es|] != t;
  }

  /** An explicit `eligible: False` in the latest verification result makes the call a failed verification. */
  lemma IneligibleFailsVerification(
    callId: string, events: seq<Event>, profiles: map<string, Row>, prefs: map<string, Row>,
    decode: string -> Option<Json>, span: (string, string) -> nat)
    requires DecodeShrinks(decode)
    requires var v := Latest(GroupByType(events), "verify_mc_result");
      v.JObj? && Get(v.fields, "eligible") == JBool(false)
    ensures var b := BuildFromEvents(callId, events, profiles, prefs, decode, span);
      b.Record? ==> b.rec.outcome == FailedVerification && b.rec.status == Failed && !b.rec.fmcsaVerified
  {
  }

  /** A call's record depends only on its own events: logging for another call does not change it. */
  lemma {:induction false} RecordIgnoresOtherCalls(
    s: Store, callId: string, other: string, eventType: string, payload: Json, now: string,
    decode: string -> Option<Json>, span: (string, string) -> nat)
    requires Valid(s) && other != callId && DecodeShrinks(decode)
    ensures BuildCallRecord(LogEvent(s, other, eventType, payload, now), callId, decode, span)
         == BuildCallRecord(s, callId, decode, span)
  {
    LogEventOtherCalls(s, other, eventType, payload, now, callId);
  }
}

=== FILE: fmcsa.dfy ===
/**
 * Carrier lookup against the FMCSA registry (app/fmcsa.py) and the inline
 * classification `verify_mc` performs on the registry's answer (app/main.py).
 * The HTTP exchange itself is an input: its status and decoded body, or the
 * exception it raised.
 */
module Fmcsa {
  import opened Wrappers
  import opened JsonValues
  import opened Text
  import opened Numbers

  /** What the HTTP GET produced: a response with its decoded JSON body (None when it is not JSON), or an exception. */
  datatype HttpOutcome =
    | Response(status: int, body: Option<Json>)
    | Timeout(message: string)
    | Failure(message: string)

  /**
   * Stands for the text of a Python exception raised while reading a malformed
   * body (a non-dict payload, a non-list `content`, ...); its wording is Python's own.
   */
  const ExceptionText: string := "<exception text>"

  predicate IsLowerAscii(c: char) {
    'a' <= c <= 'z'
  }

  /** MC cleaning: strip, upper-case, drop every "MC" and every "-", strip again. */
  function CleanMc(input: string): (r: string)
    ensures '-' !in r
    ensures TrimmedBy(r, IsSpace)
    ensures forall i :: 0 <= i < |r| ==> !IsLowerAscii(r[i])
  {
    CleanMcShape(input);
    Strip(RemoveAll(RemoveAll(Upper(Strip(input)), "MC"), "-"))
  }

  lemma CleanMcShape(input: string)
    ensures var r := Strip(RemoveAll(RemoveAll(Upper(Strip(input)), "MC"), "-"));
            '-' !in r && forall i :: 0 <= i < |r| ==> !IsLowerAscii(r[i])
  {
    var upper := Upper(Strip(input));
    var noMc := RemoveAll(upper, "MC");
    var noDash := RemoveAll(noMc, "-");
    var r := Strip(noDash);
    RemoveAllKeepsChars(upper, "MC");
    RemoveAllKeepsChars(noMc, "-");
    TrimKeepsChars(noDash, IsSpace);
    forall i | 0 <= i < |r| ensures r[i] != '-' && !IsLowerAscii(r[i]) {
      var c := r[i];
      assert c in noDash;
      assert c in noMc;
      assert c in upper;
    }
  }


  /**
   * The spellings of a docket number the cleaning is meant for: nothing, or
   * "MC" in any letter case, alone or followed by a dash or a space.
   */
  predicate DocketPrefix(p: string) {
    || p == ""
    || (|p| >= 2 && UpperChar(p[0]) == 'M' && UpperChar(p[1]) == 'C'
        && (|p| == 2 || (|p| == 3 && (p[2] == '-' || p[2] == ' '))))
  }

  /**
   * Any such spelling of a docket number, with any whitespace around it,
   * cleans to the bare digits: "MC-123", " mc 123 ", "Mc123" and "123" all
   * become "123".
   */
  lemma CleanMcOfDocket(lead: string, p: string, digits: string, trail: string)
    requires forall i :: 0 <= i < |lead| ==> IsSpace(lead[i])
    requires forall i :: 0 <= i < |trail| ==> IsSpace(trail[i])
    requires DocketPrefix(p) && |digits| > 0 && AllDigits(digits)
    ensures CleanMc(lead + p + digits + trail) == digits
  {
    var core := p + digits;
    assert lead + p + digits + trail == lead + core + trail;
    assert core[|core| - 1] == digits[|digits| - 1];
    StripSurrounded(lead, core, trail);
    CoreClean(p, digits);
  }

  /** The stripped docket number: upper-casing, both removals and the final strip leave the digits. */
  lemma CoreClean(p: string, digits: string)
    requires DocketPrefix(p) && |digits| > 0 && AllDigits(digits)
    ensures Strip(RemoveAll(RemoveAll(Upper(p + digits), "MC"), "-")) == digits
  {
    assert TrimmedBy(digits, IsSpace);
    if p == "" {
      assert p + digits == digits;
      DigitsClean(digits);
    } else {
      var sep := p[2..];
      assert sep == "" || sep == "-" || sep == " " by {
        assert |p| == 3 ==> sep == [p[2]];
      }
      UpperOfDocket(p, digits);
      SeparatorClean(sep, digits);
      if sep == " " {
        SpaceBeforeDigits(digits);
      }
    }
  }

  lemma SpaceBeforeDigits(digits: string)
    requires |digits| > 0 && AllDigits(digits)
    ensures Strip(" " + digits) == digits
  {
    StripSurrounded(" ", digits, "");
    assert " " + digits + "" == " " + digits;
  }

  /** Bare digits pass the upper-casing and both removals unchanged. */
  lemma DigitsClean(digits: string)
    requires AllDigits(digits)
    ensures RemoveAll(RemoveAll(Upper(digits), "MC"), "-") == digits
  {
    UpperOfDigits(digits);
    KeptWithout(digits, "MC");
    KeptWithout(digits, "-");
  }

  /** After the upper-cased "MC" the removals leave the digits, behind a space when that was the separator. */
  lemma SeparatorClean(sep: string, digits: string)
    requires sep == "" || sep == "-" || sep == " "
    requires AllDigits(digits)
    ensures RemoveAll(RemoveAll("MC" + (sep + digits), "MC"), "-") == if sep == " " then " " + digits else digits
  {
    SeparatorAvoids(sep, digits);
    DropLeading("MC", sep + digits);
    if sep == "-" {
      DropLeading("-", digits);
    } else {
      KeptWithout(sep + digits, "-");
    }
  }

  /** `replace(pat, "")` leaves a string alone when no character of it starts `pat`. */
  lemma KeptWithout(s: string, pat: string)
    requires |pat| > 0 && forall i :: 0 <= i < |s| ==> s[i] != pat[0]
    ensures RemoveAll(s, pat) == s
  {
  }

  lemma UpperOfDigits(digits: string)
    requires AllDigits(digits)
    ensures Upper(digits) == digits
  {
  }

  lemma UpperOfDocket(p: string, digits: string)
    requires DocketPrefix(p) && p != "" && AllDigits(digits)
    ensures Upper(p + digits) == "MC" + (p[2..] + digits)
  {
    var u := Upper(p + digits);
    var e := "MC" + (p[2..] + digits);
    forall i | 0 <= i < |u| ensures u[i] == e[i] {
      if i >= |p| {
        assert (p + digits)[i] == digits[i - |p|] && e[i] == digits[i - |p|];
      }
    }
  }

  /** Neither the separator nor the digits hold an 'M' or (after a non-dash separator) a '-'. */
  lemma SeparatorAvoids(sep: string, digits: string)
    requires sep == "" || sep == "-" || sep == " "
    requires AllDigits(digits)
    ensures forall i :: 0 <= i < |sep + digits| ==> (sep + digits)[i] != "MC"[0]
    ensures sep != "-" ==> forall i :: 0 <= i < |sep + digits| ==> (sep + digits)[i] != "-"[0]
  {
    forall i | 0 <= i < |sep + digits| ensures (sep + digits)[i] != 'M' && (sep != "-" ==> (sep + digits)[i] != '-') {
      if i >= |sep| {
        assert (sep + digits)[i] == digits[i - |sep|];
      }
    }
  }

  /** Removing every `pat` from `pat + rest` leaves `rest` when `rest` never starts a match. */
  lemma DropLeading(pat: string, rest: string)
    requires |pat| > 0 && forall i :: 0 <= i < |rest| ==> rest[i] != pat[0]
    ensures RemoveAll(pat + rest, pat) == rest
  {
    assert pat <= pat + rest;
    assert (pat + rest)[|pat|..] == rest;
  }

  /** A typical spoken form cleans to the bare docket number: "mc-123" becomes "123". */
  lemma CleanMcExample()
    ensures CleanMc("mc-123") == "123"
  {
    assert Strip("mc-123") == "mc-123" by {
      assert TrimmedBy("mc-123", IsSpace);
    }
    ExampleUpper();
    ExampleDropMc();
    ExampleDropDash();
    assert Strip("123") == "123" by {
      assert TrimmedBy("123", IsSpace);
    }
  }

  lemma ExampleUpper()
    ensures Upper("mc-123") == "MC-123"
  {
    var u := Upper("mc-123");
    assert u[0] == 'M' && u[1] == 'C' && u[2] == '-' && u[3] == '1' && u[4] == '2' && u[5] == '3';
  }

  lemma ExampleDropMc()
    ensures RemoveAll("MC-123", "MC") == "-123"
  {
    assert "MC" <= "MC-123";
    assert "MC-123"[2..] == "-123";
    assert RemoveAll("-123", "MC") == "-123" by {
      assert forall i :: 0 <= i < |"-123"| ==> "-123"[i] != 'M';
    }
  }

  lemma ExampleDropDash()
    ensures RemoveAll("-123", "-") == "123"
  {
    assert "-" <= "-123";
    assert "-123"[1..] == "123";
    assert RemoveAll("123", "-") == "123" by {
      assert forall i :: 0 <= i < |"123"| ==> "123"[i] != '-';
    }
  }

  /**
   * `content[0].get("carrier", {})` for a truthy `content`: the carrier dict,
   * or None where Python raises (not a list, first entry or carrier not a dict).
   */
  function FirstCarrier(content: Json): (r: Option<map<string, Json>>)
    ensures r.Some? <==> content.JArr? && |content.items| > 0 && content.items[0].JObj?
                         && GetOr(content.items[0].fields, "carrier", EmptyObj).JObj?
    ensures r.Some? ==> JObj(r.value) == GetOr(content.items[0].fields, "carrier", EmptyObj)
    ensures content.JArr? && |content.items| > 0 && content.items[0].JObj? && "carrier" !in content.items[0].fields
            ==> r == Some(map[])
  {
    match content
    case JArr(items) =>
      if |items| > 0 && items[0].JObj? then
        match GetOr(items[0].fields, "carrier", EmptyObj)
        case JObj(c) => Some(c)
        case _ => None
      else None
    case _ => None
  }

  // ---------------- lookup_carrier_by_mc ----------------

  datatype LookupError =
    | WebkeyMissing
    | NoCarrier(mc: string)
    | ApiStatus(code: int)
    | ApiTimeout
    | ApiException(detail: string)

  /** The `error` string of the lookup result. */
  function ErrorText(e: LookupError): string {
    match e
    case WebkeyMissing => "FMCSA_WEBKEY not configured - using mock mode"
    case NoCarrier(mc) => "No carrier found with MC number " + mc
    case ApiStatus(code) => "FMCSA API error: " + IntToString(code)
    case ApiTimeout => "FMCSA API timeout"
    case ApiException(detail) => "FMCSA API error: " + detail
  }

  /** The `carrier` dict of a successful lookup (the address and fleet fields are left out). */
  datatype CarrierInfo = CarrierInfo(
    name: Json,
    mcNumber: string,
    dotNumber: Json,
    allowedToOperate: bool,
    safetyRating: Json,
    raw: map<string, Json>)

  /** `found: True` with a carrier, or `found: False` with an error. */
  datatype Lookup = Found(carrier: CarrierInfo) | NotFound(error: LookupError)

  function CarrierFromRaw(c: map<string, Json>, mcClean: string): (info: CarrierInfo)
    ensures info.allowedToOperate <==> GetOr(c, "allowedToOperate", JStr("N")) == JStr("Y")
    ensures info.raw == c && info.mcNumber == mcClean
  {
    CarrierInfo(
      name := Or(Get(c, "legalName"), Get(c, "dbaName")),
      mcNumber := mcClean,
      dotNumber := Get(c, "dotNumber"),
      allowedToOperate := GetOr(c, "allowedToOperate", JStr("N")) == JStr("Y"),
      safetyRating := Get(c, "safetyRating"),
      raw := c)
  }

  /** `lookup_carrier_by_mc`, with the GET's outcome as an input (it is not made without a web key). */
  function LookupCarrierByMc(webkey: string, mcNumber: string, http: HttpOutcome): (r: Lookup)
    ensures webkey == "" ==> r == NotFound(WebkeyMissing)
    ensures r.Found? ==> webkey != "" && http.Response? && http.status == 200
    ensures r.Found? ==> r.carrier.mcNumber == CleanMc(mcNumber)
    ensures r.Found? ==> (r.carrier.allowedToOperate <==> GetOr(r.carrier.raw, "allowedToOperate", JStr("N")) == JStr("Y"))
    ensures webkey != "" && http.Response? && http.status != 200 ==> r == NotFound(ApiStatus(http.status))
    ensures webkey != "" && http.Timeout? ==> r == NotFound(ApiTimeout)
    ensures webkey != "" && http.Response? && http.status == 200 && http.body.Some? && http.body.value.JObj?
              && !Truthy(GetOr(http.body.value.fields, "content", JArr([])))
            ==> r == NotFound(NoCarrier(CleanMc(mcNumber)))
    ensures webkey != "" && http.Failure? ==> r == NotFound(ApiException(http.message))
    ensures webkey != "" && http.Response? && http.status == 200 && (http.body.None? || !http.body.value.JObj?)
            ==> r == NotFound(ApiException(ExceptionText))
    ensures webkey != "" && http.Response? && http.status == 200 && http.body.Some? && http.body.value.JObj?
              && Truthy(GetOr(http.body.value.fields, "content", JArr([])))
            ==> var first := FirstCarrier(GetOr(http.body.value.fields, "content", JArr([])));
                (r.Found? <==> first.Some?)
                && (first.Some? ==> r == Found(CarrierFromRaw(first.value, CleanMc(mcNumber))))
                && (first.None? ==> r == NotFound(ApiException(ExceptionText)))
  {
    if webkey == "" then NotFound(WebkeyMissing)
    else
      var mcClean := CleanMc(mcNumber);
      match http
      case Timeout(_) => NotFound(ApiTimeout)
      case Failure(message) => NotFound(ApiException(message))
      case Response(status, body) =>
        if status != 200 then NotFound(ApiStatus(status))
        else if body.None? || !body.value.JObj? then NotFound(ApiException(ExceptionText))
        else
          var content := GetOr(body.value.fields, "content", JArr([]));
          if !Truthy(content) then NotFound(NoCarrier(mcClean))
          else
            match FirstCarrier(content)
            case None => NotFound(ApiException(ExceptionText))
            case Some(c) => Found(CarrierFromRaw(c, mcClean))
  }

  /** A registry record without an `allowedToOperate` field is found but not allowed to operate. */
  lemma MissingAllowedFieldMeansNotAllowed(webkey: string, mcNumber: string, carrier: map<string, Json>)
    requires webkey != "" && "allowedToOperate" !in carrier
    ensures var body := JObj(map["content" := JArr([JObj(map["carrier" := JObj(carrier)])])]);
            var r := LookupCarrierByMc(webkey, mcNumber, Response(200, Some(body)));
            r.Found? && !r.carrier.allowedToOperate
  {
    var body := JObj(map["content" := JArr([JObj(map["carrier" := JObj(carrier)])])]);
    var content := GetOr(body.fields, "content", JArr([]));
    assert Truthy(content);
    assert FirstCarrier(content) == Some(carrier);
  }

  // ---------------- is_carrier_eligible ----------------

  const NotFoundReason: string := "Carrier not found in FMCSA database"
  const NotAuthorizedReason: string := "Carrier is not authorized to operate"
  const UnsatisfactoryReason: string := "Carrier has unsatisfactory safety rating"

  datatype Eligibility = Eligibility(eligible: bool, reason: Option<string>)

  /** A safety rating that blocks eligibility: "UNSATISFACTORY" in any letter case. */
  predicate Unsatisfactory(rating: Json) {
    rating.JStr? && Upper(rating.s) == "UNSATISFACTORY"
  }

  /**
   * `is_carrier_eligible`. `Err` is Python raising: a truthy non-dict argument,
   * or a truthy safety rating that is not a string (`.upper()` fails).
   */
  function IsCarrierEligible(data: Json): (r: Result<Eligibility, string>)
    ensures !Truthy(data) ==> r == Ok(Eligibility(false, Some(NotFoundReason)))
    ensures r.Ok? ==> (r.value.eligible <==> r.value.reason.None?)
    ensures r.Ok? && r.value.eligible <==>
              data.JObj? && Truthy(data) && Truthy(Get(data.fields, "allowed_to_operate"))
              && (var rating := Get(data.fields, "safety_rating"); !Truthy(rating) || (rating.JStr? && !Unsatisfactory(rating)))
    ensures data.JObj? && Truthy(data) && !Truthy(Get(data.fields, "allowed_to_operate"))
            ==> r == Ok(Eligibility(false, Some(NotAuthorizedReason)))
    ensures data.JObj? && Truthy(Get(data.fields, "allowed_to_operate")) && Unsatisfactory(Get(data.fields, "safety_rating"))
            ==> r == Ok(Eligibility(false, Some(UnsatisfactoryReason)))
  {
    if !Truthy(data) then Ok(Eligibility(false, Some(NotFoundReason)))
    else if !data.JObj? then Err("AttributeError")
    else if !Truthy(Get(data.fields, "allowed_to_operate")) then Ok(Eligibility(false, Some(NotAuthorizedReason)))
    else
      var rating := Get(data.fields, "safety_rating");
      if Truthy(rating) then
        if !rating.JStr? then Err("AttributeError")
        else if Upper(rating.s) == "UNSATISFACTORY" then Ok(Eligibility(false, Some(UnsatisfactoryReason)))
        else Ok(Eligibility(true, None))
      else Ok(Eligibility(true, None))
  }

  /** The rating check ignores letter case. */
  lemma RatingCaseIgnored(s: string)
    ensures Unsatisfactory(JStr(s)) <==> Unsatisfactory(JStr(Upper(s)))
  {
    assert Upper(Upper(s)) == Upper(s);
  }

  /** The `carrier` dict a successful lookup returns, as `is_carrier_eligible` reads it. */
  function CarrierDict(c: CarrierInfo): (d: Json)
    ensures d.JObj? && Truthy(d)
  {
    JObj(map[
      "name" := c.name,
      "mc_number" := JStr(c.mcNumber),
      "dot_number" := c.dotNumber,
      "allowed_to_operate" := JBool(c.allowedToOperate),
      "safety_rating" := c.safetyRating,
      "raw" := JObj(c.raw)])
  }

  /**
   * Feeding a found carrier to `is_carrier_eligible`: it does not raise when the
   * rating is a string or null, and the carrier is eligible exactly when the
   * registry says "Y" and the rating is not UNSATISFACTORY.
   */
  lemma FoundCarrierEligibility(c: CarrierInfo)
    requires c.safetyRating.JNull? || c.safetyRating.JStr?
    ensures var r := IsCarrierEligible(CarrierDict(c));
            r.Ok? && (r.value.eligible <==> c.allowedToOperate && !Unsatisfactory(c.safetyRating))
  {
    var d := CarrierDict(c);
    assert Get(d.fields, "allowed_to_operate") == JBool(c.allowedToOperate);
    assert Get(d.fields, "safety_rating") == c.safetyRating;
  }

  // ---------------- verify_mc's inline classification ----------------

  const WebkeyMissingReason: string := "FMCSA_WEBKEY not configured"
  const McNotFoundReason: string := "MC not found"
  const NotAllowedReason: string := "Carrier is not allowed to operate"
  const OutOfServiceReason: string := "Carrier is currently out of service"

  /** The `carrier` object `verify_mc` builds; `allowedToOperate` keeps the registry's raw value. */
  datatype VerifiedCarrier = VerifiedCarrier(
    name: Json,
    mcNumber: string,
    dotNumber: Json,
    allowedToOperate: Json,
    outOfService: Json,
    safetyRating: Json,
    physicalCity: Json,
    physicalState: Json)

  /** The response of `verify_mc`, `raw` being the registry dict (or body) it reports. */
  datatype VerifyResult = VerifyResult(eligible: bool, reason: Option<string>, carrier: Option<VerifiedCarrier>, raw: Json)

  function VerifiedFromRaw(c: map<string, Json>, mc: string): VerifiedCarrier {
    VerifiedCarrier(
      name := Or(Get(c, "legalName"), Get(c, "dbaName")),
      mcNumber := mc,
      dotNumber := Get(c, "dotNumber"),
      allowedToOperate := GetOr(c, "allowedToOperate", JStr("N")),
      outOfService := GetOr(c, "outOfService", JStr("N")),
      safetyRating := Get(c, "safetyRating"),
      physicalCity := Get(c, "phyCity"),
      physicalState := Get(c, "phyState"))
  }

  /** Eligible exactly when allowed to operate and not out of service. */
  predicate OperatingStatusOk(c: VerifiedCarrier) {
    c.allowedToOperate == JStr("Y") && c.outOfService != JStr("Y")
  }

  /**
   * The result `verify_mc` returns for a normalised MC number given the web key
   * and the registry call's outcome (an exception's text becomes the reason).
   */
  function VerifyMcDecision(webkey: string, mc: string, http: HttpOutcome): (r: VerifyResult)
    ensures r.eligible <==> r.reason.None?
    ensures r.eligible ==> r.carrier.Some?
    ensures r.carrier.Some? ==> (r.eligible <==> OperatingStatusOk(r.carrier.value))
    ensures r.carrier.Some? && r.carrier.value.allowedToOperate != JStr("Y") ==> r.reason == Some(NotAllowedReason)
    ensures r.carrier.Some? && r.carrier.value.allowedToOperate == JStr("Y") && r.carrier.value.outOfService == JStr("Y")
            ==> r.reason == Some(OutOfServiceReason)
    ensures r.carrier.Some? ==> webkey != "" && http.Response? && http.status == 200 && r.carrier.value.mcNumber == mc
    ensures webkey == "" ==> r == VerifyResult(false, Some(WebkeyMissingReason), None, JNull)
    ensures webkey != "" && http.Response? && http.status == 404 ==> r == VerifyResult(false, Some(McNotFoundReason), None, JNull)
    ensures webkey != "" && http.Response? && http.status != 200 && http.status != 404
            ==> r == VerifyResult(false, Some("FMCSA API error: " + IntToString(http.status)), None, JNull)
    ensures webkey != "" && http.Response? && http.status == 200 && http.body.Some? && http.body.value.JObj?
              && !Truthy(GetOr(http.body.value.fields, "content", JArr([])))
            ==> r == VerifyResult(false, Some(McNotFoundReason), None, http.body.value)
  {
    if webkey == "" then VerifyResult(false, Some(WebkeyMissingReason), None, JNull)
    else
      match http
      case Timeout(message) => VerifyResult(false, Some(message), None, JNull)
      case Failure(message) => VerifyResult(false, Some(message), None, JNull)
      case Response(status, body) =>
        if status == 404 then VerifyResult(false, Some(McNotFoundReason), None, JNull)
        else if status != 200 then VerifyResult(false, Some("FMCSA API error: " + IntToString(status)), None, JNull)
        else if body.None? || !body.value.JObj? then VerifyResult(false, Some(ExceptionText), None, JNull)
        else
          var content := GetOr(body.value.fields, "content", JArr([]));
          if !Truthy(content) then VerifyResult(false, Some(McNotFoundReason), None, body.value)
          else
            match FirstCarrier(content)
            case None => VerifyResult(false, Some(ExceptionText), None, JNull)
            case Some(c) =>
              var carrier := VerifiedFromRaw(c, mc);
              var ato := carrier.allowedToOperate;
              var eligible := ato == JStr("Y") && carrier.outOfService != JStr("Y");
              var reason :=
                if eligible then None
                else if ato != JStr("Y") then Some(NotAllowedReason)
                else Some(OutOfServiceReason);
              VerifyResult(eligible, reason, Some(carrier), JObj(c))
  }
}

=== FILE: handlers.dfy ===
/**
 * The webhook endpoints of app/main.py that write to the store: how each one
 * normalises its request, which events it appends and which rows it upserts.
 * A request body is a `Row` (field name to JSON value, `JNull` for a field the
 * caller left out); the clock reading `now` is a parameter.
 */
module Handlers {
  import opened Wrappers
  import opened JsonValues
  import opened Text
  import opened Numbers
  import opened Boundary
  import opened Storage
  import opened Fmcsa
  import opened CallRecords

  // ---------------- /log_event ----------------

  const DefaultLogType: string := "log_event"
  const EmptyTypeWarning: string := "event_type was empty; payload logged under event_type 'log_event'"
  const UnknownCallWarning: string :=
    "call_id was empty; event logged with call_id 'unknown'. Set call_id in your workflow so this call appears in the call log."

  /** The reply of `/log_event`: the schema probe, or "ok" with an optional warning. */
  datatype LogEventReply = SchemaProbe | Logged(warning: Option<string>)

  /**
   * `/log_event`. A request without a payload is a schema probe and logs
   * nothing. Otherwise exactly one event is appended under the effective call
   * id: with a blank event type it is filed as "log_event" and the reply warns
   * about the type only; otherwise it is filed under the stripped type and the
   * reply warns exactly when the call id is "unknown".
   */
  function HandleLogEvent(s: Store, callId: Option<string>, eventType: Option<string>, payload: Option<map<string, Json>>, now: string)
    : (r: (Store, LogEventReply))
    requires Valid(s)
    ensures Valid(r.0)
    ensures r.1 == SchemaProbe <==> payload.None?
    ensures payload.None? ==> r.0 == s
    ensures payload.Some? ==>
      && |r.0.events| == |s.events| + 1 && r.0.events[..|s.events|] == s.events
      && r.0.profiles == s.profiles && r.0.prefs == s.prefs
    ensures payload.Some? ==> var e := r.0.events[|s.events|];
      && e.callId == EffectiveCallId(callId) && e.payload == JObj(payload.value) && e.timestamp == now
      && e.eventType != "" && TrimmedBy(e.eventType, IsSpace)
    ensures payload.Some? && Strip(eventType.GetOr("")) == "" ==>
      r.0.events[|s.events|].eventType == DefaultLogType && r.1 == Logged(Some(EmptyTypeWarning))
    ensures payload.Some? && Strip(eventType.GetOr("")) != "" ==>
      && r.0.events[|s.events|].eventType == Strip(eventType.GetOr(""))
      && (r.1.warning.Some? <==> EffectiveCallId(callId) == Unknown)
  {
    assert TrimmedBy(DefaultLogType, IsSpace);
    match payload
    case None => (s, SchemaProbe)
    case Some(p) =>
      var cid := EffectiveCallId(callId);
      var t := Strip(eventType.GetOr(""));
      if t == "" then (LogEvent(s, cid, DefaultLogType, JObj(p), now), Logged(Some(EmptyTypeWarning)))
      else (LogEvent(s, cid, t, JObj(p), now), Logged(if cid == Unknown then Some(UnknownCallWarning) else None))
  }

  /**
   * An event logged through `/log_event` is what the call's record reads for
   * its type, as long as its type does not normalise to nothing.
   */
  lemma LoggedPayloadIsLatest(s: Store, callId: Option<string>, eventType: Option<string>, p: map<string, Json>, now: string)
    requires Valid(s)
    ensures var r := HandleLogEvent(s, callId, eventType, Some(p), now).0;
      var e := r.events[|s.events|];
      var m := GroupByType(EventsByCallId(r.events, EffectiveCallId(callId)));
      GroupKey(e.eventType) != "" ==> GroupKey(e.eventType) in m && m[GroupKey(e.eventType)] == JObj(p)
  {
    var r := HandleLogEvent(s, callId, eventType, Some(p), now).0;
    if GroupKey(r.events[|s.events|].eventType) != "" {
      AppendedToStoreIsLatest(s, r, EffectiveCallId(callId));
    }
  }

  /**
   * After `/log_event` the call appears in the call list exactly when its
   * effective id is not "unknown" (the case the warning is about).
   */
  lemma LoggedCallListedIffKnown(s: Store, callId: Option<string>, eventType: Option<string>, p: map<string, Json>, now: string)
    requires Valid(s)
    ensures var r := HandleLogEvent(s, callId, eventType, Some(p), now).0;
      EffectiveCallId(callId) in DistinctCallIds(r.events) <==> EffectiveCallId(callId) != Unknown
  {
    var r := HandleLogEvent(s, callId, eventType, Some(p), now).0;
    var cid := EffectiveCallId(callId);
    assert CallIds(r.events)[|s.events|] == cid;
    assert Occurs(r.events, cid);
    assert cid[0] != ' ';
  }

  // ---------------- /call_output, /classify_call, /handoff_context ----------------

  const CallOutputType: string := "call_output"
  const ClassifiedType: string := "call_classified"
  const HandoffType: string := "handoff_initiated"

  /**
   * `/call_output`: the payload (a dict or a JSON string) is logged as given under
   * the effective call id, filed under the stripped event type or
   * "call_output" when that is blank.
   */
  function HandleCallOutput(s: Store, callId: string, eventType: string, payload: Json, now: string): (r: Store)
    requires Valid(s)
    ensures Valid(r)
    ensures |r.events| == |s.events| + 1 && r.events[..|s.events|] == s.events
    ensures var e := r.events[|s.events|];
      && e.callId == EffectiveCallId(Some(callId)) && e.payload == payload
      && e.eventType != "" && TrimmedBy(e.eventType, IsSpace)
      && (Strip(eventType) != "" ==> e.eventType == Strip(eventType))
      && (Strip(eventType) == "" ==> e.eventType == CallOutputType)
  {
    assert TrimmedBy(CallOutputType, IsSpace);
    var t := Strip(eventType);
    LogEvent(s, EffectiveCallId(Some(callId)), if t == "" then CallOutputType else t, payload, now)
  }

  /**
   * `/classify_call` and `/handoff_context`: the whole request (its `call_id`
   * included, as the caller sent it) is logged under a fixed event type.
   */
  function LogRequest(s: Store, eventType: string, request: Row, now: string): (r: Store)
    requires Valid(s) && (eventType == ClassifiedType || eventType == HandoffType)
    ensures Valid(r)
    ensures |r.events| == |s.events| + 1 && r.events[..|s.events|] == s.events
    ensures var e := r.events[|s.events|];
      && e.eventType == eventType && e.payload == JObj(request)
      && (CallIdColumn in request && request[CallIdColumn].JStr? ==> e.callId == EffectiveCallId(Some(request[CallIdColumn].s)))
  {
    var cid := match Get(request, CallIdColumn) case JStr(c) => EffectiveCallId(Some(c)) case _ => Unknown;
    LogEvent(s, cid, eventType, JObj(request), now)
  }

  /** The fixed event types of these endpoints are their own grouping keys. */
  lemma FixedTypesAreOwnKeys()
    ensures GroupKey(CallOutputType) == CallOutputType
    ensures GroupKey(ClassifiedType) == ClassifiedType
    ensures GroupKey(HandoffType) == HandoffType
  {
    CallOutputKey();
    ClassifiedKey();
    HandoffKey();
  }

  lemma CallOutputKey()
    ensures GroupKey(CallOutputType) == CallOutputType
  {
    PlainTypeIsOwnKey(CallOutputType);
  }

  lemma ClassifiedKey()
    ensures GroupKey(ClassifiedType) == ClassifiedType
  {
    PlainTypeIsOwnKey(ClassifiedType);
  }

  lemma HandoffKey()
    ensures GroupKey(HandoffType) == HandoffType
  {
    PlainTypeIsOwnKey(HandoffType);
  }

  /**
   * A `/call_output` payload is what the call's record reads for its event
   * type; with a blank type, for `call_output`.
   */
  lemma CallOutputIsLatest(s: Store, callId: string, eventType: string, payload: Json, now: string)
    requires Valid(s)
    ensures var r := HandleCallOutput(s, callId, eventType, payload, now);
      var e := r.events[|s.events|];
      var m := GroupByType(EventsByCallId(r.events, EffectiveCallId(Some(callId))));
      && (GroupKey(e.eventType) != "" ==> GroupKey(e.eventType) in m && m[GroupKey(e.eventType)] == payload)
      && (Strip(eventType) == "" ==> CallOutputType in m && m[CallOutputType] == payload)
  {
    var r := HandleCallOutput(s, callId, eventType, payload, now);
    FixedTypesAreOwnKeys();
    if GroupKey(r.events[|s.events|].eventType) != "" {
      AppendedToStoreIsLatest(s, r, EffectiveCallId(Some(callId)));
    }
  }

  /**
   * After `/classify_call` or `/handoff_context` the call the event was filed
   * under reads the whole request as its latest classification or handoff.
   */
  lemma RequestIsLatest(s: Store, eventType: string, request: Row, now: string)
    requires Valid(s) && (eventType == ClassifiedType || eventType == HandoffType)
    ensures var r := LogRequest(s, eventType, request, now);
      var m := GroupByType(EventsByCallId(r.events, r.events[|s.events|].callId));
      eventType in m && m[eventType] == JObj(request)
  {
    var r := LogRequest(s, eventType, request, now);
    FixedTypesAreOwnKeys();
    AppendedToStoreIsLatest(s, r, r.events[|s.events|].callId);
  }

  // ---------------- /submit_load ----------------

  const BestLoadType: string := "best_load_retrieved"
  const MissingLoadDetail: string := "Provide at least load_id or origin"

  /**
   * The `best_load_retrieved` payload: every field the caller sent except
   * `call_id` and the `None`s, with `rate` filled in from `loadboard_rate`
   * when only the latter was sent.
   */
  function SubmittedPayload(request: Row): (p: Row)
    ensures CallIdColumn !in p
    ensures forall k :: k in p ==> p[k] != JNull
    ensures forall k :: k != "rate" && k != CallIdColumn ==> (k in p <==> k in request && request[k] != JNull)
    ensures forall k :: k in p && k != "rate" ==> p[k] == request[k]
    ensures "rate" in p <==> Get(request, "rate") != JNull || Get(request, "loadboard_rate") != JNull
    ensures "rate" in p ==> p["rate"] == (if Get(request, "rate") != JNull then request["rate"] else request["loadboard_rate"])
  {
    var sent := Provided(request - {CallIdColumn});
    if "rate" !in sent && "loadboard_rate" in sent then sent["rate" := sent["loadboard_rate"]] else sent
  }

  datatype SubmitReply = Submitted(load: Row) | Rejected(status: int, detail: string)

  /**
   * `/submit_load`: rejected with 400 (and nothing logged) unless the load has
   * a truthy `load_id` or `origin`; otherwise the payload is logged once as the
   * call's best load and echoed back.
   */
  function HandleSubmitLoad(s: Store, callId: string, request: Row, now: string): (r: (Store, SubmitReply))
    requires Valid(s)
    ensures Valid(r.0)
    ensures r.1.Rejected? <==> !Truthy(Get(request, "load_id")) && !Truthy(Get(request, "origin"))
    ensures r.1.Rejected? ==> r.0 == s && r.1 == Rejected(400, MissingLoadDetail)
    ensures r.1.Submitted? ==>
      && |r.0.events| == |s.events| + 1 && r.0.events[..|s.events|] == s.events
      && var e := r.0.events[|s.events|];
         e.callId == EffectiveCallId(Some(callId)) && e.eventType == BestLoadType && e.payload == JObj(r.1.load)
    ensures r.1.Submitted? ==> r.1.load == SubmittedPayload(request)
  {
    var p := SubmittedPayload(request);
    assert Get(p, "load_id") == Get(request, "load_id") && Get(p, "origin") == Get(request, "origin");
    if !Truthy(Get(p, "load_id")) && !Truthy(Get(p, "origin")) then (s, Rejected(400, MissingLoadDetail))
    else (LogEvent(s, EffectiveCallId(Some(callId)), BestLoadType, JObj(p), now), Submitted(p))
  }

  /**
   * A load `/submit_load` accepts always reads back as a matched load, keeps
   * its id, and shows the rate the caller sent (either spelling) when that rate
   * is a truthy number.
   */
  lemma SubmittedLoadIsMatched(s: Store, callId: string, request: Row, now: string)
    requires Valid(s)
    ensures var r := HandleSubmitLoad(s, callId, request, now).1;
      r.Submitted? ==>
        && LoadFrom(r.load).Some?
        && (Truthy(Get(request, "load_id")) ==> LoadFrom(r.load).value.loadId == Get(request, "load_id"))
        && (Truthy(Get(request, "loadboard_rate")) ==> LoadFrom(r.load).value.loadboardRate == NumberOrZero(Get(request, "loadboard_rate")))
        && (!Truthy(Get(request, "loadboard_rate")) && Truthy(Get(request, "rate")) ==>
              LoadFrom(r.load).value.loadboardRate == NumberOrZero(Get(request, "rate")))
  {
    var r := HandleSubmitLoad(s, callId, request, now).1;
    if r.Submitted? {
      SubmittedPayloadIsLoad(request);
    }
  }

  /** The stored payload of an accepted load reads back as the load the caller sent. */
  lemma SubmittedPayloadIsLoad(request: Row)
    requires Truthy(Get(request, "load_id")) || Truthy(Get(request, "origin"))
    ensures var l := LoadFrom(SubmittedPayload(request));
      && l.Some?
      && (Truthy(Get(request, "load_id")) ==> l.value.loadId == Get(request, "load_id"))
      && (Truthy(Get(request, "loadboard_rate")) ==> l.value.loadboardRate == NumberOrZero(Get(request, "loadboard_rate")))
      && (!Truthy(Get(request, "loadboard_rate")) && Truthy(Get(request, "rate")) ==>
            l.value.loadboardRate == NumberOrZero(Get(request, "rate")))
  {
    var p := SubmittedPayload(request);
    assert Get(p, "load_id") == Get(request, "load_id") && Get(p, "origin") == Get(request, "origin");
    assert Get(p, "loadboard_rate") == Get(request, "loadboard_rate");
    if !Truthy(Get(request, "loadboard_rate")) && Truthy(Get(request, "rate")) {
      assert Get(p, "rate") == Get(request, "rate");
    }
  }

  // ---------------- /set_call_search_prefs ----------------

  const PrefsUpdatedType: string := "call_search_prefs_updated"
  const WeightField: string := "weight_capacity"
  const MinTempField: string := "min_temp"
  const MaxTempField: string := "max_temp"

  /** A converted number, `None` (when the text does not parse) kept as `JNull`. */
  function IntOrNull(v: Option<int>): Json {
    match v case Some(i) => JInt(i) case None => JNull
  }

  function RealOrNull(v: Option<real>): Json {
    match v case Some(x) => JFloat(x) case None => JNull
  }

  /** Replaces `k`'s value by `f` of it when `k` is present. */
  function MapField(u: Row, k: string, f: Json -> Json): (r: Row)
    ensures r.Keys == u.Keys
    ensures k in u ==> r[k] == f(u[k])
    ensures forall j :: j in u && j != k ==> r[j] == u[j]
  {
    if k in u then u[k := f(u[k])] else u
  }

  /**
   * The `updates` dict of `/set_call_search_prefs`: every sent field except
   * `call_id` and the `None`s, with the weight capacity converted to an int
   * and the temperatures to floats; a conversion that fails leaves `None`
   * under that field.
   */
  function PrefsUpdates(request: Row): (u: Row)
    ensures forall k :: k in u <==> k in request && k != CallIdColumn && request[k] != JNull
    ensures forall k :: k in u && k != WeightField && k != MinTempField && k != MaxTempField ==> u[k] == request[k]
    ensures WeightField in u ==> u[WeightField] == IntOrNull(SafeInt(request[WeightField]))
    ensures MinTempField in u ==> u[MinTempField] == RealOrNull(SafeFloat(request[MinTempField]))
    ensures MaxTempField in u ==> u[MaxTempField] == RealOrNull(SafeFloat(request[MaxTempField]))
  {
    var sent := Provided(request - {CallIdColumn});
    var w := MapField(sent, WeightField, v => IntOrNull(SafeInt(v)));
    var lo := MapField(w, MinTempField, v => RealOrNull(SafeFloat(v)));
    MapField(lo, MaxTempField, v => RealOrNull(SafeFloat(v)))
  }

  /**
   * `/set_call_search_prefs`: upserts the call's prefs row with the converted
   * updates and logs those updates (stamped with `updated_at`, and on insert
   * with the call id) as one `call_search_prefs_updated` event. Returns the
   * store and the row read back.
   */
  function HandleSetCallSearchPrefs(s: Store, callId: string, request: Row, now: string): (r: (Store, Row))
    requires Valid(s)
    ensures Valid(r.0)
    ensures Storage.Lookup(r.0.prefs, EffectiveCallId(Some(callId))) == Some(r.1)
    ensures forall k :: k != EffectiveCallId(Some(callId)) ==> Storage.Lookup(r.0.prefs, k) == Storage.Lookup(s.prefs, k)
    ensures r.0.profiles == s.profiles
    ensures |r.0.events| == |s.events| + 1 && r.0.events[..|s.events|] == s.events
    ensures var e := r.0.events[|s.events|];
      && e.callId == EffectiveCallId(Some(callId)) && e.eventType == PrefsUpdatedType
      && e.payload.JObj? && UpdatedAt in e.payload.fields && e.payload.fields[UpdatedAt] == JStr(now)
  {
    var cid := EffectiveCallId(Some(callId));
    var u := UpsertCallSearchPrefs(s, cid, PrefsUpdates(request), now);
    (LogEvent(u.0, cid, PrefsUpdatedType, JObj(u.2), now), u.1)
  }

  /**
   * Every field sent with a value, other than the three converted numbers,
   * reads back from the prefs row exactly as sent, whether the row existed or
   * not.
   */
  lemma PrefsFieldsStored(s: Store, callId: string, request: Row, now: string)
    requires Valid(s)
    ensures var row := HandleSetCallSearchPrefs(s, callId, request, now).1;
      forall k :: k in request && request[k] != JNull && k != CallIdColumn && k != UpdatedAt
                  && k != WeightField && k != MinTempField && k != MaxTempField
        ==> k in row && row[k] == request[k]
  {
    var cid := EffectiveCallId(Some(callId));
    var u := PrefsUpdates(request);
    var up := Upsert(s.prefs, map[], CallIdColumn, cid, u, now);
    assert HandleSetCallSearchPrefs(s, callId, request, now).1 == up.row;
    if cid in s.prefs {
      UpsertExisting(s.prefs, map[], CallIdColumn, cid, u, now);
    } else {
      UpsertNew(s.prefs, map[], CallIdColumn, cid, u, now);
    }
  }

  /**
   * A weight capacity that does not parse overwrites nothing on an existing
   * row (its `None` is skipped by the update), but is stored as NULL on a new
   * row (the insert takes every supplied field).
   */
  lemma UnparsedWeightHandling(s: Store, callId: string, request: Row, now: string)
    requires Valid(s)
    requires WeightField in request && request[WeightField] != JNull && SafeInt(request[WeightField]).None?
    ensures var cid := EffectiveCallId(Some(callId));
      var row := HandleSetCallSearchPrefs(s, callId, request, now).1;
      && (cid in s.prefs && WeightField in s.prefs[cid] ==> WeightField in row && row[WeightField] == s.prefs[cid][WeightField])
      && (cid !in s.prefs ==> WeightField in row && row[WeightField] == JNull)
  {
    var cid := EffectiveCallId(Some(callId));
    var u := PrefsUpdates(request);
    assert u[WeightField] == JNull;
    var up := Upsert(s.prefs, map[], CallIdColumn, cid, u, now);
    assert HandleSetCallSearchPrefs(s, callId, request, now).1 == up.row;
    if cid in s.prefs {
      UpsertExisting(s.prefs, map[], CallIdColumn, cid, u, now);
    } else {
      UpsertNew(s.prefs, map[], CallIdColumn, cid, u, now);
    }
  }

  // ---------------- /verify_mc ----------------

  const VerifyRequestedType: string := "verify_mc_requested"
  const VerifyResultType: string := "verify_mc_result"

  function ReasonJson(reason: Option<string>): Json {
    match reason case Some(t) => JStr(t) case None => JNull
  }

  /** The `carrier` dict `verify_mc` logs and returns. */
  function CarrierJson(c: VerifiedCarrier): (j: Json)
    ensures j.JObj? && Get(j.fields, "mc_number") == JStr(c.mcNumber)
  {
    JObj(map[
      "name" := c.name,
      "mc_number" := JStr(c.mcNumber),
      "dot_number" := c.dotNumber,
      "allowed_to_operate" := c.allowedToOperate,
      "out_of_service" := c.outOfService,
      "safety_rating" := c.safetyRating,
      "physical_city" := c.physicalCity,
      "physical_state" := c.physicalState])
  }

  /**
   * The `verify_mc_result` payload: for a carrier the registry returned, its
   * MC number, verdict, reason and carrier dict; on every other path the whole
   * response dict (`carrier` null, `raw` as reported).
   */
  function ResultPayload(mc: string, res: VerifyResult): (j: Json)
    ensures j.JObj? && Get(j.fields, "eligible") == JBool(res.eligible)
    ensures Get(j.fields, "reason") == ReasonJson(res.reason)
    ensures res.carrier.Some? ==> Get(j.fields, "carrier") == CarrierJson(res.carrier.value)
    ensures res.carrier.None? ==> Get(j.fields, "carrier") == JNull
  {
    match res.carrier
    case Some(c) =>
      JObj(map["mc_number" := JStr(mc), "eligible" := JBool(res.eligible), "reason" := ReasonJson(res.reason), "carrier" := CarrierJson(c)])
    case None =>
      JObj(map["ok" := JBool(true), "eligible" := JBool(res.eligible), "reason" := ReasonJson(res.reason), "carrier" := JNull, "raw" := res.raw])
  }

  /** The profile fields `verify_mc` upserts for a carrier the registry returned. */
  function ProfileUpdates(c: VerifiedCarrier): (u: Row)
    ensures McColumn !in u
    ensures Get(u, "legal_name") == c.name && Get(u, "dot_number") == c.dotNumber
  {
    map["dot_number" := c.dotNumber, "legal_name" := c.name, "physical_city" := c.physicalCity, "physical_state" := c.physicalState]
  }

  /**
   * The store effects of `/verify_mc` once the cleaned MC number `mc` has been
   * classified as `res`: the request event, the profile upsert when the
   * registry returned a carrier, and the result event. An upsert that raises
   * (a field the database cannot bind) is caught by the handler: the response
   * becomes ineligible with the error's text `dbError`, no profile changes,
   * and that response is what is logged. Returns the store and the response.
   */
  function RecordVerification(s: Store, cid: string, mcInput: string, mc: string, res: VerifyResult, dbError: string, now: string)
    : (r: (Store, VerifyResult))
    requires Valid(s)
    ensures Valid(r.0)
    ensures res.carrier.None? || RowBindable(ProfileUpdates(res.carrier.value)) ==> r.1 == res
    ensures res.carrier.Some? && !RowBindable(ProfileUpdates(res.carrier.value))
            ==> r.1 == VerifyResult(false, Some(dbError), None, JNull)
    ensures |r.0.events| == |s.events| + 2 && r.0.events[..|s.events|] == s.events
    ensures r.0.events[|s.events|].callId == cid && r.0.events[|s.events|].eventType == VerifyRequestedType
    ensures r.0.events[|s.events| + 1].callId == cid && r.0.events[|s.events| + 1].eventType == VerifyResultType
    ensures r.0.events[|s.events| + 1].payload == ResultPayload(mc, r.1)
    ensures r.0.prefs == s.prefs
    ensures r.1.carrier.None? ==> r.0.profiles == s.profiles
    ensures r.1.carrier.Some? ==> mc in r.0.profiles
    ensures forall k :: k != mc ==> Storage.Lookup(r.0.profiles, k) == Storage.Lookup(s.profiles, k)
  {
    var s1 := LogEvent(s, cid, VerifyRequestedType, JObj(map["mc_number" := JStr(mc), "original_input" := JStr(mcInput)]), now);
    var stored := res.carrier.Some? && RowBindable(ProfileUpdates(res.carrier.value));
    var out := if res.carrier.Some? && !stored then VerifyResult(false, Some(dbError), None, JNull) else res;
    var s2 := if stored then UpsertCarrierProfile(s1, mc, ProfileUpdates(res.carrier.value), now).0 else s1;
    var r := LogEvent(s2, cid, VerifyResultType, ResultPayload(mc, out), now);
    assert r.events[..|s.events|] == s1.events[..|s.events|];
    (r, out)
  }

  /**
   * `/verify_mc`: the MC number is cleaned, a `verify_mc_requested` event is
   * logged, the registry answer is classified, the carrier's profile is
   * upserted when the registry returned one, and a `verify_mc_result` event
   * is logged. `dbError` is the text of the exception a failing profile
   * upsert raises. Returns the store and the response.
   */
  function HandleVerifyMc(s: Store, callId: string, mcInput: string, webkey: string, http: HttpOutcome, dbError: string, now: string)
    : (r: (Store, VerifyResult))
    requires Valid(s)
    ensures Valid(r.0)
    ensures var d := VerifyMcDecision(webkey, CleanMc(mcInput), http);
      && (d.carrier.None? || RowBindable(ProfileUpdates(d.carrier.value)) ==> r.1 == d)
      && (d.carrier.Some? && !RowBindable(ProfileUpdates(d.carrier.value)) ==> r.1 == VerifyResult(false, Some(dbError), None, JNull))
    ensures r == RecordVerification(s, EffectiveCallId(Some(callId)), mcInput, CleanMc(mcInput),
                                    VerifyMcDecision(webkey, CleanMc(mcInput), http), dbError, now)
  {
    var mc := CleanMc(mcInput);
    RecordVerification(s, EffectiveCallId(Some(callId)), mcInput, mc, VerifyMcDecision(webkey, mc, http), dbError, now)
  }

  /** Text or null: a registry field the profile upsert can always bind. */
  predicate TextOrNull(v: Json) {
    v.JStr? || v.JNull?
  }

  /**
   * A registry record whose name, DOT number, city and state are text or null
   * keeps the registry's verdict, and the carrier's profile afterwards holds
   * the registry's name and DOT number wherever they were given.
   */
  lemma TextualCarrierIsStored(s: Store, cid: string, mcInput: string, mc: string, res: VerifyResult, dbError: string, now: string)
    requires Valid(s) && res.carrier.Some?
    requires var c := res.carrier.value;
      TextOrNull(c.name) && TextOrNull(c.dotNumber) && TextOrNull(c.physicalCity) && TextOrNull(c.physicalState)
    ensures var r := RecordVerification(s, cid, mcInput, mc, res, dbError, now);
      var c := res.carrier.value;
      && r.1 == res && mc in r.0.profiles
      && (c.name != JNull ==> Get(r.0.profiles[mc], "legal_name") == c.name)
      && (c.dotNumber != JNull ==> Get(r.0.profiles[mc], "dot_number") == c.dotNumber)
  {
    var c := res.carrier.value;
    var u := ProfileUpdates(c);
    assert RowBindable(u);
    var s1 := LogEvent(s, cid, VerifyRequestedType, JObj(map["mc_number" := JStr(mc), "original_input" := JStr(mcInput)]), now);
    if mc in s1.profiles {
      UpsertExisting(s1.profiles, ProfileDefaults, McColumn, mc, u, now);
    } else {
      UpsertNew(s1.profiles, ProfileDefaults, McColumn, mc, u, now);
    }
  }

  /** An event type made of plain identifier characters is its own grouping key. */
  lemma PlainTypeIsOwnKey(t: string)
    requires |t| > 0 && !IsSpace(t[0]) && !IsSpace(t[|t| - 1]) && t[0] != '"' && t[|t| - 1] != '"'
    ensures GroupKey(t) == t
  {
  }

  lemma VerifyResultKey()
    ensures GroupKey(VerifyResultType) == VerifyResultType
  {
    PlainTypeIsOwnKey(VerifyResultType);
  }

  /**
   * After `/verify_mc` the call's record reads this verdict: the latest
   * `verify_mc_result` payload carries `eligible` as the response says, so the
   * call's verification status is `verified` or `failed`, never `pending`.
   */
  lemma VerifyDecidesStatus(s: Store, cid: string, mcInput: string, mc: string, res: VerifyResult, dbError: string, now: string)
    requires Valid(s)
    ensures var r := RecordVerification(s, cid, mcInput, mc, res, dbError, now);
      var v := Latest(GroupByType(EventsByCallId(r.0.events, cid)), VerifyResultType);
      v.JObj? && StatusOf(Get(v.fields, "eligible")) == (if r.1.eligible then Verified else Failed)
  {
    var r := RecordVerification(s, cid, mcInput, mc, res, dbError, now);
    var n := |s.events|;
    assert r.0.events == r.0.events[..n + 1] + [r.0.events[n + 1]];
    ResultEventDecides(r.0.events[..n + 1], r.0.events[n + 1], cid, r.1.eligible);
  }

  /** A `verify_mc_result` event appended to a call's history decides its verification status. */
  lemma ResultEventDecides(es: seq<Event>, e: Event, cid: string, eligible: bool)
    requires e.callId == cid && e.eventType == VerifyResultType
    requires e.payload.JObj? && Get(e.payload.fields, "eligible") == JBool(eligible)
    ensures var v := Latest(GroupByType(EventsByCallId(es + [e], cid)), VerifyResultType);
      v.JObj? && StatusOf(Get(v.fields, "eligible")) == (if eligible then Verified else Failed)
  {
    VerifyResultKey();
    AppendedIsLatest(es, e, cid);
  }

  /** The one event appended to a store is what its call's record reads for its type. */
  lemma AppendedToStoreIsLatest(s: Store, r: Store, cid: string)
    requires |r.events| == |s.events| + 1 && r.events[..|s.events|] == s.events
    requires r.events[|s.events|].callId == cid && GroupKey(r.events[|s.events|].eventType) != ""
    ensures var e := r.events[|s.events|];
      var m := GroupByType(EventsByCallId(r.events, cid));
      GroupKey(e.eventType) in m && m[GroupKey(e.eventType)] == e.payload
  {
    var e := r.events[|s.events|];
    assert EventsByCallId(r.events, cid) == EventsByCallId(s.events, cid) + [e];
    LatestEventWins(EventsByCallId(s.events, cid), e);
  }

  /** The last event of a call's history is what the call's record reads for its type. */
  lemma AppendedIsLatest(es: seq<Event>, e: Event, cid: string)
    requires e.callId == cid && GroupKey(e.eventType) != ""
    ensures var m := GroupByType(EventsByCallId(es + [e], cid));
      GroupKey(e.eventType) in m && m[GroupKey(e.eventType)] == e.payload
  {
    assert (es + [e])[..|es|] == es;
    assert EventsByCallId(es + [e], cid) == EventsByCallId(es, cid) + [e];
    LatestEventWins(EventsByCallId(es, cid), e);
  }
}

=== FILE: json.dfy ===
/**
 * JSON values as the Python code sees them after `json.loads`: `None`, booleans,
 * ints and floats (kept apart, as Python keeps them apart), strings, lists and
 * dicts with string keys.
 */
module JsonValues {

  datatype Json =
    | JNull
    | JBool(b: bool)
    | JInt(i: int)
    | JFloat(x: real)
    | JStr(s: string)
    | JArr(items: seq<Json>)
    | JObj(fields: map<string, Json>)

  /** Python truthiness: `None`, `False`, `0`, `0.0`, `""`, `[]` and `{}` are false. */
  predicate Truthy(j: Json) {
    match j
    case JNull => false
    case JBool(b) => b
    case JInt(i) => i != 0
    case JFloat(x) => x != 0.0
    case JStr(s) => |s| > 0
    case JArr(items) => |items| > 0
    case JObj(fields) => |fields| > 0
  }

  /** Python's `a or b`: the first operand when it is truthy, else the second. */
  function Or(a: Json, b: Json): (r: Json)
    ensures Truthy(a) ==> r == a
    ensures !Truthy(a) ==> r == b
    ensures Truthy(r) <==> Truthy(a) || Truthy(b)
  {
    if Truthy(a) then a else b
  }

  /** `d.get(k)`: the value under `k`, or `None` when the key is missing. */
  function Get(d: map<string, Json>, k: string): Json {
    if k in d then d[k] else JNull
  }

  /** `d.get(k, default)`: the default only when the key is missing (an explicit `null` stays `None`). */
  function GetOr(d: map<string, Json>, k: string, default: Json): Json {
    if k in d then d[k] else default
  }

  /** The empty dict `{}`. */
  const EmptyObj: Json := JObj(map[])

  /** `x or {}` for a value the code then treats as a dict. */
  function OrEmpty(j: Json): (r: Json)
    ensures Truthy(j) ==> r == j
    ensures !Truthy(j) ==> r == EmptyObj
  {
    Or(j, EmptyObj)
  }
}

=== FILE: metrics.dfy ===
/**
 * The dashboard rollups of app/main.py over the call records of every listed
 * call: the overview counts, the negotiation metrics and the carrier
 * insights. Rounding of the reported averages and percentages is not
 * modelled: the values here are the exact quotients.
 */
module Metrics {
  import opened Wrappers
  import opened JsonValues
  import opened Text
  import opened Boundary
  import opened Storage
  import opened Sentiments
  import opened CallRecords
  import opened Sorting
  import opened Tally

  // ---------------- collecting the records ----------------

  /** The record builder of a store, as a function of the call id. */
  function BuildOf(s: Store, decode: string -> Option<Json>, span: (string, string) -> nat): (build: string -> Built)
    requires DecodeShrinks(decode)
    ensures forall c :: build(c) == BuildCallRecord(s, c, decode, span)
  {
    c => BuildCallRecord(s, c, decode, span)
  }

  /** Whether a call's record builds: it has events and building it does not raise. */
  function Builds(build: string -> Built): (keep: string -> bool)
    ensures forall c :: keep(c) <==> build(c).Record?
  {
    c => build(c).Record?
  }

  /**
   * The records of the calls `ids`, in order; calls without events or that
   * raised are skipped. The `i`-th record belongs to the `i`-th call that builds.
   */
  function RecordsFor(ids: seq<string>, build: string -> Built): (rs: seq<CallRecord>)
    requires forall c :: build(c).Record? ==> build(c).rec.id == c
    ensures |rs| <= |ids|
    ensures forall r :: r in rs ==> r.id in ids && build(r.id) == Record(r)
    ensures forall c :: c in ids && build(c).Record? ==> build(c).rec in rs
    ensures var built := Filter(ids, Builds(build));
      |rs| == |built| && forall i :: 0 <= i < |rs| ==> rs[i].id == built[i]
  {
    if |ids| == 0 then []
    else
      assert ids == [ids[0]] + ids[1..];
      var rest := RecordsFor(ids[1..], build);
      var b := build(ids[0]);
      if b.Record? then [b.rec] + rest else rest
  }

  /**
   * The loop every metrics endpoint starts with: build the record of each call
   * `get_distinct_call_ids` lists, in that order, and keep those that built.
   * No call contributes two records.
   */
  function CollectRecords(s: Store, decode: string -> Option<Json>, span: (string, string) -> nat): (rs: seq<CallRecord>)
    requires DecodeShrinks(decode)
    ensures |rs| <= |DistinctCallIds(s.events)|
    ensures forall r :: r in rs ==> r.id in DistinctCallIds(s.events) && BuildCallRecord(s, r.id, decode, span) == Record(r)
    ensures forall c :: c in DistinctCallIds(s.events) && BuildCallRecord(s, c, decode, span).Record? ==>
      BuildCallRecord(s, c, decode, span).rec in rs
    ensures var built := Filter(DistinctCallIds(s.events), Builds(BuildOf(s, decode, span)));
      |rs| == |built| && forall i :: 0 <= i < |rs| ==> rs[i].id == built[i]
    ensures forall i, j :: 0 <= i < j < |rs| ==> rs[i].id != rs[j].id
  {
    var ids := DistinctCallIds(s.events);
    var build := BuildOf(s, decode, span);
    var built := Filter(ids, Builds(build));
    var rs := RecordsFor(ids, build);
    var differ := (a: string, b: string) => a != b;
    FilterKeepsOrder(ids, Builds(build), differ);
    assert forall i, j :: 0 <= i < j < |rs| ==> differ(built[i], built[j]);
    rs
  }

  // ---------------- overview ----------------

  /** How many records have outcome `o`. */
  function CountOutcome(rs: seq<CallRecord>, o: Outcome): (n: nat)
    ensures n <= |rs|
  {
    if |rs| == 0 then 0 else (if rs[0].outcome == o then 1 else 0) + CountOutcome(rs[1..], o)
  }

  /** The four outcome counts account for every record. */
  lemma {:induction false} OutcomeCountsSum(rs: seq<CallRecord>)
    ensures CountOutcome(rs, Booked) + CountOutcome(rs, NoDeal) + CountOutcome(rs, FailedVerification) + CountOutcome(rs, Dropped) == |rs|
  {
    if |rs| > 0 {
      OutcomeCountsSum(rs[1..]);
    }
  }

  /** How many records carry sentiment `s` (`r.get("sentiment") or "neutral"`, always one of the four). */
  function CountSentiment(rs: seq<CallRecord>, s: Sentiment): (n: nat)
    ensures n <= |rs|
  {
    if |rs| == 0 then 0 else (if rs[0].sentiment == s then 1 else 0) + CountSentiment(rs[1..], s)
  }

  /** The sentiment distribution accounts for every record. */
  lemma {:induction false} SentimentCountsSum(rs: seq<CallRecord>)
    ensures CountSentiment(rs, Positive) + CountSentiment(rs, Neutral) + CountSentiment(rs, Negative) + CountSentiment(rs, Frustrated) == |rs|
  {
    if |rs| > 0 {
      SentimentCountsSum(rs[1..]);
    }
  }

  /** `part / total * 100`, or 0 when there is nothing to divide by. */
  function Percentage(part: nat, total: nat): (p: real)
    requires part <= total
    ensures 0.0 <= p <= 100.0
    ensures total == 0 ==> p == 0.0
    ensures total > 0 ==> p * (total as real) == (part as real) * 100.0
    ensures part == total && total > 0 ==> p == 100.0
  {
    if total == 0 then 0.0 else (part as real) / (total as real) * 100.0
  }

  /** `sum(xs)`. */
  function Sum(xs: seq<real>): real {
    if |xs| == 0 then 0.0 else xs[0] + Sum(xs[1..])
  }

  /** A sum of non-negative numbers is non-negative. */
  lemma {:induction false} SumNonNegative(xs: seq<real>)
    requires forall i :: 0 <= i < |xs| ==> xs[i] >= 0.0
    ensures Sum(xs) >= 0.0
  {
    if |xs| > 0 {
      SumNonNegative(xs[1..]);
    }
  }

  /** `sum(xs) / len(xs) if xs else 0`. */
  function Average(xs: seq<real>): (a: real)
    ensures |xs| == 0 ==> a == 0.0
    ensures |xs| > 0 ==> a * (|xs| as real) == Sum(xs)
  {
    if |xs| == 0 then 0.0 else Sum(xs) / (|xs| as real)
  }

  /**
   * `safe_number_convert(load.get("loadboard_rate") or load.get("rate"))` on a
   * record: `load_matched` has no `rate` key, so a missing load or a zero rate
   * gives `None`.
   */
  function ListedRate(r: CallRecord): (x: Option<real>)
    ensures x.Some? <==> r.load.Some? && r.load.value.loadboardRate != 0.0
    ensures x.Some? ==> x.value == r.load.value.loadboardRate
  {
    if r.load.Some? && r.load.value.loadboardRate != 0.0 then Some(r.load.value.loadboardRate) else None
  }

  /** `safe_number_convert(neg.get("final_rate"))` on a record. */
  function FinalRate(r: CallRecord): Option<real> {
    if r.negotiation.Some? then r.negotiation.value.finalRate else None
  }

  function Max0(x: real): (m: real)
    ensures m >= 0.0 && m >= x && (m == 0.0 || m == x)
  {
    if x > 0.0 then x else 0.0
  }

  /** The overview's premiums: `max(0, final − listed)` for every record that has both rates. */
  function Spreads(rs: seq<CallRecord>): (sp: seq<real>)
    ensures |sp| <= |rs|
    ensures forall i :: 0 <= i < |sp| ==> sp[i] >= 0.0
  {
    if |rs| == 0 then []
    else
      var rest := Spreads(rs[1..]);
      var lb := ListedRate(rs[0]);
      var fr := FinalRate(rs[0]);
      if lb.Some? && fr.Some? then [Max0(fr.value - lb.value)] + rest else rest
  }

  /** Records with both rates are exactly the ones that contribute a spread. */
  lemma {:induction false} SpreadsCount(rs: seq<CallRecord>)
    ensures |Spreads(rs)| == |Filter(rs, r => ListedRate(r).Some? && FinalRate(r).Some?)|
  {
    if |rs| > 0 {
      SpreadsCount(rs[1..]);
    }
  }

  datatype Overview = Overview(
    total: nat,
    conversionRate: real,
    avgSpread: real,
    booked: nat, noDeal: nat, failedVerification: nat, dropped: nat,
    positive: nat, neutral: nat, negative: nat, frustrated: nat)

  /**
   * `/api/metrics/overview` (without `calls_today`, which reads the clock): the
   * outcome counts add up to the total, the conversion rate is the booked
   * share in percent (0 without records), the average premium is never
   * negative (0 without premiums), and the sentiment counts add up to the total.
   */
  function MetricsOverview(rs: seq<CallRecord>): (o: Overview)
    ensures o.total == |rs|
    ensures o.booked + o.noDeal + o.failedVerification + o.dropped == o.total
    ensures o.booked == CountOutcome(rs, Booked) && o.dropped == CountOutcome(rs, Dropped)
    ensures 0.0 <= o.conversionRate <= 100.0 && (o.total == 0 ==> o.conversionRate == 0.0)
    ensures o.avgSpread >= 0.0 && (|Spreads(rs)| == 0 ==> o.avgSpread == 0.0)
    ensures o.positive + o.neutral + o.negative + o.frustrated == o.total
    ensures o.noDeal == CountOutcome(rs, NoDeal) && o.failedVerification == CountOutcome(rs, FailedVerification)
    ensures o.conversionRate == Percentage(o.booked, o.total) && o.avgSpread == Average(Spreads(rs))
    ensures o.positive == CountSentiment(rs, Positive) && o.neutral == CountSentiment(rs, Neutral)
    ensures o.negative == CountSentiment(rs, Negative) && o.frustrated == CountSentiment(rs, Frustrated)
  {
    OutcomeCountsSum(rs);
    SentimentCountsSum(rs);
    var sp := Spreads(rs);
    SumNonNegative(sp);
    var booked := CountOutcome(rs, Booked);
    Overview(
      |rs|,
      Percentage(booked, |rs|),
      Average(sp),
      booked, CountOutcome(rs, NoDeal), CountOutcome(rs, FailedVerification), CountOutcome(rs, Dropped),
      CountSentiment(rs, Positive), CountSentiment(rs, Neutral), CountSentiment(rs, Negative), CountSentiment(rs, Frustrated))
  }

  // ---------------- effective loadboard rate ----------------

  /** `load_matched` as the record's dict. */
  function LoadDict(l: LoadMatched): map<string, Json> {
    map[
      "load_id" := l.loadId, "origin" := l.origin, "destination" := l.destination,
      "pickup_datetime" := l.pickup, "delivery_datetime" := l.delivery, "equipment_type" := l.equipmentType,
      "loadboard_rate" := JFloat(l.loadboardRate), "weight" := JFloat(l.weight),
      "commodity_type" := l.commodityType, "miles" := JFloat(l.miles), "notes" := l.notes,
      "num_of_pieces" := (match l.numOfPieces case Some(n) => JInt(n) case None => JNull),
      "dimensions" := l.dimensions]
  }

  /** `negotiation` as the record's dict. */
  function NegotiationDict(n: Negotiation): map<string, Json> {
    map[
      "rounds" := n.rounds, "initial_offer" := JFloat(n.initialOffer),
      "counter_offers" := JArr(seq(|n.counterOffers|, i requires 0 <= i < |n.counterOffers| => JFloat(n.counterOffers[i]))),
      "final_rate" := (match n.finalRate case Some(x) => JFloat(x) case None => JNull),
      "agreed" := JBool(n.agreed)]
  }

  /**
   * `_effective_loadboard_rate(load, neg)`: the load's listed rate when it is
   * positive, else the first truthy of the negotiation's `loadboard_rate`,
   * `original_rate`, `initial_offer`, `final_rate`, converted (0 when none).
   */
  function EffectiveLoadboardRate(load: map<string, Json>, neg: map<string, Json>): (x: real)
    ensures SafeFloat(Or(Get(load, "loadboard_rate"), Get(load, "rate"))).GetOr(0.0) > 0.0 ==>
      x == SafeFloat(Or(Get(load, "loadboard_rate"), Get(load, "rate"))).value
  {
    var lb := SafeFloat(Or(Get(load, "loadboard_rate"), Get(load, "rate"))).GetOr(0.0);
    if lb > 0.0 then lb
    else SafeFloat(Or(Or(Or(Get(neg, "loadboard_rate"), Get(neg, "original_rate")), Get(neg, "initial_offer")), Get(neg, "final_rate"))).GetOr(0.0)
  }

  /** The record's `load_matched or {}` and `negotiation or {}`. */
  function LoadOf(r: CallRecord): map<string, Json> {
    if r.load.Some? then LoadDict(r.load.value) else map[]
  }

  function NegotiationOfRecord(r: CallRecord): map<string, Json> {
    if r.negotiation.Some? then NegotiationDict(r.negotiation.value) else map[]
  }

  /**
   * On a record the effective rate is the listed rate when positive, else the
   * initial offer when non-zero, else the final rate (0 when there is none):
   * the negotiation dict never has `loadboard_rate` or `original_rate`.
   */
  lemma EffectiveRateOfRecord(l: LoadMatched, n: Negotiation)
    ensures EffectiveLoadboardRate(LoadDict(l), NegotiationDict(n)) ==
      if l.loadboardRate > 0.0 then l.loadboardRate
      else if n.initialOffer != 0.0 then n.initialOffer
      else n.finalRate.GetOr(0.0)
  {
    var nd := NegotiationDict(n);
    assert Get(nd, "loadboard_rate") == JNull && Get(nd, "original_rate") == JNull;
    assert Get(LoadDict(l), "rate") == JNull;
  }

  /**
   * The rate fallback `_build_call_record` applies for display never changes
   * the effective rate the negotiation metrics use.
   */
  lemma DisplayFallbackKeepsEffectiveRate(l: LoadMatched, n: Negotiation)
    ensures EffectiveLoadboardRate(LoadDict(WithFallbackRate(l, n)), NegotiationDict(n))
         == EffectiveLoadboardRate(LoadDict(l), NegotiationDict(n))
  {
    EffectiveRateOfRecord(l, n);
    EffectiveRateOfRecord(WithFallbackRate(l, n), n);
  }

  function EffectiveRate(r: CallRecord): real {
    EffectiveLoadboardRate(LoadOf(r), NegotiationOfRecord(r))
  }

  // ---------------- negotiation metrics ----------------

  /** Records with both a negotiation and a matched load. */
  predicate Negotiated(r: CallRecord) {
    r.negotiation.Some? && r.load.Some?
  }

  function CountAgreed(rs: seq<CallRecord>): (n: nat)
    ensures n <= |rs|
  {
    if |rs| == 0 then 0
    else (if rs[0].negotiation.Some? && rs[0].negotiation.value.agreed then 1 else 0) + CountAgreed(rs[1..])
  }

  /** `final − effective` for every record with a final rate and a positive effective rate. */
  function Discounts(rs: seq<CallRecord>): (d: seq<real>)
    ensures |d| <= |rs|
  {
    if |rs| == 0 then []
    else
      var rest := Discounts(rs[1..]);
      var fr := FinalRate(rs[0]);
      var lb := EffectiveRate(rs[0]);
      if fr.Some? && lb > 0.0 then [fr.value - lb] + rest else rest
  }

  /** Timestamp order, ascending or (for `reverse=True`) descending. */
  function ByTimestamp(descending: bool): (le: (CallRecord, CallRecord) -> bool)
    ensures Total(le)
  {
    var le := (a: CallRecord, b: CallRecord) => if descending then LexLe(b.timestamp, a.timestamp) else LexLe(a.timestamp, b.timestamp);
    assert forall a: CallRecord, b: CallRecord :: le(a, b) || le(b, a) by {
      forall a: CallRecord, b: CallRecord ensures le(a, b) || le(b, a) {
        LexLeTotal(a.timestamp, b.timestamp);
      }
    }
    le
  }

  datatype ChartPoint = ChartPoint(date: string, loadboardRate: real, finalRate: real)

  /** The chart point of each record with a final rate and a positive effective rate, in order. */
  function ChartPoints(rs: seq<CallRecord>): (ps: seq<ChartPoint>)
    ensures |ps| <= |rs|
    ensures forall i :: 0 <= i < |ps| ==> ps[i].loadboardRate > 0.0 && |ps[i].date| <= 10
  {
    if |rs| == 0 then []
    else
      var rest := ChartPoints(rs[1..]);
      var fr := FinalRate(rs[0]);
      var lb := EffectiveRate(rs[0]);
      if fr.Some? && lb > 0.0 then [ChartPoint(Take(rs[0].timestamp, 10), lb, fr.value)] + rest else rest
  }

  /** `s[:n]`. */
  function FirstN<T>(s: seq<T>, n: nat): (r: seq<T>)
    ensures |r| == if |s| <= n then |s| else n
    ensures r == s[..|r|]
  {
    if |s| <= n then s else s[..n]
  }

  /** `s[-n:]`. */
  function LastN<T>(s: seq<T>, n: nat): (r: seq<T>)
    ensures |r| == if |s| <= n then |s| else n
    ensures r == s[|s| - |r|..]
  {
    if |s| <= n then s else s[|s| - n..]
  }

  /** One row of the recent-negotiations table. */
  datatype RecentRow = RecentRow(
    date: string, loadId: Json, origin: Json, destination: Json,
    loadboardRate: real, finalRate: real, spread: real, rounds: Json, agreed: bool)

  /** `safe_number_convert(neg.get("final_rate")) or 0`. */
  function FinalOrZero(r: CallRecord): real {
    match FinalRate(r) case Some(x) => x case None => 0.0
  }

  function RecentRowOf(r: CallRecord): (row: RecentRow)
    requires Negotiated(r)
    ensures row.spread >= 0.0 && row.spread >= row.finalRate - row.loadboardRate
    ensures row.agreed == r.negotiation.value.agreed
    ensures |row.date| <= 19
  {
    var lb := EffectiveRate(r);
    var fr := FinalOrZero(r);
    RecentRow(
      ReplaceChar(Take(r.timestamp, 19), 'T', ' '),
      Or(r.load.value.loadId, JStr("—")),
      r.load.value.origin, r.load.value.destination,
      lb, fr, Max0(fr - lb),
      Or(r.negotiation.value.rounds, JInt(0)),
      r.negotiation.value.agreed)
  }

  function RecentRows(rs: seq<CallRecord>): (rows: seq<RecentRow>)
    requires forall i :: 0 <= i < |rs| ==> Negotiated(rs[i])
    ensures |rows| == |rs|
    ensures forall i :: 0 <= i < |rs| ==> rows[i] == RecentRowOf(rs[i])
  {
    seq(|rs|, i requires 0 <= i < |rs| => RecentRowOf(rs[i]))
  }

  datatype NegotiationMetrics = NegotiationMetrics(
    total: nat, successes: nat, successRate: real, avgDiscount: real,
    chart: seq<ChartPoint>, recent: seq<RecentRow>)

  /** The records the negotiation metrics read, newest first, the 12 the recent table shows first. */
  function NewestNegotiated(rs: seq<CallRecord>): (r: seq<CallRecord>)
    ensures |r| == |Filter(rs, Negotiated)|
    ensures multiset(r) == multiset(Filter(rs, Negotiated))
    ensures SortedBy(r, ByTimestamp(true))
    ensures forall i :: 0 <= i < |r| ==> Negotiated(r[i])
  {
    var neg := Filter(rs, Negotiated);
    var r := SortBy(neg, ByTimestamp(true));
    assert forall i :: 0 <= i < |r| ==> r[i] in multiset(neg);
    r
  }

  /** The chart points of the negotiated records, oldest first. */
  function ChronologicalPoints(rs: seq<CallRecord>): (ps: seq<ChartPoint>)
    ensures |ps| <= |Filter(rs, Negotiated)|
    ensures forall i :: 0 <= i < |ps| ==> ps[i].loadboardRate > 0.0
  {
    ChartPoints(SortBy(Filter(rs, Negotiated), ByTimestamp(false)))
  }

  /**
   * The recent-negotiations table: one row for each of the 12 newest
   * negotiated records (all of them when fewer), newest first, with a
   * non-negative spread.
   */
  function RecentTable(rs: seq<CallRecord>): (rows: seq<RecentRow>)
    ensures |rows| == if |Filter(rs, Negotiated)| < 12 then |Filter(rs, Negotiated)| else 12
    ensures forall i :: 0 <= i < |rows| ==> rows[i] == RecentRowOf(NewestNegotiated(rs)[i])
    ensures forall i :: 0 <= i < |rows| ==> rows[i].spread >= 0.0
  {
    RecentRows(FirstN(NewestNegotiated(rs), 12))
  }

  /**
   * `/api/metrics/negotiations`: over the records with a negotiation and a
   * load, the share agreed (0 without such records), the average of
   * `final − effective rate`, at most the 24 latest chart points (all with a
   * positive rate), and the 12 newest negotiations with non-negative spreads.
   */
  function MetricsNegotiations(rs: seq<CallRecord>): (m: NegotiationMetrics)
    ensures m.total == |Filter(rs, Negotiated)|
    ensures m.successes <= m.total
    ensures 0.0 <= m.successRate <= 100.0 && (m.total == 0 ==> m.successRate == 0.0)
    ensures |m.chart| <= 24 && forall i :: 0 <= i < |m.chart| ==> m.chart[i].loadboardRate > 0.0
    ensures |m.recent| == if m.total < 12 then m.total else 12
    ensures m.successes == CountAgreed(Filter(rs, Negotiated)) && m.successRate == Percentage(m.successes, m.total)
    ensures m.avgDiscount == Average(Discounts(Filter(rs, Negotiated)))
    ensures m.chart == LastN(ChronologicalPoints(rs), 24)
    ensures m.recent == RecentTable(rs)
  {
    var neg := Filter(rs, Negotiated);
    var successes := CountAgreed(neg);
    var points := ChronologicalPoints(rs);
    NegotiationMetrics(
      |neg|, successes, Percentage(successes, |neg|),
      Average(Discounts(neg)),
      LastN(points, 24),
      RecentTable(rs))
  }

  /** No record left out of the recent table is newer than one shown in it. */
  lemma RecentAreNewest(rs: seq<CallRecord>, i: int, j: int)
    requires var r := NewestNegotiated(rs); 0 <= i < 12 && i < |r| && 12 <= j < |r|
    ensures var r := NewestNegotiated(rs); LexLe(r[j].timestamp, r[i].timestamp)
  {
    var r := NewestNegotiated(rs);
    var le := ByTimestamp(true);
    forall a: CallRecord, b: CallRecord, c: CallRecord | le(a, b) && le(b, c) ensures le(a, c) {
      LexLeTrans(c.timestamp, b.timestamp, a.timestamp);
    }
    forall a: CallRecord ensures le(a, a) {
      LexLeTotal(a.timestamp, a.timestamp);
    }
    SortedPairwise(r, le, i, j);
  }

  // ---------------- carrier insights ----------------

  /** A lane, `f"{origin} → {destination}"`. */
  datatype Lane = Lane(origin: Json, destination: Json)

  /** The record's lane, when its load has a truthy origin and destination. */
  function LaneOf(r: CallRecord): Option<Lane> {
    if r.load.Some? && Truthy(r.load.value.origin) && Truthy(r.load.value.destination)
    then Some(Lane(r.load.value.origin, r.load.value.destination)) else None
  }

  /** `r.get("mc_number") or "—"`. */
  function McOf(r: CallRecord): Json {
    Or(r.mcNumber, JStr("—"))
  }

  function Mcs(rs: seq<CallRecord>): (ms: seq<Json>)
    ensures |ms| == |rs| && forall i :: 0 <= i < |rs| ==> ms[i] == McOf(rs[i])
  {
    seq(|rs|, i requires 0 <= i < |rs| => McOf(rs[i]))
  }

  /** The lanes of the records, in order (records without a lane contribute none). */
  function Lanes(rs: seq<CallRecord>): (ls: seq<Lane>)
    ensures |ls| <= |rs|
    ensures forall l :: l in ls <==> exists i :: 0 <= i < |rs| && LaneOf(rs[i]) == Some(l)
  {
    if |rs| == 0 then []
    else
      var rest := Lanes(rs[1..]);
      assert forall i :: 0 < i < |rs| ==> rs[i] == rs[1..][i - 1];
      assert forall i :: 0 <= i < |rs| - 1 ==> rs[1..][i] == rs[i + 1];
      match LaneOf(rs[0]) case Some(l) => [l] + rest case None => rest
  }

  /** `mc_lanes[mc]`: the lanes of `mc`'s records, in order. */
  function LanesOfMc(rs: seq<CallRecord>, mc: Json): (ls: seq<Lane>)
    ensures |ls| <= |rs|
  {
    Lanes(Filter(rs, r => McOf(r) == mc))
  }

  /** `mc_name[mc]`: the carrier name of `mc`'s last record ("Unknown" when it has none). */
  function NameOfMc(rs: seq<CallRecord>, mc: Json): Json {
    if |rs| == 0 then JStr("Unknown")
    else if McOf(rs[|rs| - 1]) == mc then Or(rs[|rs| - 1].carrierName, JStr("Unknown"))
    else NameOfMc(rs[..|rs| - 1], mc)
  }

  /** Count order, largest first (`key=lambda x: -x[1]`). */
  function ByCountDesc<K(!new)>(): (le: (Entry<K>, Entry<K>) -> bool)
    ensures forall a: Entry<K>, b: Entry<K> :: le(a, b) <==> a.count >= b.count
  {
    (a: Entry<K>, b: Entry<K>) => a.count >= b.count
  }

  /** Distinct keys, as a relation between an earlier and a later entry. */
  function KeysDiffer<K(==,!new)>(): (d: (Entry<K>, Entry<K>) -> bool)
    ensures forall a: Entry<K>, b: Entry<K> :: d(a, b) <==> a.key != b.key
  {
    (a: Entry<K>, b: Entry<K>) => a.key != b.key
  }

  /**
   * A tally sorted by count, largest first; ties keep first-occurrence order.
   * It holds exactly one entry per distinct value, with that value's number of
   * occurrences.
   */
  function MostFrequent<K(==,!new)>(s: seq<K>): (t: seq<Entry<K>>)
    ensures |t| == |Dedupe(s)|
    ensures Pairwise(t, ByCountDesc())
    ensures forall i :: 0 <= i < |t| ==> t[i].key in s && t[i].count == multiset(s)[t[i].key] && t[i].count > 0
    ensures Pairwise(t, KeysDiffer())
  {
    var tally := TallyOf(s);
    var le := ByCountDesc<K>();
    var t := SortBy(tally, le);
    forall i, j | 0 <= i < j < |t| ensures le(t[i], t[j]) {
      SortedPairwise(t, le, i, j);
    }
    forall i | 0 <= i < |t| ensures t[i].key in s && t[i].count == multiset(s)[t[i].key] && t[i].count > 0 {
      assert t[i] in multiset(tally);
      var k :| 0 <= k < |tally| && tally[k] == t[i];
      assert tally[k].key in Dedupe(s);
    }
    TallyDistinct(s);
    DistinctPermutation(tally, t);
    t
  }

  /** Every value of `s` has its entry in the sorted tally; `k` is its position. */
  lemma EntryOfValue<K(!new)>(s: seq<K>, x: K) returns (k: nat)
    requires x in s
    ensures k < |MostFrequent(s)| && MostFrequent(s)[k].key == x
  {
    var t := MostFrequent(s);
    var tally := TallyOf(s);
    TallyCountsAll(s);
    var j :| 0 <= j < |tally| && tally[j].key == x;
    assert tally[j] in multiset(t) by {
      assert multiset(t) == multiset(SortBy(tally, ByCountDesc()));
    }
    k :| 0 <= k < |t| && t[k] == tally[j];
  }

  /**
   * `sorted(counts.items(), key=lambda x: -x[1])` restricted to the values
   * occurring at least `least` times, cut after `n` entries: distinct values,
   * most occurrences first, each with its number of occurrences.
   */
  function TopCounts<K(==,!new)>(s: seq<K>, least: nat, n: nat): (top: seq<Entry<K>>)
    requires n > 0
    ensures |top| <= n
    ensures forall i :: 0 <= i < |top| ==> top[i].count >= least && top[i].count > 0 && top[i].count == multiset(s)[top[i].key]
    ensures forall i, j :: 0 <= i < j < |top| ==> top[i].count >= top[j].count && top[i].key != top[j].key
  {
    var byCount := MostFrequent(s);
    var keep := (e: Entry<K>) => e.count >= least;
    FilterKeepsOrder(byCount, keep, ByCountDesc());
    FilterKeepsOrder(byCount, keep, KeysDiffer());
    var many := Filter(byCount, keep);
    var top := FirstN(many, n);
    forall i | 0 <= i < |top| ensures top[i].count >= least && top[i].count > 0 && top[i].count == multiset(s)[top[i].key] {
      assert top[i] == many[i] && many[i] in byCount;
    }
    forall i, j | 0 <= i < j < |top| ensures top[i].count >= top[j].count && top[i].key != top[j].key {
      assert ByCountDesc<K>()(many[i], many[j]) && KeysDiffer<K>()(many[i], many[j]);
    }
    top
  }

  /**
   * A value occurring at least `least` times is missing from `TopCounts` only
   * when `n` others are listed, none occurring less often than it.
   */
  lemma TopCountsComplete<K(!new)>(s: seq<K>, least: nat, n: nat, x: K) returns (i: int)
    requires n > 0 && x in s && multiset(s)[x] >= least
    ensures var top := TopCounts(s, least, n);
      || (0 <= i < |top| && top[i].key == x)
      || (i == -1 && |top| == n && top[n - 1].count >= multiset(s)[x])
  {
    var byCount := MostFrequent(s);
    var keep := (e: Entry<K>) => e.count >= least;
    FilterKeepsOrder(byCount, keep, ByCountDesc());
    var many := Filter(byCount, keep);
    var top := FirstN(many, n);
    assert top == TopCounts(s, least, n);
    var k := EntryOfValue(s, x);
    assert byCount[k] in many;
    var p :| 0 <= p < |many| && many[p] == byCount[k];
    if p < n {
      i := p;
      assert top[p].key == x;
    } else {
      i := -1;
      assert ByCountDesc<K>()(many[n - 1], many[p]);
    }
  }

  datatype RepeatCaller = RepeatCaller(mc: Json, name: Json, count: nat, lanes: seq<Lane>)
  datatype LaneCount = LaneCount(lane: Lane, count: nat)
  datatype Insights = Insights(repeatCallers: seq<RepeatCaller>, frequentLanes: seq<LaneCount>)

  function RepeatCallerOf(rs: seq<CallRecord>, e: Entry<Json>): (c: RepeatCaller)
    ensures c.mc == e.key && c.count == e.count && |c.lanes| <= 3
    ensures forall i, j :: 0 <= i < j < |c.lanes| ==> c.lanes[i] != c.lanes[j]
  {
    RepeatCaller(e.key, NameOfMc(rs, e.key), e.count, FirstN(Dedupe(LanesOfMc(rs, e.key)), 3))
  }

  function RepeatCallersOf(rs: seq<CallRecord>, top: seq<Entry<Json>>): (cs: seq<RepeatCaller>)
    ensures |cs| == |top| && forall i :: 0 <= i < |top| ==> cs[i] == RepeatCallerOf(rs, top[i])
  {
    seq(|top|, i requires 0 <= i < |top| => RepeatCallerOf(rs, top[i]))
  }

  /**
   * `repeat_callers`: at most 8 MC numbers seen on more than one record, most
   * calls first, each once, with its call count, the name on its last record
   * and up to 3 distinct lanes (`RepeatCallersComplete` says which are left
   * out).
   */
  function RepeatCallers(rs: seq<CallRecord>): (cs: seq<RepeatCaller>)
    ensures |cs| <= 8
    ensures forall i :: 0 <= i < |cs| ==> cs[i].count > 1 && cs[i].count == multiset(Mcs(rs))[cs[i].mc] && |cs[i].lanes| <= 3
    ensures forall i :: 0 <= i < |cs| ==>
              cs[i].name == NameOfMc(rs, cs[i].mc) && cs[i].lanes == FirstN(Dedupe(LanesOfMc(rs, cs[i].mc)), 3)
    ensures forall i, j :: 0 <= i < j < |cs| ==> cs[i].count >= cs[j].count && cs[i].mc != cs[j].mc
  {
    RepeatCallersOf(rs, TopCounts(Mcs(rs), 2, 8))
  }

  /**
   * An MC number seen on more than one record is missing from the repeat
   * callers only when 8 others are listed, none called less often than it.
   */
  lemma RepeatCallersComplete(rs: seq<CallRecord>, m: Json)
    requires m in Mcs(rs) && multiset(Mcs(rs))[m] > 1
    ensures var cs := RepeatCallers(rs);
      (exists i :: 0 <= i < |cs| && cs[i].mc == m) || (|cs| == 8 && cs[7].count >= multiset(Mcs(rs))[m])
  {
    var cs := RepeatCallers(rs);
    var i := TopCountsComplete(Mcs(rs), 2, 8, m);
    if i >= 0 {
      assert cs[i].mc == m;
    }
  }

  function LaneCountsOf(top: seq<Entry<Lane>>): (ls: seq<LaneCount>)
    ensures |ls| == |top| && forall i :: 0 <= i < |top| ==> ls[i] == LaneCount(top[i].key, top[i].count)
  {
    seq(|top|, i requires 0 <= i < |top| => LaneCount(top[i].key, top[i].count))
  }

  /**
   * `frequent_lanes`: at most 8 lanes, most calls first, each once with its
   * call count (`FrequentLanesComplete` says which are left out).
   */
  function FrequentLanes(rs: seq<CallRecord>): (ls: seq<LaneCount>)
    ensures |ls| <= 8
    ensures forall i :: 0 <= i < |ls| ==> ls[i].count > 0 && ls[i].count == multiset(Lanes(rs))[ls[i].lane]
    ensures forall i, j :: 0 <= i < j < |ls| ==> ls[i].count >= ls[j].count && ls[i].lane != ls[j].lane
  {
    LaneCountsOf(TopCounts(Lanes(rs), 0, 8))
  }

  /** A lane some record has is missing from the list only when 8 others are listed, none called less often. */
  lemma FrequentLanesComplete(rs: seq<CallRecord>, l: Lane)
    requires l in Lanes(rs)
    ensures var ls := FrequentLanes(rs);
      (exists i :: 0 <= i < |ls| && ls[i].lane == l) || (|ls| == 8 && ls[7].count >= multiset(Lanes(rs))[l])
  {
    var ls := FrequentLanes(rs);
    var i := TopCountsComplete(Lanes(rs), 0, 8, l);
    if i >= 0 {
      assert ls[i].lane == l;
    }
  }

  /** A value Python can use as a dict key: anything but a list or a dict. */
  predicate Hashable(v: Json) {
    !v.JArr? && !v.JObj?
  }

  /**
   * `/api/carriers/insights`, or `None` where it raises: a record whose MC
   * number is a list or a dict cannot key the per-MC counts.
   */
  function CarrierInsights(rs: seq<CallRecord>): (ins: Option<Insights>)
    ensures ins.None? <==> exists i :: 0 <= i < |rs| && !Hashable(McOf(rs[i]))
    ensures ins.Some? ==> ins.value.repeatCallers == RepeatCallers(rs) && ins.value.frequentLanes == FrequentLanes(rs)
  {
    if forall i :: 0 <= i < |rs| ==> Hashable(McOf(rs[i])) then Some(Insights(RepeatCallers(rs), FrequentLanes(rs)))
    else None
  }
}

=== FILE: numbers.dfy ===
/**
 * Decimal text and numbers: Python's `str(int)`, `int(text)`, `float(text)` and
 * `int(float)`, restricted to plain decimal notation (see README, Left out).
 */
module Numbers {
  import opened Wrappers
  import opened Text

  predicate IsDigit(c: char) {
    '0' <= c <= '9'
  }

  function DigitValue(c: char): nat
    requires IsDigit(c)
  {
    c as int - '0' as int
  }

  function DigitChar(d: nat): (c: char)
    requires d < 10
    ensures IsDigit(c) && DigitValue(c) == d
  {
    ('0' as int + d) as char
  }

  predicate AllDigits(s: string) {
    forall i :: 0 <= i < |s| ==> IsDigit(s[i])
  }

  /** The value of a run of decimal digits, most significant first. */
  function DigitsValue(s: string): nat
    requires AllDigits(s)
    decreases |s|
  {
    if |s| == 0 then 0 else DigitsValue(s[..|s| - 1]) * 10 + DigitValue(s[|s| - 1])
  }

  function Pow10(n: nat): (r: nat)
    ensures r >= 1
  {
    if n == 0 then 1 else 10 * Pow10(n - 1)
  }

  /** Python's `str(n)` for a non-negative int: its decimal digits, no leading zeros. */
  function NatToString(n: nat): (r: string)
    ensures |r| > 0 && AllDigits(r)
    ensures DigitsValue(r) == n
    ensures |r| > 1 ==> r[0] != '0'
  {
    if n < 10 then [DigitChar(n)]
    else
      var p := NatToString(n / 10);
      var r := p + [DigitChar(n % 10)];
      assert r[..|r| - 1] == p;
      r
  }

  /** Python's `str(i)` for an int. */
  function IntToString(i: int): (r: string)
    ensures |r| > 0
    ensures i >= 0 ==> AllDigits(r) && DigitsValue(r) == i
    ensures i < 0 ==> r[0] == '-' && AllDigits(r[1..]) && DigitsValue(r[1..]) == -i
  {
    if i < 0 then "-" + NatToString(-i) else NatToString(i)
  }

  /** Python's `int(text)`: surrounding whitespace, an optional sign, then at least one digit. */
  function ParseInt(text: string): (r: Option<int>)
    ensures r.Some? ==> |Strip(text)| > 0
  {
    var t := Strip(text);
    if |t| > 0 && (t[0] == '-' || t[0] == '+') then
      var m := t[1..];
      if |m| > 0 && AllDigits(m) then
        Some(if t[0] == '-' then -(DigitsValue(m) as int) else DigitsValue(m))
      else None
    else if |t| > 0 && AllDigits(t) then Some(DigitsValue(t))
    else None
  }

  /** Position of the first `c` in `s`, if any. */
  function IndexOf(s: string, c: char): (r: Option<nat>)
    ensures r.Some? ==> r.value < |s| && s[r.value] == c && c !in s[..r.value]
    ensures r.None? ==> c !in s
  {
    if |s| == 0 then None
    else if s[0] == c then Some(0)
    else
      match IndexOf(s[1..], c)
      case None => None
      case Some(k) =>
        assert s[..k + 1] == [s[0]] + s[1..][..k];
        Some(k + 1)
  }

  /** The value of an unsigned decimal `a` or `a.b`, with at least one digit in all. */
  function ParseUnsignedDecimal(m: string): (r: Option<real>)
    ensures r.Some? ==> r.value >= 0.0
  {
    match IndexOf(m, '.')
    case None =>
      if |m| > 0 && AllDigits(m) then Some(DigitsValue(m) as real) else None
    case Some(k) =>
      var a := m[..k];
      var b := m[k + 1..];
      if AllDigits(a) && AllDigits(b) && |a| + |b| > 0 then
        Some(DigitsValue(a) as real + DigitsValue(b) as real / Pow10(|b|) as real)
      else None
  }

  /** Python's `float(text)` on plain decimal notation: whitespace, an optional sign, `a`, `a.`, `.b` or `a.b`. */
  function ParseFloat(text: string): (r: Option<real>)
    ensures r.Some? ==> |Strip(text)| > 0
  {
    var t := Strip(text);
    if |t| > 0 && (t[0] == '-' || t[0] == '+') then
      match ParseUnsignedDecimal(t[1..])
      case None => None
      case Some(v) => Some(if t[0] == '-' then -v else v)
    else if |t| > 0 then ParseUnsignedDecimal(t)
    else None
  }

  /** Python's `int(x)` on a float: truncation toward zero. */
  function Trunc(x: real): (r: int)
    ensures x >= 0.0 ==> r >= 0 && r as real <= x < r as real + 1.0
    ensures x < 0.0 ==> r <= 0 && r as real - 1.0 < x <= r as real
  {
    if x >= 0.0 then x.Floor else -((-x).Floor)
  }

  /** Decimal text produced by `str(int)` has nothing for `strip()` to remove. */
  lemma IntStringIsStripped(i: int)
    ensures Strip(IntToString(i)) == IntToString(i)
  {
    var s := IntToString(i);
    assert IsDigit(s[|s| - 1]) by {
      if i < 0 {
        assert s[|s| - 1] == s[1..][|s| - 2];
      }
    }
    assert s[0] == '-' || IsDigit(s[0]);
    assert TrimmedBy(s, IsSpace);
  }

  /** Digits read back give the same value: `int(str(i)) == i`. */
  lemma IntRoundTrip(i: int)
    ensures ParseInt(IntToString(i)) == Some(i)
  {
    var s := IntToString(i);
    IntStringIsStripped(i);
    if i < 0 {
      assert s[0] == '-' && AllDigits(s[1..]) && |s[1..]| > 0;
      assert DigitsValue(s[1..]) == -i;
    } else {
      assert IsDigit(s[0]);
      assert s[0] != '-' && s[0] != '+';
    }
  }

  /** `float(str(i)) == i` for every int `i`. */
  lemma FloatOfIntString(i: int)
    ensures ParseFloat(IntToString(i)) == Some(i as real)
  {
    IntRoundTrip(i);
    IntTextIsFloatText(IntToString(i));
  }

  /** A fractional example: `float("12.5")` is 12.5, while `int("12.5")` is refused. */
  lemma DecimalExample()
    ensures ParseFloat("12.5") == Some(12.5)
    ensures ParseInt("12.5") == None
  {
    DecimalExampleStripped();
    DecimalExampleValue();
    UnsignedParse("12.5");
  }

  lemma DecimalExampleStripped()
    ensures Strip("12.5") == "12.5"
    ensures "12.5"[0] == '1' && "12.5"[2] == '.'
  {
    assert TrimmedBy("12.5", IsSpace);
  }

  /** Unsigned text that `strip()` leaves alone is read by `float()` as an unsigned decimal, and `int()` refuses it if it has a point. */
  lemma UnsignedParse(t: string)
    requires Strip(t) == t && |t| > 2 && IsDigit(t[0]) && t[2] == '.'
    ensures ParseFloat(t) == ParseUnsignedDecimal(t)
    ensures ParseInt(t) == None
  {
    assert !IsDigit(t[2]);
  }

  lemma DecimalExampleValue()
    ensures ParseUnsignedDecimal("12.5") == Some(12.5)
  {
    var m := "12.5";
    assert IndexOf(m, '.') == Some(2) by {
      assert m[1..][1..] == ".5";
    }
    assert m[..2] == "12" && m[3..] == "5";
    assert DigitsValue("12") == 12 by {
      assert "12"[..1] == "1";
    }
    assert DigitsValue("5") == 5;
  }

  /** A run of digits reads as the same value whether taken as an integer or a decimal. */
  lemma DigitsAreDecimal(m: string)
    requires |m| > 0 && AllDigits(m)
    ensures ParseUnsignedDecimal(m) == Some(DigitsValue(m) as real)
  {
    assert '.' !in m;
    assert IndexOf(m, '.') == None;
  }

  /** Text that `int()` accepts is accepted by `float()` with the same value. */
  lemma IntTextIsFloatText(text: string)
    requires ParseInt(text).Some?
    ensures ParseFloat(text) == Some(ParseInt(text).value as real)
  {
    var t := Strip(text);
    if t[0] == '-' || t[0] == '+' {
      DigitsAreDecimal(t[1..]);
    } else {
      DigitsAreDecimal(t);
    }
  }
}

=== FILE: sentiment.dfy ===
/**
 * `_normalize_sentiment`: whatever label the voice workflow reports is mapped
 * onto one of four buckets. Exact phrases are tried first, then substrings,
 * and anything unrecognised is neutral.
 */
module Sentiments {
  import opened Wrappers
  import opened JsonValues
  import opened Text

  datatype Sentiment = Positive | Neutral | Negative | Frustrated {
    /** The label stored in call records and counted by the metrics. */
    function Name(): string {
      match this
      case Positive => "positive"
      case Neutral => "neutral"
      case Negative => "negative"
      case Frustrated => "frustrated"
    }
  }

  const PositivePhrases: seq<string> :=
    ["positive", "professional & satisfied", "friendly & cooperative", "really positive", "very positive"]
  const NeutralPhrases: seq<string> := ["neutral"]
  const NegativePhrases: seq<string> := ["negative", "unprofessional", "really negative", "very negative"]
  const FrustratedPhrases: seq<string> := ["frustrated", "impatient", "dismissive", "angry"]

  /** The substring rule for frustration: `frustrat`, `angry` or `impatient`. */
  predicate SoundsFrustrated(t: string) {
    Contains(t, "frustrat") || Contains(t, "angry") || Contains(t, "impatient")
  }

  /** The classification of an already stripped and lower-cased label. */
  function Bucket(t: string): Sentiment {
    if t in PositivePhrases then Positive
    else if t in NeutralPhrases then Neutral
    else if t in NegativePhrases then Negative
    else if t in FrustratedPhrases then Frustrated
    else if Contains(t, "positive") then Positive
    else if Contains(t, "negative") then Negative
    else if SoundsFrustrated(t) then Frustrated
    else Neutral
  }

  /** `s.strip().lower()`. */
  function Normalize(s: string): (t: string)
    ensures |t| <= |s|
  {
    Lower(Strip(s))
  }

  /** The bucket of a non-empty label string. */
  function Classify(s: string): Sentiment {
    Bucket(Normalize(s))
  }

  /**
   * `_normalize_sentiment(raw)`. A falsy value is neutral; a string is
   * classified; any other truthy value makes `.strip()` raise, which is `None`
   * here.
   */
  function NormalizeSentiment(raw: Json): (r: Option<Sentiment>)
    ensures r.None? <==> Truthy(raw) && !raw.JStr?
    ensures !Truthy(raw) ==> r == Some(Neutral)
    ensures raw.JStr? ==> r == Some(Classify(raw.s))
  {
    match raw
    case JStr(s) => if s == "" then Some(Neutral) else Some(Classify(s))
    case _ => if Truthy(raw) then None else Some(Neutral)
  }

  /** Every label the function produces normalises back to itself, so applying it twice is applying it once. */
  lemma NormalizeSentimentIdempotent(raw: Json)
    requires NormalizeSentiment(raw).Some?
    ensures NormalizeSentiment(JStr(NormalizeSentiment(raw).value.Name())) == NormalizeSentiment(raw)
  {
    var x := NormalizeSentiment(raw).value;
    NameIsFixedPoint(x);
  }

  lemma NameIsFixedPoint(x: Sentiment)
    ensures Classify(x.Name()) == x
  {
    NameIsNormal(x);
    match x
    case Positive =>
    case Neutral => NeutralBucket();
    case Negative => NegativeBucket();
    case Frustrated => FrustratedBucket();
  }

  /** The four labels are already stripped and lower-case. */
  lemma NameIsNormal(x: Sentiment)
    ensures Normalize(x.Name()) == x.Name()
  {
    match x
    case Positive => PlainIsNormal("positive");
    case Neutral => PlainIsNormal("neutral");
    case Negative => PlainIsNormal("negative");
    case Frustrated => PlainIsNormal("frustrated");
  }

  /** A word of lower-case letters is its own normal form. */
  lemma PlainIsNormal(n: string)
    requires forall i :: 0 <= i < |n| ==> 'a' <= n[i] <= 'z'
    ensures Normalize(n) == n
  {
    assert TrimmedBy(n, IsSpace);
    LowerOfLowercase(n);
  }

  lemma NeutralBucket()
    ensures Bucket("neutral") == Neutral
  {
    var n := "neutral";
    assert n !in PositivePhrases by { assert |n| == 7; }
  }

  lemma NegativeBucket()
    ensures Bucket("negative") == Negative
  {
    var n := "negative";
    assert n !in PositivePhrases by { assert n[0] == 'n'; }
    assert n !in NeutralPhrases;
  }

  lemma FrustratedBucket()
    ensures Bucket("frustrated") == Frustrated
  {
    var n := "frustrated";
    assert n !in PositivePhrases by { assert n[0] == 'f' && n[1] == 'r' && n[2] == 'u'; }
    assert n !in NeutralPhrases && n !in NegativePhrases by { assert |n| == 10; }
  }

  /** `lower()` leaves a string without capitals unchanged. */
  lemma LowerOfLowercase(s: string)
    requires forall i :: 0 <= i < |s| ==> !('A' <= s[i] <= 'Z')
    ensures Lower(s) == s
  {
  }

  /** Matching ignores ASCII case and surrounding whitespace. */
  lemma ClassifyIgnoresCaseAndSpace(s: string)
    ensures Classify(Upper(s)) == Classify(s)
    ensures Classify(Lower(s)) == Classify(s)
    ensures Classify(Strip(s)) == Classify(s)
  {
    StripCommutesWithUpper(s);
    LowerOfUpper(Strip(s));
    StripCommutesWithLower(s);
    LowerOfUpper(Strip(s));
    StripIdempotent(s);
  }

  /** No exact phrase of another bucket mentions `positive`. */
  lemma OtherPhrasesLackPositive(t: string)
    requires t in NeutralPhrases || t in NegativePhrases || t in FrustratedPhrases
    ensures !Contains(t, "positive")
  {
    if t == "unprofessional" {
      ContainsNeedsChar(t, "positive", 4);
    } else if t == "impatient" {
      ContainsNeedsChar(t, "positive", 1);
    } else {
      ContainsNeedsChar(t, "positive", 0);
    }
  }

  /** No exact phrase of the positive, neutral or frustrated buckets mentions `negative`. */
  lemma OtherPhrasesLackNegative(t: string)
    requires t in PositivePhrases || t in NeutralPhrases || t in FrustratedPhrases
    ensures !Contains(t, "negative")
  {
    if t == "angry" {
      ContainsNeedsChar(t, "negative", 1);
    } else {
      ContainsNeedsChar(t, "negative", 2);
    }
  }

  /** The positive and negative phrase lists share no phrase. */
  lemma PositiveNotNegativePhrase(t: string)
    requires t in PositivePhrases
    ensures t !in NegativePhrases
  {
    if t == "really positive" {
      assert t[7] != "really negative"[7];
    } else if t == "very positive" {
      assert t[5] != "very negative"[5];
    } else {
      assert t[0] in "ppf";
    }
  }

  /**
   * A label is positive exactly when it is a positive phrase or mentions
   * `positive`; in particular a label mentioning both `positive` and
   * `negative` is positive.
   */
  lemma PositiveIff(t: string)
    ensures Bucket(t) == Positive <==> t in PositivePhrases || Contains(t, "positive")
  {
    if t in NeutralPhrases || t in NegativePhrases || t in FrustratedPhrases {
      OtherPhrasesLackPositive(t);
    }
  }

  /** A label is negative exactly when it is a negative phrase or mentions `negative` but not `positive`. */
  lemma NegativeIff(t: string)
    ensures Bucket(t) == Negative <==>
      t in NegativePhrases || (Contains(t, "negative") && !Contains(t, "positive"))
  {
    if t in PositivePhrases {
      OtherPhrasesLackNegative(t);
      PositiveNotNegativePhrase(t);
    } else if t in NeutralPhrases {
      OtherPhrasesLackNegative(t);
    } else if t in NegativePhrases {
      OtherPhrasesLackPositive(t);
    } else if t in FrustratedPhrases {
      OtherPhrasesLackNegative(t);
    }
  }
}

=== FILE: sorting.dfy ===
/**
 * Python's `sorted` as the metrics endpoints use it: a stable sort by a key,
 * ascending or (with `reverse=True`) descending, and Python's lexicographic
 * order on strings.
 */
module Sorting {

  /** Python's `a <= b` on strings: code-point lexicographic order. */
  predicate LexLe(a: string, b: string)
    decreases |a|
  {
    |a| == 0 || (|b| > 0 && (a[0] < b[0] || (a[0] == b[0] && LexLe(a[1..], b[1..]))))
  }

  /** Any two strings are comparable. */
  lemma {:induction false} LexLeTotal(a: string, b: string)
    ensures LexLe(a, b) || LexLe(b, a)
    decreases |a|
  {
    if |a| > 0 && |b| > 0 && a[0] == b[0] {
      LexLeTotal(a[1..], b[1..]);
    }
  }

  /** The order is transitive. */
  lemma {:induction false} LexLeTrans(a: string, b: string, c: string)
    requires LexLe(a, b) && LexLe(b, c)
    ensures LexLe(a, c)
    decreases |a|
  {
    if |a| > 0 && a[0] == b[0] && b[0] == c[0] {
      LexLeTrans(a[1..], b[1..], c[1..]);
    }
  }

  /** A string precedes every extension of itself. */
  lemma {:induction false} PrefixLexLe(a: string, b: string)
    requires a <= b
    ensures LexLe(a, b)
    decreases |a|
  {
    if |a| > 0 {
      assert a[1..] <= b[1..];
      PrefixLexLe(a[1..], b[1..]);
    }
  }

  /** `le` relates every pair one way or the other. */
  ghost predicate Total<T(!new)>(le: (T, T) -> bool) {
    forall a: T, b: T :: le(a, b) || le(b, a)
  }

  /** Every element is `le` its successor. */
  predicate SortedBy<T>(s: seq<T>, le: (T, T) -> bool) {
    forall i :: 0 < i < |s| ==> le(s[i - 1], s[i])
  }

  /**
   * Inserts `x` before the first element it is `le` to; an earlier `x` thus
   * goes before the elements it ties with, which makes `SortBy` stable.
   */
  function InsertBy<T(!new)>(x: T, s: seq<T>, le: (T, T) -> bool): (r: seq<T>)
    requires Total(le)
    ensures |r| == |s| + 1
    ensures multiset(r) == multiset(s) + multiset{x}
    ensures r[0] == x || (|s| > 0 && r[0] == s[0])
    ensures SortedBy(s, le) ==> SortedBy(r, le)
  {
    if |s| == 0 then [x]
    else if le(x, s[0]) then [x] + s
    else
      var rest := InsertBy(x, s[1..], le);
      assert s == [s[0]] + s[1..];
      assert le(s[0], x);
      [s[0]] + rest
  }

  /** `sorted(s, key=...)`: a permutation of `s` ordered by `le`. */
  function SortBy<T(!new)>(s: seq<T>, le: (T, T) -> bool): (r: seq<T>)
    requires Total(le)
    ensures |r| == |s|
    ensures multiset(r) == multiset(s)
    ensures SortedBy(r, le)
  {
    if |s| == 0 then []
    else
      assert s == [s[0]] + s[1..];
      InsertBy(s[0], SortBy(s[1..], le), le)
  }

  /** With a transitive order, neighbour-wise sorted means every earlier element is `le` every later one. */
  lemma {:induction false} SortedPairwise<T(!new)>(s: seq<T>, le: (T, T) -> bool, i: int, j: int)
    requires SortedBy(s, le)
    requires forall a: T, b: T, c: T :: le(a, b) && le(b, c) ==> le(a, c)
    requires forall a: T :: le(a, a)
    requires 0 <= i <= j < |s|
    ensures le(s[i], s[j])
    decreases j - i
  {
    if i < j {
      SortedPairwise(s, le, i, j - 1);
    }
  }
}

=== FILE: storage.dfy ===
/**
 * The SQLite store behind the service, as immutable values: an append-only
 * event log with an AUTOINCREMENT id, and two keyed tables (carrier profiles by
 * MC number, call search preferences by call id) with "overwrite only the
 * fields that were provided" upserts.
 */
module Storage {
  import opened Wrappers
  import opened JsonValues
  import opened Text

  /**
   * One row of the `events` table. The payload is stored as `json.dumps(payload)`
   * and read back with `json.loads`; that round trip is taken as the identity,
   * so the model keeps the decoded value.
   */
  datatype Event = Event(id: nat, callId: string, eventType: string, payload: Json, timestamp: string)

  /** A table row: column name to value; a missing column reads as `None`. */
  type Row = map<string, Json>

  /**
   * The whole database. `nextId` is the next AUTOINCREMENT value: SQLite never
   * reuses an id, so every logged id stays below it.
   */
  datatype Store = Store(events: seq<Event>, nextId: nat, profiles: map<string, Row>, prefs: map<string, Row>)

  const UpdatedAt: string := "updated_at"
  const McColumn: string := "mc_number"
  const CallIdColumn: string := "call_id"

  /** The freshly created database: no events, no rows, ids start at 1. */
  const EmptyStore: Store := Store([], 1, map[], map[])

  predicate IdsIncreasing(es: seq<Event>) {
    forall i, j :: 0 <= i < j < |es| ==> es[i].id < es[j].id
  }

  /** Every row of `table` is filed under the value of its own key column. */
  predicate KeyedBy(table: map<string, Row>, keyCol: string) {
    forall k :: k in table ==> keyCol in table[k] && table[k][keyCol] == JStr(k)
  }

  /** The invariant every store reachable from `EmptyStore` keeps. */
  predicate Valid(s: Store) {
    && IdsIncreasing(s.events)
    && (forall i :: 0 <= i < |s.events| ==> s.events[i].id < s.nextId)
    && KeyedBy(s.profiles, McColumn)
    && KeyedBy(s.prefs, CallIdColumn)
  }

  lemma EmptyStoreValid()
    ensures Valid(EmptyStore)
    ensures EmptyStore.events == []
  {
  }

  // ---- the event log ----

  /**
   * `log_event`: appends exactly one event, whose id exceeds every id already in
   * the log, and changes nothing else.
   */
  function LogEvent(s: Store, callId: string, eventType: string, payload: Json, now: string): (r: Store)
    requires Valid(s)
    ensures Valid(r)
    ensures |r.events| == |s.events| + 1 && r.events[..|s.events|] == s.events
    ensures var e := r.events[|s.events|];
      e.callId == callId && e.eventType == eventType && e.payload == payload && e.timestamp == now
    ensures forall i :: 0 <= i < |s.events| ==> s.events[i].id < r.events[|s.events|].id
    ensures r.profiles == s.profiles && r.prefs == s.prefs
  {
    var e := Event(s.nextId, callId, eventType, payload, now);
    s.(events := s.events + [e], nextId := s.nextId + 1)
  }

  /** In a log with increasing ids, every event before the last has a smaller id than the last. */
  lemma IncreasingBelowLast(es: seq<Event>)
    requires |es| > 0
    ensures IdsIncreasing(es) ==> forall e :: e in es[..|es| - 1] ==> e.id < es[|es| - 1].id
  {
    if IdsIncreasing(es) {
      forall e | e in es[..|es| - 1] ensures e.id < es[|es| - 1].id {
        var k :| 0 <= k < |es| - 1 && es[..|es| - 1][k] == e;
      }
    }
  }

  /** A non-empty log is its events before the last, then the last. */
  lemma LastSplit(es: seq<Event>)
    requires |es| > 0
    ensures forall e :: e in es <==> e in es[..|es| - 1] || e == es[|es| - 1]
  {
    assert es == es[..|es| - 1] + [es[|es| - 1]];
  }

  /** `get_events_by_call_id`: the events of one call, in ascending id order. */
  function EventsByCallId(es: seq<Event>, callId: string): (r: seq<Event>)
    ensures |r| <= |es|
    ensures forall e :: e in r <==> e in es && e.callId == callId
    ensures IdsIncreasing(es) ==> IdsIncreasing(r)
  {
    if |es| == 0 then []
    else
      var rest := EventsByCallId(es[..|es| - 1], callId);
      var last := es[|es| - 1];
      LastSplit(es);
      IncreasingBelowLast(es);
      if last.callId == callId then rest + [last] else rest
  }

  /** Logging an event for one call leaves every other call's history as it was. */
  lemma {:induction false} LogEventOtherCalls(s: Store, callId: string, eventType: string, payload: Json, now: string, other: string)
    requires Valid(s) && other != callId
    ensures EventsByCallId(LogEvent(s, callId, eventType, payload, now).events, other) == EventsByCallId(s.events, other)
  {
    var es := LogEvent(s, callId, eventType, payload, now).events;
    assert es[..|es| - 1] == s.events;
  }

  /** Logging an event for a call adds exactly that event at the end of the call's history. */
  lemma {:induction false} LogEventOwnCall(s: Store, callId: string, eventType: string, payload: Json, now: string)
    requires Valid(s)
    ensures var r := LogEvent(s, callId, eventType, payload, now);
      EventsByCallId(r.events, callId) == EventsByCallId(s.events, callId) + [r.events[|s.events|]]
  {
    var es := LogEvent(s, callId, eventType, payload, now).events;
    assert es[..|es| - 1] == s.events;
  }

  /** SQLite's `TRIM(x)` with no second argument removes spaces only. */
  function SqlTrim(s: string): (r: string)
    ensures |r| <= |s|
    ensures r == "" <==> forall i :: 0 <= i < |s| ==> s[i] == ' '
  {
    TrimBy(s, c => c == ' ')
  }

  /** The filter of `get_distinct_call_ids`: not blank after `TRIM`, and not the literal `unknown`. */
  predicate Listed(callId: string) {
    SqlTrim(callId) != "" && callId != "unknown"
  }

  /** The call id column of the log, in log order. */
  function CallIds(es: seq<Event>): (r: seq<string>)
    ensures |r| == |es|
    ensures forall i :: 0 <= i < |es| ==> r[i] == es[i].callId
  {
    if |es| == 0 then [] else [es[0].callId] + CallIds(es[1..])
  }

  /** Some event of the log belongs to `callId`. */
  predicate Occurs(es: seq<Event>, callId: string) {
    callId in CallIds(es)
  }

  /**
   * The id of the last event of `callId` in log order, or -1 when it has none.
   * In a log with increasing ids this is `MAX(id)` over the call's events
   * (`LatestIdIsMax`).
   */
  function LatestId(es: seq<Event>, callId: string): (r: int)
    ensures r >= -1
    ensures r == -1 <==> !Occurs(es, callId)
    ensures r >= 0 ==> exists e :: e in es && e.callId == callId && e.id == r
  {
    if |es| == 0 then -1
    else
      var m := LatestId(es[1..], callId);
      if m >= 0 then m
      else if es[0].callId == callId then es[0].id
      else -1
  }

  /** `LatestId` is the largest id among the call's events. */
  lemma {:induction false} LatestIdIsMax(es: seq<Event>, callId: string)
    requires IdsIncreasing(es)
    ensures forall i :: 0 <= i < |es| && es[i].callId == callId ==> es[i].id <= LatestId(es, callId)
  {
    if |es| > 0 {
      LatestIdIsMax(es[1..], callId);
      forall i | 0 <= i < |es| && es[i].callId == callId
        ensures es[i].id <= LatestId(es, callId)
      {
        if i > 0 {
          assert es[1..][i - 1] == es[i];
        } else if Occurs(es[1..], callId) {
          LatestIdOfTail(es, callId);
        }
      }
    }
  }

  /** A call occurs in a non-empty log when it owns the first event or occurs after it. */
  lemma OccursFirstOrRest(es: seq<Event>)
    requires |es| > 0
    ensures forall c :: Occurs(es, c) <==> c == es[0].callId || Occurs(es[1..], c)
  {
    assert CallIds(es) == [es[0].callId] + CallIds(es[1..]);
  }

  /** One step of `DistinctCallIds`: adding the first event's call, if new, keeps the list exact and duplicate-free. */
  lemma DistinctStep(es: seq<Event>, rest: seq<string>, r: seq<string>)
    requires |es| > 0
    requires forall i, j :: 0 <= i < j < |rest| ==> rest[i] != rest[j]
    requires forall c :: c in rest <==> Listed(c) && Occurs(es[1..], c)
    requires r == if Listed(es[0].callId) && es[0].callId !in rest then rest + [es[0].callId] else rest
    ensures forall i, j :: 0 <= i < j < |r| ==> r[i] != r[j]
    ensures forall c :: c in r <==> Listed(c) && Occurs(es, c)
  {
    OccursFirstOrRest(es);
    if Listed(es[0].callId) && es[0].callId !in rest {
      AppendNew(rest, es[0].callId);
    }
  }

  /** Appending a value not yet in a duplicate-free list keeps it duplicate-free and adds exactly that value. */
  lemma AppendNew(rest: seq<string>, c: string)
    requires forall i, j :: 0 <= i < j < |rest| ==> rest[i] != rest[j]
    requires c !in rest
    ensures forall i, j :: 0 <= i < j < |rest + [c]| ==> (rest + [c])[i] != (rest + [c])[j]
    ensures forall x :: x in rest + [c] <==> x in rest || x == c
  {
  }

  /**
   * `get_distinct_call_ids`: each listed call id once, most recently active
   * first. Built from the back of the log: a call whose id does not occur later
   * has its latest event here, which is older than all the later ones, so it
   * goes last.
   */
  function DistinctCallIds(es: seq<Event>): (r: seq<string>)
    ensures forall i, j :: 0 <= i < j < |r| ==> r[i] != r[j]
    ensures forall c :: c in r <==> Listed(c) && Occurs(es, c)
  {
    if |es| == 0 then []
    else
      var rest := DistinctCallIds(es[1..]);
      var c := es[0].callId;
      var r := if Listed(c) && c !in rest then rest + [c] else rest;
      DistinctStep(es, rest, r);
      r
  }

  /** Calls that occur after the first event of an increasing log keep their latest id, which is above the first id. */
  lemma LatestIdOfTail(es: seq<Event>, x: string)
    requires |es| > 0 && IdsIncreasing(es) && Occurs(es[1..], x)
    ensures LatestId(es, x) == LatestId(es[1..], x) > es[0].id
  {
    var e :| e in es[1..] && e.callId == x && e.id == LatestId(es[1..], x);
    var j :| 0 <= j < |es[1..]| && es[1..][j] == e;
    assert es[j + 1] == e;
    assert es[0].id < es[j + 1].id;
  }

  /** `r` lists calls by their latest event in `es`, most recent first. */
  predicate NewestFirst(es: seq<Event>, r: seq<string>) {
    forall i, j :: 0 <= i < j < |r| ==> LatestId(es, r[i]) > LatestId(es, r[j])
  }

  /** The most recently active calls come first in `DistinctCallIds`. */
  lemma {:induction false} DistinctCallIdsOrdered(es: seq<Event>)
    requires IdsIncreasing(es)
    ensures NewestFirst(es, DistinctCallIds(es))
  {
    if |es| > 0 {
      assert IdsIncreasing(es[1..]);
      DistinctCallIdsOrdered(es[1..]);
      NewestFirstStep(es, DistinctCallIds(es[1..]));
    }
  }

  /** The inductive step of `DistinctCallIdsOrdered`. */
  lemma NewestFirstStep(es: seq<Event>, rest: seq<string>)
    requires |es| > 0 && IdsIncreasing(es)
    requires forall x :: x in rest ==> Occurs(es[1..], x)
    requires NewestFirst(es[1..], rest)
    ensures NewestFirst(es, rest)
    ensures !Occurs(es[1..], es[0].callId) ==> NewestFirst(es, rest + [es[0].callId])
  {
    var c := es[0].callId;
    forall i, j | 0 <= i < j < |rest| ensures LatestId(es, rest[i]) > LatestId(es, rest[j]) {
      OrderedInTail(es, rest[i], rest[j]);
    }
    if !Occurs(es[1..], c) {
      var r := rest + [c];
      forall i, j | 0 <= i < j < |r| ensures LatestId(es, r[i]) > LatestId(es, r[j]) {
        if j < |rest| {
          OrderedInTail(es, rest[i], rest[j]);
        } else {
          OrderedBeforeFirst(es, rest[i]);
        }
      }
    }
  }

  /** Two calls of the tail keep their relative order. */
  lemma OrderedInTail(es: seq<Event>, x: string, y: string)
    requires |es| > 0 && IdsIncreasing(es) && Occurs(es[1..], x) && Occurs(es[1..], y)
    requires LatestId(es[1..], x) > LatestId(es[1..], y)
    ensures LatestId(es, x) > LatestId(es, y)
  {
    LatestIdOfTail(es, x);
    LatestIdOfTail(es, y);
  }

  /** A call of the tail is more recent than a call that only the first event has. */
  lemma OrderedBeforeFirst(es: seq<Event>, x: string)
    requires |es| > 0 && IdsIncreasing(es) && Occurs(es[1..], x) && !Occurs(es[1..], es[0].callId)
    ensures LatestId(es, x) > LatestId(es, es[0].callId)
  {
    LatestIdOfTail(es, x);
  }

  // ---- keyed tables ----

  /** The fields of `updates` whose value is not `None`. */
  function Provided(updates: Row): (p: Row)
    ensures forall c :: c in p <==> c in updates && updates[c] != JNull
    ensures forall c :: c in p ==> p[c] == updates[c]
  {
    map c | c in updates && updates[c] != JNull :: updates[c]
  }

  /**
   * What an upsert returns: the table afterwards, the row read back for the key,
   * and the caller's `updates` dict as the upsert leaves it (it adds
   * `updated_at`, and on insert also the key column).
   */
  datatype Upserted = Upserted(table: map<string, Row>, row: Row, updates: Row)

  /**
   * `upsert_carrier_profile` / `upsert_call_search_prefs`. On an existing key only
   * the provided (non-`None`) fields are overwritten (`UpsertExisting`); on a new
   * key a row with the column defaults, every supplied field (an explicit `None`
   * included) and the key column is inserted (`UpsertNew`). Either way exactly
   * one row is filed under the key, `updated_at` is refreshed, and no other row
   * changes.
   */
  function Upsert(table: map<string, Row>, defaults: Row, keyCol: string, key: string, updates: Row, now: string): (r: Upserted)
    requires keyCol != UpdatedAt && keyCol !in updates
    ensures key in r.table && r.row == r.table[key]
    ensures r.table.Keys == table.Keys + {key}
    ensures forall k :: k in table && k != key ==> r.table[k] == table[k]
    ensures UpdatedAt in r.row && r.row[UpdatedAt] == JStr(now)
    ensures UpdatedAt in r.updates && r.updates[UpdatedAt] == JStr(now)
  {
    var stamped := updates[UpdatedAt := JStr(now)];
    if key in table then
      var row := table[key] + Provided(updates)[UpdatedAt := JStr(now)];
      Upserted(table[key := row], row, stamped)
    else
      var inserted := stamped[keyCol := JStr(key)];
      var row := defaults + inserted;
      Upserted(table[key := row], row, inserted)
  }

  /**
   * Upsert on an existing key: provided fields are overwritten, fields that are
   * absent or `None` keep their old value, no column appears from nowhere, and
   * the caller's dict only gains `updated_at`.
   */
  lemma UpsertExisting(table: map<string, Row>, defaults: Row, keyCol: string, key: string, updates: Row, now: string)
    requires keyCol != UpdatedAt && keyCol !in updates && key in table
    ensures var r := Upsert(table, defaults, keyCol, key, updates, now);
      && (forall c :: c in updates && updates[c] != JNull && c != UpdatedAt ==> c in r.row && r.row[c] == updates[c])
      && (forall c :: c in table[key] && (c !in updates || updates[c] == JNull) && c != UpdatedAt ==> c in r.row && r.row[c] == table[key][c])
      && (forall c :: c in r.row ==> c in table[key] || c in updates || c == UpdatedAt)
      && r.updates.Keys == updates.Keys + {UpdatedAt}
  {
  }

  /**
   * Upsert on a new key: the row holds the key column, every supplied field as
   * given (`None` included), the column defaults for the rest, and nothing
   * else; the caller's dict gains `updated_at` and the key column.
   */
  lemma UpsertNew(table: map<string, Row>, defaults: Row, keyCol: string, key: string, updates: Row, now: string)
    requires keyCol != UpdatedAt && keyCol !in updates
    ensures var r := Upsert(table, defaults, keyCol, key, updates, now);
      key !in table ==>
      && keyCol in r.row && r.row[keyCol] == JStr(key)
      && (forall c :: c in updates && c != UpdatedAt ==> c in r.row && r.row[c] == updates[c])
      && (forall c :: c in defaults && c !in updates && c != UpdatedAt && c != keyCol ==> c in r.row && r.row[c] == defaults[c])
      && (forall c :: c in r.row ==> c in defaults || c in updates || c == keyCol || c == UpdatedAt)
      && r.updates.Keys == updates.Keys + {keyCol, UpdatedAt}
  {
  }

  /** Every row stays filed under the value of its key column. */
  lemma UpsertKeepsKeyed(table: map<string, Row>, defaults: Row, keyCol: string, key: string, updates: Row, now: string)
    requires keyCol != UpdatedAt && keyCol !in updates && KeyedBy(table, keyCol)
    ensures KeyedBy(Upsert(table, defaults, keyCol, key, updates, now).table, keyCol)
  {
  }

  /** `get_carrier_profile` / `get_call_search_prefs`: the row, or `None`. */
  function Lookup(table: map<string, Row>, key: string): (r: Option<Row>)
    ensures r.Some? <==> key in table
    ensures r.Some? ==> r.value == table[key]
  {
    if key in table then Some(table[key]) else None
  }

  /** A get right after an upsert returns the row the upsert returned. */
  lemma GetAfterUpsert(table: map<string, Row>, defaults: Row, keyCol: string, key: string, updates: Row, now: string)
    requires keyCol != UpdatedAt && keyCol !in updates
    ensures var u := Upsert(table, defaults, keyCol, key, updates, now);
      Lookup(u.table, key) == Some(u.row)
  {
  }

  /** One upsert call: the key, the supplied fields and the clock reading. */
  datatype UpsertCall = UpsertCall(key: string, updates: Row, now: string)

  /** A run of upserts, oldest first. */
  function ApplyUpserts(table: map<string, Row>, defaults: Row, keyCol: string, calls: seq<UpsertCall>): (r: map<string, Row>)
    requires keyCol != UpdatedAt
    requires forall i :: 0 <= i < |calls| ==> keyCol !in calls[i].updates
    ensures table.Keys <= r.Keys
    ensures |calls| > 0 ==> calls[|calls| - 1].key in r
  {
    if |calls| == 0 then table
    else
      var last := calls[|calls| - 1];
      var before := ApplyUpserts(table, defaults, keyCol, calls[..|calls| - 1]);
      Upsert(before, defaults, keyCol, last.key, last.updates, last.now).table
  }

  /** A key that no upsert named, and that was not there before, reads as `None`. */
  lemma {:induction false} NeverUpsertedIsAbsent(table: map<string, Row>, defaults: Row, keyCol: string, calls: seq<UpsertCall>, key: string)
    requires keyCol != UpdatedAt
    requires forall i :: 0 <= i < |calls| ==> keyCol !in calls[i].updates
    requires key !in table && forall i :: 0 <= i < |calls| ==> calls[i].key != key
    ensures Lookup(ApplyUpserts(table, defaults, keyCol, calls), key) == None
    decreases |calls|
  {
    if |calls| > 0 {
      NeverUpsertedIsAbsent(table, defaults, keyCol, calls[..|calls| - 1], key);
    }
  }

  /** Upserting the same fields twice gives the row of the first upsert, apart from `updated_at`. */
  lemma {:induction false} UpsertTwice(table: map<string, Row>, defaults: Row, keyCol: string, key: string, updates: Row, now1: string, now2: string)
    requires keyCol != UpdatedAt && keyCol !in updates
    ensures var u1 := Upsert(table, defaults, keyCol, key, updates, now1);
      var u2 := Upsert(u1.table, defaults, keyCol, key, updates, now2);
      u2.row == u1.row[UpdatedAt := JStr(now2)] && u2.table == u1.table[key := u2.row]
  {
    var u1 := Upsert(table, defaults, keyCol, key, updates, now1);
    var u2 := Upsert(u1.table, defaults, keyCol, key, updates, now2);
    var expected := u1.row[UpdatedAt := JStr(now2)];
    if key in table {
      UpsertExisting(table, defaults, keyCol, key, updates, now1);
    } else {
      UpsertNew(table, defaults, keyCol, key, updates, now1);
    }
    UpsertExisting(u1.table, defaults, keyCol, key, updates, now2);
    assert u2.row.Keys == expected.Keys;
    forall c | c in u2.row ensures u2.row[c] == expected[c] {
      if c != UpdatedAt && c in Provided(updates) {
        assert u1.row[c] == updates[c];
      }
    }
  }

  /**
   * Whether `sqlite3` accepts a value as a statement parameter: a list or dict
   * cannot be bound, and an integer must fit in 64 bits.
   */
  predicate Bindable(v: Json) {
    match v
    case JArr(_) => false
    case JObj(_) => false
    case JInt(i) => -0x8000_0000_0000_0000 <= i < 0x8000_0000_0000_0000
    case _ => true
  }

  /** Every value of an upsert's `updates` can be bound; otherwise the upsert raises before writing. */
  predicate RowBindable(u: Row) {
    forall k :: k in u ==> Bindable(u[k])
  }

  /** The column defaults of `carrier_profiles`: both search radii start at 50 miles. */
  const ProfileDefaults: Row := map["origin_radius_miles" := JInt(50), "dest_radius_miles" := JInt(50)]

  /** `upsert_carrier_profile` on the store; returns the store, the profile row and the mutated updates. */
  function UpsertCarrierProfile(s: Store, mc: string, updates: Row, now: string): (r: (Store, Row, Row))
    requires Valid(s) && McColumn !in updates
    ensures Valid(r.0)
    ensures r.0.events == s.events && r.0.prefs == s.prefs
    ensures Lookup(r.0.profiles, mc) == Some(r.1)
    ensures forall k :: k != mc ==> Lookup(r.0.profiles, k) == Lookup(s.profiles, k)
  {
    UpsertKeepsKeyed(s.profiles, ProfileDefaults, McColumn, mc, updates, now);
    var u := Upsert(s.profiles, ProfileDefaults, McColumn, mc, updates, now);
    (s.(profiles := u.table), u.row, u.updates)
  }

  /** A carrier profile created by an upsert gets the 50-mile search radii the update does not set. */
  lemma NewProfileDefaultRadius(s: Store, mc: string, updates: Row, now: string)
    requires Valid(s) && McColumn !in updates && mc !in s.profiles
    ensures var row := UpsertCarrierProfile(s, mc, updates, now).1;
      forall c :: c in ProfileDefaults && c !in updates ==> Get(row, c) == JInt(50)
  {
    UpsertNew(s.profiles, ProfileDefaults, McColumn, mc, updates, now);
  }

  /** `upsert_call_search_prefs` on the store; returns the store, the prefs row and the mutated updates. */
  function UpsertCallSearchPrefs(s: Store, callId: string, updates: Row, now: string): (r: (Store, Row, Row))
    requires Valid(s) && CallIdColumn !in updates
    ensures Valid(r.0)
    ensures r.0.events == s.events && r.0.profiles == s.profiles
    ensures Lookup(r.0.prefs, callId) == Some(r.1)
    ensures forall k :: k != callId ==> Lookup(r.0.prefs, k) == Lookup(s.prefs, k)
  {
    UpsertKeepsKeyed(s.prefs, map[], CallIdColumn, callId, updates, now);
    var u := Upsert(s.prefs, map[], CallIdColumn, callId, updates, now);
    (s.(prefs := u.table), u.row, u.updates)
  }
}

=== FILE: tally.dfy ===
/**
 * The dict idioms the insights endpoint relies on: `dict.fromkeys(xs)`
 * (distinct values in first-occurrence order) and `d[k] = d.get(k, 0) + 1`
 * (a count per key, keys in first-occurrence order). Occurrences are counted
 * with `multiset(s)[x]`.
 */
module Tally {

  /** `list(dict.fromkeys(s))`: the distinct elements of `s` in order of first occurrence. */
  function Dedupe<K(==,!new)>(s: seq<K>): (r: seq<K>)
    ensures forall x :: x in r <==> x in s
    ensures forall i, j :: 0 <= i < j < |r| ==> r[i] != r[j]
    ensures |r| <= |s|
  {
    if |s| == 0 then []
    else
      var rest := Dedupe(s[..|s| - 1]);
      var x := s[|s| - 1];
      assert s == s[..|s| - 1] + [x];
      if x in rest then rest else rest + [x]
  }

  /** One key of a tally and its count. */
  datatype Entry<K> = Entry(key: K, count: nat)

  /** The index of `x`'s entry, or -1. */
  function FindKey<K(==,!new)>(t: seq<Entry<K>>, x: K): (i: int)
    ensures -1 <= i < |t|
    ensures i >= 0 ==> t[i].key == x
    ensures i < 0 ==> forall j :: 0 <= j < |t| ==> t[j].key != x
  {
    if |t| == 0 then -1
    else if t[|t| - 1].key == x then |t| - 1
    else FindKey(t[..|t| - 1], x)
  }

  /**
   * The counting loop `counts[k] = counts.get(k, 0) + 1` over `s`: one entry per
   * distinct element, in order of first occurrence, holding its number of
   * occurrences.
   */
  function TallyOf<K(==,!new)>(s: seq<K>): (t: seq<Entry<K>>)
    ensures |t| == |Dedupe(s)|
    ensures forall i :: 0 <= i < |t| ==> t[i].key == Dedupe(s)[i] && t[i].count == multiset(s)[t[i].key]
  {
    if |s| == 0 then []
    else
      var p := s[..|s| - 1];
      var x := s[|s| - 1];
      assert s == p + [x];
      var t := TallyOf(p);
      var i := FindKey(t, x);
      if i >= 0 then
        var r := t[i := Entry(x, t[i].count + 1)];
        assert x in Dedupe(p) by { assert Dedupe(p)[i] == x; }
        r
      else
        assert x !in Dedupe(p) by {
          forall j | 0 <= j < |Dedupe(p)| ensures Dedupe(p)[j] != x {
            assert t[j].key == Dedupe(p)[j];
          }
        }
        t + [Entry(x, 1)]
  }

  /** Every element of the input has an entry in the tally, and every count is positive. */
  lemma {:induction false} TallyCountsAll<K(!new)>(s: seq<K>)
    ensures var t := TallyOf(s);
      && (forall i :: 0 <= i < |t| ==> t[i].count > 0)
      && (forall x :: x in s <==> exists i :: 0 <= i < |t| && t[i].key == x)
  {
    var t := TallyOf(s);
    forall i | 0 <= i < |t| ensures t[i].count > 0 {
      assert t[i].key in Dedupe(s);
    }
    forall x | x in s ensures exists i :: 0 <= i < |t| && t[i].key == x {
      assert x in Dedupe(s);
      var i :| 0 <= i < |Dedupe(s)| && Dedupe(s)[i] == x;
      assert t[i].key == x;
    }
  }

  /** No value occurs twice in `s`. */
  predicate Distinct<T(==)>(s: seq<T>) {
    forall i, j :: 0 <= i < j < |s| ==> s[i] != s[j]
  }

  /** In a sequence without repeats every value occurs at most once. */
  lemma {:induction false} DistinctOnce<T>(s: seq<T>, x: T)
    requires Distinct(s)
    ensures multiset(s)[x] <= 1
  {
    if |s| > 0 {
      var p := s[..|s| - 1];
      assert s == p + [s[|s| - 1]];
      assert Distinct(p) by {
        forall i, j | 0 <= i < j < |p| ensures p[i] != p[j] {
          assert p[i] == s[i] && p[j] == s[j];
        }
      }
      DistinctOnce(p, x);
      assert s[|s| - 1] !in p by {
        forall i | 0 <= i < |p| ensures p[i] != s[|s| - 1] {
          assert p[i] == s[i];
        }
      }
    }
  }

  /** A value at two positions occurs at least twice. */
  lemma TwiceCounted<T>(s: seq<T>, i: int, j: int)
    requires 0 <= i < j < |s|
    ensures s[i] == s[j] ==> multiset(s)[s[i]] >= 2
  {
    assert s == s[..j] + s[j..];
    assert s[i] == s[..j][i];
    assert s[j] == s[j..][0];
  }

  /** A permutation of a sequence without repeats has none either. */
  lemma DistinctPermutation<T>(a: seq<T>, b: seq<T>)
    requires Distinct(a) && multiset(a) == multiset(b)
    ensures Distinct(b)
  {
    forall i, j | 0 <= i < j < |b| ensures b[i] != b[j] {
      DistinctOnce(a, b[i]);
      TwiceCounted(b, i, j);
    }
  }

  /** A tally holds no entry twice (its keys are distinct). */
  lemma TallyDistinct<K(!new)>(s: seq<K>)
    ensures Distinct(TallyOf(s))
  {
    var t := TallyOf(s);
    forall i, j | 0 <= i < j < |t| ensures t[i] != t[j] {
      assert t[i].key == Dedupe(s)[i] && t[j].key == Dedupe(s)[j];
    }
  }

  /** Every earlier element of `s` is `le` every later one. */
  predicate Pairwise<T>(s: seq<T>, le: (T, T) -> bool) {
    forall i, j :: 0 <= i < j < |s| ==> le(s[i], s[j])
  }

  /** `[x for x in s if keep(x)]`: keeps the order of what it keeps. */
  function Filter<T(!new)>(s: seq<T>, keep: T -> bool): (r: seq<T>)
    ensures |r| <= |s|
    ensures forall x :: x in r <==> x in s && keep(x)
  {
    if |s| == 0 then []
    else
      var rest := Filter(s[1..], keep);
      assert s == [s[0]] + s[1..];
      if keep(s[0]) then [s[0]] + rest else rest
  }

  /** Filtering keeps every order the input was in. */
  lemma {:induction false} FilterKeepsOrder<T(!new)>(s: seq<T>, keep: T -> bool, le: (T, T) -> bool)
    requires Pairwise(s, le)
    ensures Pairwise(Filter(s, keep), le)
  {
    if |s| > 0 {
      var rest := Filter(s[1..], keep);
      FilterKeepsOrder(s[1..], keep, le);
      if keep(s[0]) {
        var r := [s[0]] + rest;
        forall i, j | 0 <= i < j < |r| ensures le(r[i], r[j]) {
          if i == 0 {
            assert r[j] in s[1..];
            var k :| 0 <= k < |s[1..]| && s[1..][k] == r[j];
            assert s[k + 1] == r[j];
          } else {
            assert r[i] == rest[i - 1] && r[j] == rest[j - 1];
          }
        }
      }
    }
  }
}

=== FILE: text.dfy ===
/**
 * The string operations the Python code applies at its boundaries: `strip()`,
 * `strip('"')`, `lower()`, `upper()`, `in` on strings, `replace(pat, "")`.
 * Case mapping is ASCII only (see README, Left out).
 */
module Text {

  /** Characters for which Python's `str.isspace()` holds; `strip()` removes exactly these. */
  predicate IsSpace(c: char) {
    || c == ' '
    || ('\t' <= c <= '\r')
    || ('\U{1C}' <= c <= '\U{1F}')
    || c == '\U{85}' || c == '\U{A0}' || c == '\U{1680}'
    || ('\U{2000}' <= c <= '\U{200A}')
    || c == '\U{2028}' || c == '\U{2029}' || c == '\U{202F}' || c == '\U{205F}' || c == '\U{3000}'
  }

  /** Drops leading characters satisfying `drop`. */
  function TrimStart(s: string, drop: char -> bool): (r: string)
    ensures |r| <= |s| && r == s[|s| - |r|..]
    ensures |r| > 0 ==> !drop(r[0])
    ensures forall i :: 0 <= i < |s| - |r| ==> drop(s[i])
    decreases |s|
  {
    if |s| > 0 && drop(s[0]) then TrimStart(s[1..], drop) else s
  }

  /** Drops trailing characters satisfying `drop`. */
  function TrimEnd(s: string, drop: char -> bool): (r: string)
    ensures |r| <= |s| && r == s[..|r|]
    ensures |r| > 0 ==> !drop(r[|r| - 1])
    ensures forall i :: |r| <= i < |s| ==> drop(s[i])
    decreases |s|
  {
    if |s| > 0 && drop(s[|s| - 1]) then TrimEnd(s[..|s| - 1], drop) else s
  }

  /** Neither end of `s` is a character `drop` removes. */
  predicate TrimmedBy(s: string, drop: char -> bool) {
    |s| == 0 || (!drop(s[0]) && !drop(s[|s| - 1]))
  }

  /** Every character of a trimmed string is a character of the original. */
  lemma TrimKeepsChars(s: string, drop: char -> bool)
    ensures forall i :: 0 <= i < |TrimBy(s, drop)| ==> TrimBy(s, drop)[i] in s
  {
    var a := TrimStart(s, drop);
    var r := TrimEnd(a, drop);
    forall i | 0 <= i < |r| ensures r[i] in s {
      assert r[i] == a[i];
      assert a[i] == s[|s| - |a| + i];
    }
  }

  /** Python's `s.strip(chars)` for the character class `drop`. */
  function TrimBy(s: string, drop: char -> bool): (r: string)
    ensures TrimmedBy(r, drop)
    ensures |r| <= |s|
    ensures TrimmedBy(s, drop) ==> r == s
    ensures r == "" <==> forall i :: 0 <= i < |s| ==> drop(s[i])
  {
    TrimAllDropped(s, drop);
    TrimEnd(TrimStart(s, drop), drop)
  }

  lemma TrimAllDropped(s: string, drop: char -> bool)
    ensures TrimEnd(TrimStart(s, drop), drop) == "" <==> forall i :: 0 <= i < |s| ==> drop(s[i])
  {
    var a := TrimStart(s, drop);
    var r := TrimEnd(a, drop);
    if r == "" {
      assert |a| == 0;
    }
  }

  /** Python's `s.strip()`. */
  function Strip(s: string): (r: string)
    ensures TrimmedBy(r, IsSpace)
    ensures TrimmedBy(s, IsSpace) ==> r == s
    ensures r == "" <==> forall i :: 0 <= i < |s| ==> IsSpace(s[i])
  {
    TrimBy(s, IsSpace)
  }

  /** Whitespace around a string that neither starts nor ends with whitespace is exactly what `strip()` removes. */
  lemma StripSurrounded(lead: string, x: string, trail: string)
    requires forall i :: 0 <= i < |lead| ==> IsSpace(lead[i])
    requires forall i :: 0 <= i < |trail| ==> IsSpace(trail[i])
    requires |x| > 0 && !IsSpace(x[0]) && !IsSpace(x[|x| - 1])
    ensures Strip(lead + x + trail) == x
  {
    var s := lead + x + trail;
    assert s == lead + (x + trail);
    LeadDropped(lead, x + trail);
    TrailDropped(x, trail);
    StripIsTrims(s);
  }

  lemma StripIsTrims(s: string)
    ensures Strip(s) == TrimEnd(TrimStart(s, IsSpace), IsSpace)
  {
  }

  /** `TrimStart` removes exactly a whitespace run in front of a non-space character. */
  lemma LeadDropped(lead: string, rest: string)
    requires forall i :: 0 <= i < |lead| ==> IsSpace(lead[i])
    requires |rest| > 0 && !IsSpace(rest[0])
    ensures TrimStart(lead + rest, IsSpace) == rest
  {
    var s := lead + rest;
    var a := TrimStart(s, IsSpace);
    var k := |s| - |a|;
    assert s[|lead|] == rest[0];
    assert k <= |lead|;
    assert forall i :: 0 <= i < |lead| ==> s[i] == lead[i];
    assert a[0] == s[k];
    assert k == |lead|;
    assert a == s[|lead|..];
  }

  /** `TrimEnd` removes exactly a whitespace run behind a non-space character. */
  lemma TrailDropped(x: string, trail: string)
    requires forall i :: 0 <= i < |trail| ==> IsSpace(trail[i])
    requires |x| > 0 && !IsSpace(x[|x| - 1])
    ensures TrimEnd(x + trail, IsSpace) == x
  {
    var a := x + trail;
    var r := TrimEnd(a, IsSpace);
    assert a[|x| - 1] == x[|x| - 1];
    assert |r| >= |x|;
    assert forall i :: |x| <= i < |a| ==> a[i] == trail[i - |x|];
    assert r[|r| - 1] == a[|r| - 1];
    assert |r| == |x|;
    assert r == a[..|x|];
  }

  /** `strip()` is idempotent. */
  lemma StripIdempotent(s: string)
    ensures Strip(Strip(s)) == Strip(s)
  {
  }

  /** Python's `s.strip('"')`. */
  function StripQuotes(s: string): (r: string)
    ensures |r| == 0 || (r[0] != '"' && r[|r| - 1] != '"')
  {
    TrimBy(s, c => c == '"')
  }

  function LowerChar(c: char): char {
    if 'A' <= c <= 'Z' then (c as int + 32) as char else c
  }

  function UpperChar(c: char): char {
    if 'a' <= c <= 'z' then (c as int - 32) as char else c
  }

  /** Python's `s.lower()` on ASCII letters. */
  function Lower(s: string): (r: string)
    ensures |r| == |s|
    ensures forall i :: 0 <= i < |s| ==> r[i] == LowerChar(s[i])
  {
    seq(|s|, i requires 0 <= i < |s| => LowerChar(s[i]))
  }

  /** Python's `s.upper()` on ASCII letters. */
  function Upper(s: string): (r: string)
    ensures |r| == |s|
    ensures forall i :: 0 <= i < |s| ==> r[i] == UpperChar(s[i])
    ensures forall i :: 0 <= i < |r| ==> !('a' <= r[i] <= 'z')
  {
    seq(|s|, i requires 0 <= i < |s| => UpperChar(s[i]))
  }

  /** Python's `sub in s`. */
  predicate Contains(s: string, sub: string)
    decreases |s|
  {
    sub <= s || (|s| > 0 && Contains(s[1..], sub))
  }

  /** `Contains` means an occurrence at some index. */
  lemma {:induction false} ContainsAt(s: string, sub: string, k: nat)
    requires k + |sub| <= |s| && s[k..k + |sub|] == sub
    ensures Contains(s, sub)
    decreases k
  {
    if k == 0 {
      assert sub <= s;
    } else {
      assert s[1..][k - 1..k - 1 + |sub|] == s[k..k + |sub|];
      ContainsAt(s[1..], sub, k - 1);
    }
  }

  /** A string containing `sub` contains every character of `sub`. */
  lemma {:induction false} ContainsNeedsChar(s: string, sub: string, i: nat)
    requires i < |sub| && sub[i] !in s
    ensures !Contains(s, sub)
    decreases |s|
  {
    if |s| > 0 {
      assert sub[i] !in s[1..];
      ContainsNeedsChar(s[1..], sub, i);
    }
  }

  /** Python's `s.replace(pat, "")`: every non-overlapping occurrence, scanned left to right, is removed. */
  function RemoveAll(s: string, pat: string): (r: string)
    requires |pat| > 0
    ensures |r| <= |s|
    ensures |pat| == 1 ==> forall i :: 0 <= i < |r| ==> r[i] != pat[0]
    ensures (forall i :: 0 <= i < |s| ==> s[i] != pat[0]) ==> r == s
    decreases |s|
  {
    if |s| < |pat| then
      assert |pat| == 1 ==> |s| == 0;
      s
    else if pat <= s then RemoveAll(s[|pat|..], pat)
    else [s[0]] + RemoveAll(s[1..], pat)
  }

  /** Removal keeps only characters of the original. */
  lemma {:induction false} RemoveAllKeepsChars(s: string, pat: string)
    requires |pat| > 0
    ensures forall i :: 0 <= i < |RemoveAll(s, pat)| ==> RemoveAll(s, pat)[i] in s
    decreases |s|
  {
    if |s| < |pat| {
    } else if pat <= s {
      RemoveAllKeepsChars(s[|pat|..], pat);
      var r := RemoveAll(s[|pat|..], pat);
      forall i | 0 <= i < |r| ensures r[i] in s {
        assert r[i] in s[|pat|..];
      }
    } else {
      RemoveAllKeepsChars(s[1..], pat);
      var r := RemoveAll(s[1..], pat);
      forall i | 0 <= i < |r| ensures r[i] in s {
        assert r[i] in s[1..];
      }
    }
  }

  /** Python's `s.replace(a, b)` for single characters. */
  function ReplaceChar(s: string, a: char, b: char): (r: string)
    ensures |r| == |s|
    ensures forall i :: 0 <= i < |s| ==> r[i] == (if s[i] == a then b else s[i])
  {
    seq(|s|, i requires 0 <= i < |s| => if s[i] == a then b else s[i])
  }

  /** Python's slice `s[:n]`: the whole string when it is shorter than `n`. */
  function Take(s: string, n: nat): (r: string)
    ensures |r| == if |s| <= n then |s| else n
    ensures r <= s
  {
    if |s| <= n then s else s[..n]
  }

  // ---- case mapping and stripping commute ----

  lemma LowerUpperChar(c: char)
    ensures LowerChar(UpperChar(c)) == LowerChar(c)
    ensures LowerChar(LowerChar(c)) == LowerChar(c)
    ensures IsSpace(LowerChar(c)) <==> IsSpace(c)
    ensures IsSpace(UpperChar(c)) <==> IsSpace(c)
  {
  }

  /** Lower-casing an upper-cased string is lower-casing it. */
  lemma LowerOfUpper(s: string)
    ensures Lower(Upper(s)) == Lower(s)
    ensures Lower(Lower(s)) == Lower(s)
  {
    forall i | 0 <= i < |s| ensures Lower(Upper(s))[i] == Lower(s)[i] && Lower(Lower(s))[i] == Lower(s)[i] {
      LowerUpperChar(s[i]);
    }
  }

  lemma {:induction false} TrimStartLower(s: string)
    ensures TrimStart(Lower(s), IsSpace) == Lower(TrimStart(s, IsSpace))
    decreases |s|
  {
    if |s| > 0 {
      LowerUpperChar(s[0]);
      if IsSpace(s[0]) {
        assert Lower(s)[1..] == Lower(s[1..]);
        TrimStartLower(s[1..]);
      }
    }
  }

  lemma {:induction false} TrimEndLower(s: string)
    ensures TrimEnd(Lower(s), IsSpace) == Lower(TrimEnd(s, IsSpace))
    decreases |s|
  {
    if |s| > 0 {
      LowerUpperChar(s[|s| - 1]);
      if IsSpace(s[|s| - 1]) {
        assert Lower(s)[..|s| - 1] == Lower(s[..|s| - 1]);
        TrimEndLower(s[..|s| - 1]);
      }
    }
  }

  lemma {:induction false} TrimStartUpper(s: string)
    ensures TrimStart(Upper(s), IsSpace) == Upper(TrimStart(s, IsSpace))
    decreases |s|
  {
    if |s| > 0 {
      LowerUpperChar(s[0]);
      if IsSpace(s[0]) {
        assert Upper(s)[1..] == Upper(s[1..]);
        TrimStartUpper(s[1..]);
      }
    }
  }

  lemma {:induction false} TrimEndUpper(s: string)
    ensures TrimEnd(Upper(s), IsSpace) == Upper(TrimEnd(s, IsSpace))
    decreases |s|
  {
    if |s| > 0 {
      LowerUpperChar(s[|s| - 1]);
      if IsSpace(s[|s| - 1]) {
        assert Upper(s)[..|s| - 1] == Upper(s[..|s| - 1]);
        TrimEndUpper(s[..|s| - 1]);
      }
    }
  }

  /** `s.strip().lower() == s.lower().strip()`. */
  lemma StripCommutesWithLower(s: string)
    ensures Strip(Lower(s)) == Lower(Strip(s))
  {
    TrimStartLower(s);
    TrimEndLower(TrimStart(s, IsSpace));
  }

  /** `s.strip().upper() == s.upper().strip()`. */
  lemma StripCommutesWithUpper(s: string)
    ensures Strip(Upper(s)) == Upper(Strip(s))
  {
    TrimStartUpper(s);
    TrimEndUpper(TrimStart(s, IsSpace));
  }
}

=== FILE: wrappers.dfy ===
/** Failure-compatible helper datatypes shared by every module of the model. */
module Wrappers {

  /** A value that may be absent: Python's `None` versus a present value. */
  datatype Option<+T> = None | Some(value: T) {

    /** Returns the value, or `default` when absent (Python's `x if x is not None else default`). */
    function GetOr(default: T): T {
      match this
      case Some(v) => v
      case None => default
    }
  }

  /** Either a value or an error: the model of a Python call that returns or raises. */
  datatype Result<+R, +E> = Ok(value: R) | Err(error: E)
}
